=== FILE: README.md ===
# hm305_ctrl core in Dafny

This project models the core of hm305_ctrl. It is a controller for HM305-series bench
power supplies, which are driven over Modbus RTU on a serial line. It also serves a small
text protocol, SCPI-like, over TCP. The model has three layers, and each layer is a set of
pure functions over immutable datatypes.

- **Frame codec** (`crc.dfy`, `modbus.dfy`, `legacy.dfy`). This layer covers:
  - the CRC-16 of MODBUS over Serial Line V1.02, section 6.2.2 (seed 0xFFFF, reflected
    polynomial 0xA001, low byte sent first);
  - the `'>BBHH'` request frame for function 0x03 (Read Holding Registers, section 6.3 of
    the MODBUS Application Protocol Specification V1.1b3) and function 0x06 (Write Single
    Register, section 6.6);
  - collecting a reply until a read times out, stripping and checking its CRC, and the
    function-code switch that decodes it.

  The serial port is a `Link`: the frames written so far, plus the chunks that later reads
  will return. An empty chunk is a timeout. `legacy.dfy` is the older codec in `hm305.py`. It
  raises where the current one returns the sentinels `0` and `(0, 0)`.
- **Register layer** (`transport.dfy`, `floatsetting.dfy`, `registers.dfy`). This layer covers:
  - the `HM305.CMD` register table;
  - the 32-bit value split over two registers;
  - the output switch;
  - the two `FloatSetting`s.

  A `FloatSetting` caches its setpoint in software, together with an out-of-sync flag. Only
  the `instrument_setpoint` setter and `apply` write the setpoint register, and they clamp
  to [min, max] and scale before writing. Here the bus is an abstract request log, and each
  request is answered by an oracle indexed by its position in the log.
  `Settings.ExecKeepsSync` proves what a cleared out-of-sync flag promises: the last
  completed exchange with the setpoint register agrees with the cache.
- **Command layer** (`text.dfy`, `commands.dfy`, `parser.dfy`, `workers.dfy`, `server.dfy`).
  This layer covers:
  - the command classes, with their class attributes and the three instance flags
    `stale`, `complete` and `result`;
  - the class-wide `in_queue` guard of the apply commands;
  - both command parsers;
  - the two queue workers;
  - `HM305pServer.handle`.

  The queues are sequences drained in FIFO order. `put` followed by `join` means "run that
  queue's worker until the queue is empty". A worker whose item raised is dead, and a later
  `join` on its queue blocks for ever (`Server.Hung`). The instrument behind the commands is
  a call log plus an answer oracle. Each request gets exactly one `Reply`, which is one of:
  - a written text;
  - an exception that ends the handler before it writes;
  - a handler blocked for ever.

Python integers are unbounded, and so are Dafny's: `>> 16` is `/ 65536` and `& 0xFFFF` is
`% 65536`, which agree for non-negative values. Python floats are modelled as reals.
`int(round(x))` is round-half-to-even on reals (`Base.RoundHalfEven`). Exceptions are the
`Err` side of a `Result`. Where a call has already changed state before it raises, the record
it returns also carries that state.

Three behaviours of the code are easy to misread:
- `instrument_setpoint = x` stores the unclamped `x` in the cache even when the register gets
  the clamped value (`Registers.OverLimitVoltageIsClamped`).
- The queue workers catch only `Empty`. An exception from `invoke` ends the worker, and its
  item is never acknowledged (`Workers.DrainFacts`).
- In the current special case, the setpoint object is a `SetCurrentCommand`. That class uses
  the serial port, so the fast worker refuses it and the current is never written
  (`Server.CurrentLineNeverWritesCurrent`).

## Model

| member | source | states |
|---|---|---|
| Base.RoundHalfEven | hm305/__init__.py:158-159 | `int(round(x))` lies within one half of x, and when x is exactly halfway it is the even neighbour |
| Base.RoundHalfEvenNearest | hm305.py:18-19 | an integer strictly closer than one half to x is what `rint(x)` returns |
| Base.RoundHalfEvenBounded | hm305/__init__.py:158-159 | rounding a value between two integers stays between them |
| Base.SplitCombine | hm305/__init__.py:75-79 | recombining `val >> 16` and `val & 0xFFFF` as `(hi << 16) + lo` gives back val, and both halves fit a register exactly when 0 <= val < 2^32 |
| Base.CombineSplit | hm305/__init__.py:75 | two register words combine into a 32-bit value whose halves are those words |
| Crc.Crc16 | modbus/__init__.py:102-114 | the reference CRC, a fold of the eight-round shift/xor step from 0xFFFF, always fits 16 bits |
| Crc.CalculateCrc | modbus/__init__.py:102-114 | the nested byte and bit loop as written computes exactly the reference CRC and returns a value in [0, 0xFFFF]; `hm305.py` lines 179-191 hold the same loop |
| Crc.Crc16Snoc | modbus/__init__.py:106-113 | one more byte updates the CRC by one more application of the per-byte step |
| Crc.Crc16Empty | modbus/__init__.py:105 | the CRC of no bytes is the seed 0xFFFF |
| Modbus.LittleEndian | modbus/__init__.py:20 | `struct.pack('<H', w)` is two bytes, low byte first, that read back as w |
| Modbus.Pack | modbus/__init__.py:46 | `'>BBHH'` packing succeeds exactly when the device and function codes fit a byte and the address and value fit 16 bits (struct.error otherwise), giving six bytes: device, function, big-endian address, big-endian value |
| Modbus.Seal | modbus/__init__.py:19-20 | a transmitted frame is the payload followed by the payload's CRC, low byte first |
| Modbus.Send | modbus/__init__.py:19-25 | `_send` appends one sealed frame to the port, reads nothing, and returns the frame length |
| Modbus.SendPacket | modbus/__init__.py:39-47 | `send_packet` writes exactly one sealed request frame when every field fits, and fails otherwise |
| Modbus.RequestFramesAreEightBytes | modbus/__init__.py:20 | every request frame on the wire is 8 bytes long, and the CRC check of the receiving side recovers the 6-byte request from it |
| Modbus.ReadUntilIdle | modbus/__init__.py:27-33 | the read loop collects every chunk up to the first empty read and leaves the chunks after it unread |
| Modbus.ProcPktCrc | modbus/__init__.py:84-90 | a reply shorter than its CRC raises struct.error, and a CRC mismatch raises `CRCError("RX")` |
| Modbus.CrcCheckAcceptsExactlySealed | modbus/__init__.py:84-90 | the CRC check returns a payload exactly when the frame is that payload sealed by `_send`: the encode/check round trip holds in both directions |
| Modbus.RecvFrame | modbus/__init__.py:34-37 | two bytes or fewer give None; a longer reply is accepted only when it is correctly sealed, and the payload comes back without its CRC |
| Modbus.RxPacket | modbus/__init__.py:49-73 | `RxPacket.__init__` decodes only 16-bit words and echoes, keeps the raw packet only for a read reply whose length byte is not 2, and raises only IndexError or the length asserts; the branch-by-branch results are in the next two rows |
| Modbus.RxPacketInvertsEncoding | modbus/__init__.py:49-63 | decoding the echo of a write request gives back `(address, value)`, and decoding a two-byte read reply gives back the word |
| Modbus.RxPacketCases | modbus/__init__.py:53-73 | a wrong length byte or a wrong write-echo length fails its assert; another length gives the raw packet; 0x83 gives `(0, 0)` for sub-code 0x08 and `0` otherwise; any other function code gives `0` |
| Modbus.ReceivePacket | modbus/__init__.py:75-82 | `receive_packet` consumes exactly the chunks up to and including the first timeout and writes nothing |
| Modbus.TimeoutReadsAsZero | modbus/__init__.py:75-82 | when no reply arrives, a read returns 0 and a write returns False |
| Modbus.SetByAddr | modbus/__init__.py:92-95 | `set_by_addr` sends one write request and returns True exactly when the decoded reply equals `(address, value)`; an unpackable request raises with nothing sent |
| Modbus.GetByAddr | modbus/__init__.py:97-100 | `get_by_addr` sends one read request and returns the decoded reply |
| Modbus.EchoedWriteSucceeds | modbus/__init__.py:92-95 | a device that echoes the request makes the write return True |
| Modbus.ReadReplyDecodes | modbus/__init__.py:97-100 | a well-formed one-register reply makes the read return its word |
| Modbus.CrcRejectionLooksLikeZeroWrite | modbus/__init__.py:64-67 | the 0x83/0x08 reply, which the code reads as "device rejected our CRC", is indistinguishable from a successful echo of writing 0 to register 0 |
| Legacy.SendPacket | hm305.py:77-86 | the older `send_packet`, choosing the function code as `(6, 3)[read]`, puts the same bytes on the wire as the current one |
| Legacy.RecvFrame | hm305.py:59-75 | the older `recv` accepts, rejects and strips replies exactly as the current `_recv` does |
| Legacy.Decode | hm305.py:88-109 | the older `receive_packet` returns None exactly when `recv` gave nothing, and any data it returns is what `RxPacket` decodes from the same packet; the raising paths are in the next row |
| Legacy.DecodeRaisesWhereCurrentReturnsSentinels | hm305.py:88-109 | where the older decoder returns a value it agrees with `RxPacket`; it raises `CRCError("TX")` for 0x83/0x08, raises on any other 0x83 reply and on an unknown function code, where the current decoder returns `(0, 0)` or `0` |
| Legacy.ReceivePacket | hm305.py:88-90 | the older `receive_packet` reads exactly what `recv` collects and writes nothing |
| Legacy.X | hm305.py:111-117 | `x` raises before sending when a field does not fit; a write that returns gives None, and only for a non-zero address |
| Legacy.XReadAgreesWithGetByAddr | hm305.py:111-115 | a read through `x` returns the decoded reply: it leaves the port as `get_by_addr` does, returns the same data wherever it returns data, gives None on a timeout where `get_by_addr` gives 0, and raises whatever `get_by_addr` raises |
| Legacy.XIgnoresTheEcho | hm305.py:117 | a write through `x` succeeds whatever register and value the device echoes, because `val == ret` is only the assert's message |
| Legacy.X4 | hm305.py:119-124 | `x4` returns a value for a read and None for a write |
| Legacy.X4WriteSendsHalves | hm305.py:122-124 | an `x4` write sends the high half to addr and then the low half to addr + 1, and the two halves recombine to the value |
| Legacy.X4ReadCombines | hm305.py:120-121 | an `x4` read of two words gives `(hi << 16) + lo`, a value below 2^32 |
| Transport.GetByAddr | modbus/__init__.py:97-100 | on the abstract bus, a read of a 16-bit address logs one read request and returns that request's reply; an unpackable address raises and logs nothing |
| Transport.SetByAddr | modbus/__init__.py:92-95 | on the abstract bus, a write logs one write request and returns True exactly when the reply is the echo `(address, value)` |
| Transport.ReadMatchesCodec | modbus/__init__.py:97-100 | the abstract read gives the same result as the codec's `get_by_addr` when the oracle answers what the codec decodes |
| Transport.WriteMatchesCodec | modbus/__init__.py:92-95 | the abstract write gives the same result as the codec's `set_by_addr` when the oracle answers what the codec decodes |
| Transport.DecodedWordsFit | modbus/__init__.py:53-57 | every word the codec decodes fits 16 bits |
| Settings.Create | hm305/floatsetting.py:5-25 | a new setting has cache 0.0, is out of sync, and keeps the addresses, scale and bounds it was given |
| Settings.CreateWithDefaults | hm305/floatsetting.py:10-14 | the default scale is 1.0 and the default bounds are [0.0, 999.0] with no bound registers |
| Settings.Clamp | hm305/floatsetting.py:39-42 | for min <= max the clamped value lies in [min, max], and it equals the input exactly when the input is already inside |
| Settings.WriteIsClamped | hm305/floatsetting.py:38-43 | the pre-scaling value written lies in [min, max], and an in-range value is written as `int(round(value * scalar))` |
| Settings.WrittenValueFits | hm305/floatsetting.py:43-44 | with non-negative bounds and `max * scalar <= 65535`, the written integer fits a register |
| Settings.ScaledReading | hm305/floatsetting.py:34-36 | a scaled reading makes one read and succeeds exactly when the reply is a word and the scale is non-zero, returning the word divided by the scale |
| Settings.ScaledIntWriting | hm305/floatsetting.py:38-44 | `_scaled_int_writing` logs one write of the clamped, scaled, rounded value to the given register, raises with nothing sent when either does not fit 16 bits, and returns True exactly when the device echoes that write |
| Settings.SetSetpoint | hm305/floatsetting.py:50-53 | the `setpoint` setter only sets the cache and marks the setting out of sync |
| Settings.Increment | hm305/floatsetting.py:72-74 | `increment` adds to the cache, marks the setting out of sync and changes nothing else |
| Settings.ReadInstrumentSetpoint | hm305/floatsetting.py:55-60 | the `instrument_setpoint` getter makes one read of the setpoint register; on success the cache is the reading over the scale and the flag is cleared, and on failure the setting is unchanged |
| Settings.WriteInstrumentSetpoint | hm305/floatsetting.py:62-66 | the `instrument_setpoint` setter stores the unclamped value in the cache, makes one write of the clamped scaled value, and clears the flag exactly when that write returns |
| Settings.Value | hm305/floatsetting.py:68-70 | `value` makes one read of the value register and touches neither the cache nor the flag; it returns exactly when the reply is a word and the scale is non-zero, and then returns the reading divided by the scale |
| Settings.Apply | hm305/floatsetting.py:62-77 | `apply` (lines 76-77, through the setter at 62-66) writes the cached setpoint once, keeps the cache and configuration, returns exactly when the register and value fit and the device answers, and clears the out-of-sync flag exactly when it returns |
| Settings.ReadBound | hm305/floatsetting.py:29-32 | a bound with no register is kept without any bus traffic; one with a register is read and scaled |
| Settings.Initialize | hm305/floatsetting.py:27-32 | `initialize` seeds the cache from the instrument and clears the flag; when it returns it has read the setpoint, then min and max when their registers are given, in that order, and each such bound is the scaled reading of its register; a bound without a register is kept |
| Settings.InitializeOnlyReads | hm305/floatsetting.py:27-32 | `initialize` appends at most three requests, all reads, of the setpoint register and the configured bound registers |
| Settings.OnlyWritersWrite | hm305/floatsetting.py:46-77 | only the `instrument_setpoint` setter and `apply` write, and they write only the setpoint register; the software setters make no bus call, and every other request stays on the setting's own registers |
| Settings.ExecKeepsSync | hm305/floatsetting.py:46-77 | every operation keeps the out-of-sync flag honest: when it is clear, the last completed exchange with the setpoint register agrees with the cache |
| Settings.InitializeKeepsSync | hm305/floatsetting.py:27-32 | `initialize` keeps the out-of-sync flag honest |
| Registers.AddressTableIsInjective | hm305/__init__.py:12-41 | every `CMD` address fits the `'>H'` field and no two members share an address |
| Registers.AddressRoundTrip | hm305/__init__.py:12-41 | looking up a member's address in the table gives that member back, and the address fits a 16-bit word |
| Registers.Create | hm305/__init__.py:43-65 | voltage uses scale 100 on registers 0x10/0x30 with bound registers 0xC110/0xC11E; current uses scale 1000 on 0x11/0x31 with 0xC120/0xC12E |
| Registers.CreatedSettingsAreSeparate | hm305/__init__.py:50-65 | the two settings are well formed and share no register |
| Registers.CurrentOpsKeepVoltageSync | hm305/__init__.py:50-65 | no operation on the current setting can make the voltage setting's cleared flag dishonest |
| Registers.GetVal | hm305/__init__.py:70-71 | `_get_val` logs one read of the register and returns its reply |
| Registers.SetVal | hm305/__init__.py:67-68 | `_set_val` logs one write of a 16-bit value and raises with nothing sent otherwise; it returns exactly when the device answers, and returns True exactly when the answer is the echo of the write |
| Registers.ReadWord | hm305/__init__.py:73-75 | a 32-bit read reads addr and then addr + 1 and returns `(first << 16) + second` |
| Registers.WriteWord | hm305/__init__.py:76-80 | a 32-bit write sends the high half first and writes the low half only when the first write was echoed; otherwise it returns False after one write; after an echoed first write the result is the second write's own outcome, True exactly when the low half is echoed |
| Registers.WordWriteThenRead | hm305/__init__.py:73-80 | against an echoing device, writing a 32-bit value and reading it back gives the value |
| Registers.Watts | hm305/__init__.py:107-109 | `w` is the 32-bit power reading divided by 1000 |
| Registers.Switch | hm305/__init__.py:123-127 | `on` writes 1 and `off` writes 0 to the Output register 0x0001, and nothing else |
| Registers.Initialize | hm305/__init__.py:82-85 | `initialize` only reads (at most six requests, earlier traffic kept); on return both out-of-sync flags are clear; when the voltage step raises, the current setting is untouched; setpoint registers and scales are kept |
| Registers.InitializeSyncsBoth | hm305/__init__.py:82-85 | after initialize of a new driver returns, both settings have clear flags and each agrees with the last completed exchange of its own setpoint register |
| Registers.InitializeReadsInOrder | hm305/__init__.py:82-85 | a successful initialize of a new driver reads 0x30, 0xC110, 0xC11E, then 0x31, 0xC120, 0xC12E, and writes nothing |
| Registers.OverLimitVoltageIsClamped | hm305/floatsetting.py:62-66 | setting 50 V with a 32 V maximum writes 3200 to 0x30, while the cache keeps 50.0 and the flag is cleared |
| Text.LeadCount | hm305/command_factory.py:44 | the run of class characters `lstrip` removes stops at the first character outside the class (or at the end) |
| Text.TrailCount | hm305/command_factory.py:44 | the run of class characters `rstrip` removes stops at the last character outside the class (or at the start) |
| Text.TrimStartDropsClass | hm305/command_factory.py:44 | every character `lstrip` removes is in the class, so the removed prefix is the longest such prefix |
| Text.TrimEndDropsClass | hm305/command_factory.py:44 | every character `rstrip` removes is in the class, so the removed suffix is the longest such suffix |
| Text.StripIsSlice | hm305/command_factory.py:44-46 | `strip` keeps one contiguous slice of its input, starting where the leading class run ends |
| Text.StripDropsTail | hm305/command_factory.py:44-46 | everything `strip` removes after the kept slice is in the class |
| Text.StripEndsOutsideClass | hm305/command_factory.py:44-46 | a non-empty result of `strip` neither starts nor ends with a class character |
| Text.StripIsMaximalMiddle | hm305/command_factory.py:44-46 | `strip` returns a contiguous middle of its input: everything removed on either side is in the class, and the result neither starts nor ends with a class character |
| Text.ReplaceDouble | hm305/command_factory.py:48 | one `replace("  ", " ")` never lengthens the string and strictly shortens it while a double space remains, which is why the collapse loop terminates |
| Text.CollapseIsSqueeze | hm305/command_factory.py:47-48 | the collapse loop ends in the reference definition (every maximal run of spaces shortened to one, nothing else changed) and leaves no double space |
| Text.Collapse | hm305/command_factory.py:47-48 | the loop as written returns the squeezed string, which has no double space |
| Text.CountSpaces | hm305/command_factory.py:50 | `count(' ')` is zero exactly when the string has no space |
| Text.SplitOnceRejoins | hm305/command_factory.py:53 | with exactly one space, `split(' ')` gives two space-free parts that rejoin around that space to the input |
| Commands.ClassAttributes | hm305/server_commands.py:12-162 | only the voltage setpoint write and the two setpoint queries stay off the serial port; the queries and the voltage setpoint write wait for their result; queries and applies take no argument; applies use the port and do not wait |
| Commands.Construct | hm305/server_commands.py:7-122 | calling a constructor with the wrong number of arguments raises TypeError; a new command has its class; only a float command or an apply can be born stale, and only an apply can change a guard |
| Commands.ConstructFlags | hm305/server_commands.py:7-122 | a float command is stale exactly when its numeral does not parse, with result 'error: bad float', and otherwise holds the parsed number; an apply is stale and complete exactly when its guard was set, and afterwards its own guard is set while the other guard is untouched; every other command starts clean |
| Commands.ConstructWithoutArgument | hm305/server_commands.py:116-122 | an argument-taking constructor called bare raises TypeError; an apply's flags copy its guard, and the guard is then set |
| Commands.Invoke | hm305/server_commands.py:15-162 | `invoke` keeps the class and the stale flag, marks the command complete when it returns, makes at most one instrument call, clears the apply guard of an apply even when the instrument raises, and moves no other guard |
| Commands.Ask | hm305/server_commands.py:83-85 | an instrument call is logged once; it succeeds exactly when the instrument answers, and when `float()` of the answer parses if a float is asked for; a raise leaves the command as it was |
| Commands.InvokeCalls | hm305/server_commands.py:68-161 | which instrument call each class makes, with its argument; a complete `SetVoltageCommand` makes none |
| Commands.SetVoltageWritesOnce | hm305/server_commands.py:95-98 | `SetVoltageCommand.invoke` is idempotent on the instrument: invoked again after it returned, it makes no second call |
| Commands.ApplyGuardCycle | hm305/server_commands.py:111-127 | an apply built while its guard is clear is live and sets the guard, so the next one is stale; invoking the live one clears the guard, even when the instrument raises, so the one after is live again |
| Commands.Render | hm305/server_commands.py:24-77 | `result_as_string` fails for a float command exactly when its result is not a number, and every other class renders |
| Commands.BadFloatCannotRender | hm305/server_commands.py:34-44 | a float command whose numeral does not parse cannot render its own error text: the `2.3f` format raises on it |
| Commands.OldRegistryWellSorted | hm305/server_commands.py:169-177 | in the older registry every query constructor builds a query and every set constructor a non-query; `VOLTage:APPLY` has no query side and there is no `CURRent:APPLY` |
| Commands.OldParseRejectsDoubleSpace | hm305/server_commands.py:179-207 | the older parser does not collapse spaces, so a line with two or more spaces left yields no command |
| Commands.OldParseCallsBareSet | hm305/server_commands.py:196-202 | for a bare non-query the older parser calls the set constructor with no argument, which raises TypeError for every argument-taking class and builds an apply (claiming its guard) for `VOLTage:APPLY` |
| Parser.RegistryWellSorted | hm305/command_factory.py:25-40 | every query constructor in the registry builds a query and every set constructor a non-query; the apply entries have no query side |
| Parser.RegistryExtendsOld | hm305/command_factory.py:25-40 | the registry holds every entry of the older one unchanged, and its keys are exactly the older keys plus `CURRent:APPLY` |
| Parser.RegistryShape | hm305/command_factory.py:25-40 | the registry is well sorted; the apply entries have no query side; `CURRent:SETPoint` builds the same class as `CURRent`; it is the older registry plus `CURRent:APPLY` |
| Parser.NormalisedIsSqueezed | hm305/command_factory.py:44-48 | the normalised line is the trimmed line with every run of spaces shortened to one, and it has no double space |
| Parser.ParseBySpaceCount | hm305/command_factory.py:62-72 | two or more spaces give no command; a bare non-query gives no command and calls no constructor; a bare query calls the query constructor of the resolved name, if there is one |
| Parser.ParseWithArgument | hm305/command_factory.py:52-61 | with one space the line is name, space, argument; an unknown name gives no command; a query raises TypeError because no query class takes an argument; a non-query calls the set constructor with the argument |
| Parser.ParseNeverApplies | hm305/command_factory.py:42-73 | the parser never builds an apply and never touches a guard, and a command it returns is a query exactly when the stripped line ended in `?` |
| Workers.Decide | hm305/queue_handler.py:16-44 | an item is skipped exactly when it is stale; it is refused exactly when it is live, needs the serial port and is on the fast worker |
| Workers.Process | hm305/queue_handler.py:36-44 | no worker changes an item's class or staleness |
| Workers.ProcessFacts | hm305/queue_handler.py:37-44 | a skipped item comes out as it went in, a refused one carries "QUEUE ERROR", and neither raises: only an invoked item can raise |
| Workers.DrainShape | hm305/queue_handler.py:12-23 | items leave in FIFO order; every item taken is acknowledged except one that raised, which ends the run; an idle worker left nothing behind; without `time_to_die` the run does not stop for it |
| Workers.DrainItems | hm305/queue_handler.py:33-47 | every item taken keeps its class and staleness; a stale item comes out untouched; the fast worker stamps "QUEUE ERROR" on a live item that needs the serial port |
| Workers.DrainFacts | hm305/queue_handler.py:12-47 | both workers' runs satisfy the order, acknowledgement and per-item rules together |
| Workers.SerialWorkerInvokesEveryLiveItem | hm305/queue_handler.py:15-21 | the serial worker invokes every live item, whatever its port flag |
| Workers.FastWorkerGuardsThePort | hm305/queue_handler.py:37-44 | the fast worker makes no instrument call for a stale item or one that needs the serial port, and invokes every other item |
| Workers.SkippedApplyKeepsGuard | hm305/queue_handler.py:16-20 | a worker clears an apply's guard only by invoking it: a stale or refused apply leaves the guard as it was |
| Workers.RunWorker | hm305/queue_handler.py:12-23 | the loop as written (check `time_to_die`, take the head, act, acknowledge) computes the run Drain describes |
| Server.PutAndJoin | hm305/server.py:67-70 | `put` then `join` leaves the other queue alone; when it returns, the queue is empty and its worker alive; when it hangs, that worker is dead |
| Server.JoinSingle | hm305/server.py:47-48 | joining an empty queue with a live worker processes exactly the one command put on it |
| Server.RenderFixed | hm305/server_commands.py:43-44 | corrected rendering fails exactly for a live float command whose result is not a number or flag, so a stale bad-float command always answers; a live command renders exactly as `result_as_string` does |
| Server.UnknownLineAnswersNotFound | hm305/server.py:76-77 | a line that parses to nothing queues nothing and answers "error: cmd not found"; a line the parser raises on changes nothing and gets no answer |
| Server.VoltageLineWritesSetpointThenQueuesApply | hm305/server.py:42-50 | `VOLTage x` with a good numeral never queues the set command itself: the setpoint write of x runs on the fast queue, then one apply (stale when an apply is already pending) goes on the serial queue and the answer is x in `2.3f`; if the instrument raises, the handler hangs and no apply is queued |
| Server.CurrentLineNeverWritesCurrent | hm305/server.py:51-59 | `CURRent x` puts a serial-port command on the fast queue, which refuses it: the current is never written, the handler raises instead of answering, and a current apply is still queued |
| Server.GenericRouting | hm305/server.py:60-74 | any other command goes to the serial queue exactly when it uses the serial port; without `wait_for_result` it is only queued and the answer is "DONE\n"; with it, the queue is drained and the answer is the command's own `result_as_string` |
| Server.ProcessKeepsGuardTracking | hm305/queue_handler.py:16-21 | one serial-worker step keeps each guard set exactly when a live apply of its class is queued |
| Server.SerialDrainKeepsGuardTracking | hm305/queue_handler.py:12-23 | the serial worker keeps the guards tracking its queue however far it gets, whether or not an item raises |
| Server.BackgroundKeepsGuardInv | hm305/queue_handler.py:12-23 | the serial worker running on its own keeps the guard invariant |
| Server.PutAndJoinKeepsGuardInv | hm305/server.py:67-70 | queuing and draining a non-apply command keeps the guard invariant |
| Server.QueueApplyKeepsGuardInv | hm305/server_commands.py:116-122 | building an apply and queuing it on the serial queue keeps the guard invariant |
| Server.SpecialFixedKeepsGuardInv | hm305/server.py:42-59 | the corrected special cases keep the guard invariant |
| Server.RouteFixedKeepsGuardInv | hm305/server.py:42-74 | corrected routing of any parsed command keeps the guard invariant |
| Server.HandleFixedKeepsGuardInv | hm305/server.py:37-78 | after any request to the corrected server, each apply guard is set exactly when one live apply of its class is queued, and no apply is on the fast queue |
| Server.DrainedServerAcceptsApplies | hm305/server_commands.py:116-125 | under the invariant, once the serial queue is empty both guards are clear, so the next apply of either class is live |
| Server.BadFloatLeavesApplyGuardSet | hm305/server.py:42-50 | as written, `VOLTage` with a bad numeral gets no answer and makes no call, but it sets the voltage guard while leaving no live apply queued; whatever the serial worker does later, the guard stays set and every later voltage apply is born stale |
| Server.BadFloatLineWitness | hm305/server.py:42-50 | the line `VOLTage x` to a new server: no answer, the invariant broken, and the voltage guard still set after any amount of background work |
| Server.BadFloatIsReported | hm305/server.py:42-59 | corrected, a bad numeral in `VOLTage` or `CURRent` is answered with 'error: bad float' and changes nothing |
| Server.BadFloatLineFixedWitness | hm305/server.py:42-50 | corrected, the line `VOLTage x` to a new server is answered with 'error: bad float' and leaves the server as it was |
| Server.RenderFixedReportsBadFloat | hm305/server_commands.py:34-44 | the corrected rendering answers a float command with a bad numeral with 'error: bad float', where `result_as_string` raises |
| Server.CorrectionAgreesOnGoodFloats | hm305/server.py:42-59 | for a numeral that parses, with a running fast worker and an instrument that answers, the corrected and the original handler give the same answer and the same state |
| Server.Fresh | hm305/server_commands.py:111-114 | a server just started (empty queues, clear guards) satisfies the guard invariant |

## Left out

- Serial I/O (`serial.Serial`, 100 ms read timeouts) and the TCP socket. Reads are a supplied
  sequence of byte chunks, where an empty chunk is a timeout, and writes are an appended log.
  `readline().strip().decode()` is an ASCII strip of a string, so a UnicodeDecodeError is not
  modelled.
- Threads and blocking. `Queue.get(timeout=1)`, the `Empty` retry and `join` are sequential
  draining. `time_to_die` is the index of the check that first sees it set, so its races with
  the request thread are not modelled.
- The instrument behind the commands. It is an answer oracle indexed by call number, with a
  log of calls. `hm.v`, `hm.vset`, `hm.v_apply`, `hm.i` and `hm.iset` are not attributes of
  `HM305` in hm305/__init__.py, so the model does not connect them to the register layer.
- `CurrentApplyCommand` is imported but not defined in hm305/server_commands.py, so the real
  import fails. It is modelled as the analogue of `VoltageApplyCommand` with its own guard,
  and given no other behaviour.
- The scpi library. Name resolution, including its abbreviation rules, is the parameter
  `Env.resolve`, and `decode_on_off` is `Env.decodeOnOff`. `encode_on_off` is kept symbolic as
  `Rendered.OnOff`. scpi_test.py is not part of this model.
- Floating point:
  - values are exact reals;
  - `float(str)` is the parameter `Env.parseFloat`;
  - the `2.3f` and `str()` formats are kept symbolic (`Rendered.Fixed3`, `Rendered.Plain`);
  - NaN, infinities and binary rounding error are not modelled.
- Commands.Render: the text of the rendered answer is not computed. The contract says only
  whether rendering raises and which format applies.
- The single-register getters `cmax`, `vmax`, `output`, `beep`, `model`, `protect_state`,
  `decimals`, `classdetail` and `device` (hm305/__init__.py:111-155) are each one
  `_get_val` or `_tx_rx_word` call. They are covered by `Registers.GetVal` and
  `Registers.ReadWord` and have no member of their own. The same holds for the older driver's
  properties in hm305.py:126-177, which are calls of `x` and `x4`.
- hm305p_server.py (arguments, signal handlers, thread start-up, `TCPServer`) and the
  `__main__` command line in hm305.py:194-254 are process plumbing.
- `HM305pSerialQueueItem` and `most_recent_voltage_cmd` in hm305/server.py are never used.
- Logging and the `binascii` hex dumps.

## Findings

| source | as written | input that shows it | evidently intended | confidence | as-written member | corrected member |
|---|---|---|---|---|---|---|
| hm305/server.py:45-49 | `VoltageApplyCommand()` is built, and claims the class-wide `in_queue` guard, before it is known whether the setpoint parsed. A bad numeral then marks the apply stale, so the serial worker skips it and never clears the guard. | the line `VOLTage x` sent to a new server | build and queue the apply only for a setpoint that parsed, so the guard is set exactly when a live apply is queued | not executed | Server.BadFloatLeavesApplyGuardSet | Server.HandleFixedKeepsGuardInv |
| hm305/server_commands.py:43-44 | `CommandWithFloatArg.result_as_string` formats the result with `2.3f`, but a bad numeral leaves the result as the string 'error: bad float'. The format raises, so the handler writes no answer. | the line `VOLTage x` sent to a new server | answer with the error text | not executed | Commands.BadFloatCannotRender | Server.RenderFixedReportsBadFloat |

=== FILE: base.dfy ===
/** Shared vocabulary: bytes, 16-bit words, the exceptions the Python code can
    raise, a failure-compatible Result, and Python's `int(round(x))`. */
module Base {

  /** One octet of a Python `bytes` object. */
  type byte = b: int | 0 <= b < 256

  const WORD_LIMIT: int := 0x1_0000

  /** What `struct.pack('>H', x)` accepts without raising `struct.error`. */
  predicate IsWord(x: int) {
    0 <= x < WORD_LIMIT
  }

  datatype Option<+T> = None | Some(value: T)

  /** The exceptions the modelled code raises or lets escape. */
  datatype Error =
    | CrcError(tx: bool)     // CRCError("TX") when tx, CRCError("RX") otherwise
    | StructError            // struct.pack / struct.unpack out of range or short buffer
    | AssertionFailed        // a failing `assert` statement
    | IndexOutOfRange        // IndexError on a too-short packet
    | TypeMismatch           // TypeError: wrong operand type or wrong constructor arity
    | UnknownReply           // the older codec's `raise Exception("Unknown error ...")`
    | ZeroDivision           // division by a zero scale factor
    | DeviceFault            // an exception raised inside the (abstract) instrument
    | FormatFailure          // ValueError/TypeError from a float format spec on a non-number
    | NotANumber             // ValueError from float() on text that is not a numeral

  datatype Result<+T> = Ok(value: T) | Err(error: Error) {
    predicate IsFailure() {
      Err?
    }

    function PropagateFailure<U>(): Result<U>
      requires Err?
    {
      Err(error)
    }

    function Extract(): T
      requires Ok?
    {
      value
    }
  }

  /** Python's `int(round(x))`: nearest integer, ties to the even neighbour. */
  function RoundHalfEven(x: real): (r: int)
    ensures -1.0 / 2.0 <= r as real - x <= 1.0 / 2.0
    ensures (r as real - x == 1.0 / 2.0 || x - r as real == 1.0 / 2.0) ==> r % 2 == 0
  {
    var f := x.Floor;
    var d := x - f as real;
    if d < 1.0 / 2.0 then f
    else if d > 1.0 / 2.0 then f + 1
    else if f % 2 == 0 then f
    else f + 1
  }

  /** The rounding is the unique integer within half a unit, ties broken to even:
      any integer closer than 1/2 is the result, and integers are fixed points. */
  lemma RoundHalfEvenNearest(x: real, n: int)
    requires -1.0 / 2.0 < n as real - x < 1.0 / 2.0
    ensures RoundHalfEven(x) == n
  {
    var r := RoundHalfEven(x);
    assert -1.0 < (r - n) as real < 1.0;
  }

  /** Rounding keeps a value inside integer bounds that enclose it. */
  lemma RoundHalfEvenBounded(x: real, lo: int, hi: int)
    requires lo as real <= x <= hi as real
    ensures lo <= RoundHalfEven(x) <= hi
  {
    var r := RoundHalfEven(x);
    assert r as real >= x - 1.0 / 2.0 >= lo as real - 1.0 / 2.0;
    assert r as real <= x + 1.0 / 2.0 <= hi as real + 1.0 / 2.0;
  }

  /** `v >> 16`: Python shifts floor, which is what Dafny's division by a positive constant does. */
  function HighHalf(v: int): int {
    v / WORD_LIMIT
  }

  /** `v & 0xFFFF`: the two's-complement low sixteen bits, for negative v too. */
  function LowHalf(v: int): int {
    v % WORD_LIMIT
  }

  /** `(hi << 16) + lo`. */
  function Combine(hi: int, lo: int): int {
    hi * WORD_LIMIT + lo
  }

  /** Splitting a value into its halves and recombining them gives it back, and
      both halves fit a 16-bit register exactly when the value fits 32 bits. */
  lemma SplitCombine(v: int)
    ensures Combine(HighHalf(v), LowHalf(v)) == v
    ensures IsWord(HighHalf(v)) && IsWord(LowHalf(v)) <==> 0 <= v < 0x1_0000_0000
  {
  }

  /** Two 16-bit words combine into a 32-bit value that splits back into them. */
  lemma CombineSplit(hi: int, lo: int)
    requires IsWord(hi) && IsWord(lo)
    ensures 0 <= Combine(hi, lo) < 0x1_0000_0000
    ensures HighHalf(Combine(hi, lo)) == hi && LowHalf(Combine(hi, lo)) == lo
  {
  }
}

=== FILE: commands.dfy ===
/** The server's command objects (hm305/server_commands.py): eleven command
    classes with their class attributes, the flags every command carries, the
    stale-on-bad-float rule, the class-wide apply guard that coalesces applies,
    what each `invoke` asks of the instrument, and `result_as_string`.

    The instrument is an abstract interface: `invoke` records the call it makes
    in a log, and the k-th call's answer (or the exception it raises) is
    `answers(k)`. The SCPI helper library is the `Env` parameter. */
module Commands {
  import opened Base
  import opened Text

  /** The concrete command classes. `CurrentApply` stands for `CurrentApplyCommand`,
      which the factory and the server import but server_commands.py does not
      define; it is given exactly the shape of `VoltageApplyCommand`. */
  datatype Kind =
    | OutputQuery | SetOutput
    | MeasureVoltage | SetVoltage | SetVoltageSetpoint | VoltageApply | VoltageSetpointQuery
    | MeasureCurrent | SetCurrent | CurrentSetpointQuery | CurrentApply

  /** The Python values a command's `arg` and `result` hold. */
  datatype Value = NoValue | Num(x: real) | Flag(b: bool) | Str(s: string)

  /** Python truthiness, for `if self.arg:`. */
  predicate Truthy(v: Value) {
    match v
    case NoValue => false
    case Num(x) => x != 0.0
    case Flag(b) => b
    case Str(s) => |s| > 0
  }

  /** The class hierarchy, for class-attribute lookup. */
  datatype Class = CommandBase | WithArg | WithFloatArg | QueryBase | Leaf(k: Kind)

  function Parent(c: Class): Option<Class> {
    match c
    case CommandBase => None
    case WithArg => Some(CommandBase)
    case WithFloatArg => Some(WithArg)
    case QueryBase => Some(CommandBase)
    case Leaf(k) =>
      match k
      case OutputQuery | MeasureVoltage | VoltageSetpointQuery | MeasureCurrent | CurrentSetpointQuery => Some(QueryBase)
      case SetOutput => Some(WithArg)
      case SetVoltage | SetVoltageSetpoint | SetCurrent => Some(WithFloatArg)
      case VoltageApply | CurrentApply => Some(CommandBase)
  }

  function Depth(c: Class): nat {
    match c
    case CommandBase => 0
    case WithArg => 1
    case WithFloatArg => 2
    case QueryBase => 1
    case Leaf(_) => 3
  }

  datatype Attr = WaitForResultAttr | UsesSerialPortAttr

  /** The attributes each class body assigns itself. */
  function Own(c: Class, a: Attr): Option<bool> {
    match (c, a)
    case (CommandBase, WaitForResultAttr) => Some(false)
    case (CommandBase, UsesSerialPortAttr) => Some(true)
    case (QueryBase, WaitForResultAttr) => Some(true)
    case (Leaf(SetOutput), UsesSerialPortAttr) => Some(true)
    case (Leaf(SetOutput), WaitForResultAttr) => Some(false)
    case (Leaf(MeasureVoltage), UsesSerialPortAttr) => Some(true)
    case (Leaf(SetVoltage), UsesSerialPortAttr) => Some(true)
    case (Leaf(SetVoltageSetpoint), UsesSerialPortAttr) => Some(false)
    case (Leaf(SetVoltageSetpoint), WaitForResultAttr) => Some(true)
    case (Leaf(VoltageApply), UsesSerialPortAttr) => Some(true)
    case (Leaf(VoltageApply), WaitForResultAttr) => Some(false)
    case (Leaf(VoltageSetpointQuery), UsesSerialPortAttr) => Some(false)
    case (Leaf(VoltageSetpointQuery), WaitForResultAttr) => Some(true)
    case (Leaf(MeasureCurrent), UsesSerialPortAttr) => Some(true)
    case (Leaf(SetCurrent), UsesSerialPortAttr) => Some(true)
    case (Leaf(SetCurrent), WaitForResultAttr) => Some(false)
    case (Leaf(CurrentSetpointQuery), UsesSerialPortAttr) => Some(false)
    case (Leaf(CurrentSetpointQuery), WaitForResultAttr) => Some(true)
    case (Leaf(CurrentApply), UsesSerialPortAttr) => Some(true)
    case (Leaf(CurrentApply), WaitForResultAttr) => Some(false)
    case _ => None
  }

  /** Python's attribute lookup: the class's own value, else its parent's. */
  function Lookup(c: Class, a: Attr): bool
    decreases Depth(c)
  {
    match Own(c, a)
    case Some(v) => v
    case None =>
      match Parent(c)
      case Some(p) => assert Depth(p) < Depth(c); Lookup(p, a)
      case None => false
  }

  function UsesSerialPort(k: Kind): bool {
    Lookup(Leaf(k), UsesSerialPortAttr)
  }

  function WaitForResult(k: Kind): bool {
    Lookup(Leaf(k), WaitForResultAttr)
  }

  predicate IsQuery(k: Kind) {
    Parent(Leaf(k)) == Some(QueryBase)
  }

  predicate HasFloatArg(k: Kind) {
    Parent(Leaf(k)) == Some(WithFloatArg)
  }

  predicate IsApply(k: Kind) {
    k == VoltageApply || k == CurrentApply
  }

  /** Whether `__init__` takes an argument besides self. */
  predicate TakesArg(k: Kind) {
    Parent(Leaf(k)) == Some(WithArg) || Parent(Leaf(k)) == Some(WithFloatArg)
  }

  /** The attribute table the class bodies produce: only the two setpoint
      queries and the voltage-setpoint write stay off the serial port, and the
      queries plus the voltage-setpoint write are the ones whose result is awaited. */
  lemma ClassAttributes(k: Kind)
    ensures !UsesSerialPort(k) <==> k in {SetVoltageSetpoint, VoltageSetpointQuery, CurrentSetpointQuery}
    ensures WaitForResult(k) <==> IsQuery(k) || k == SetVoltageSetpoint
    ensures IsQuery(k) ==> !TakesArg(k) && WaitForResult(k)
    ensures IsApply(k) ==> !TakesArg(k) && UsesSerialPort(k) && !WaitForResult(k)
  {
  }

  /** The class-level `in_queue` flags of the two apply classes. */
  datatype Guards = Guards(voltage: bool, current: bool)

  function GuardOf(g: Guards, k: Kind): bool
    requires IsApply(k)
  {
    if k == VoltageApply then g.voltage else g.current
  }

  function WithGuard(g: Guards, k: Kind, v: bool): (r: Guards)
    requires IsApply(k)
    ensures GuardOf(r, k) == v
    ensures forall j :: IsApply(j) && j != k ==> GuardOf(r, j) == GuardOf(g, j)
  {
    if k == VoltageApply then g.(voltage := v) else g.(current := v)
  }

  /** A command object: its class, `arg`, and the three instance flags. */
  datatype Command = Command(kind: Kind, arg: Value, stale: bool, complete: bool, result: Value)

  /** The helper library and `float()`: name resolution (the SCPI abbreviation
      rules), numeral parsing (None: ValueError) and `decode_on_off`. */
  datatype Env = Env(
    resolve: string -> Option<string>,
    parseFloat: string -> Option<real>,
    decodeOnOff: Value -> Result<bool>)

  const BAD_FLOAT: string := "error: bad float"
  const QUEUE_ERROR: string := "QUEUE ERROR"

  /** `float(v)`: Ok(None) is the ValueError that `CommandWithFloatArg` catches; a
      None argument raises TypeError, which it does not. */
  function FloatOf(env: Env, v: Value): Result<Option<real>> {
    match v
    case NoValue => Err(TypeMismatch)
    case Num(x) => Ok(Some(x))
    case Flag(b) => Ok(Some(if b then 1.0 else 0.0))
    case Str(s) => Ok(env.parseFloat(s))
  }

  /** A new command: `Command.__init__` and the subclass constructors. A wrong
      number of arguments raises TypeError before any body runs. */
  function Construct(k: Kind, arg: Option<Value>, g: Guards, env: Env): (r: Result<(Command, Guards)>)
    ensures arg.Some? != TakesArg(k) ==> r == Err(TypeMismatch)
    ensures r.Ok? ==> r.value.0.kind == k && !(r.value.0.stale && !r.value.0.complete && !HasFloatArg(k))
    ensures r.Ok? && !IsApply(k) ==> r.value.1 == g && !r.value.0.complete
  {
    if arg.Some? != TakesArg(k) then Err(TypeMismatch)
    else if HasFloatArg(k) then
      var f :- FloatOf(env, arg.value);
      match f
      case Some(x) => Ok((Command(k, Num(x), false, false, NoValue), g))
      case None => Ok((Command(k, arg.value, true, false, Str(BAD_FLOAT)), g))
    else if k == SetOutput then
      var b :- env.decodeOnOff(arg.value);
      Ok((Command(k, Flag(b), false, false, NoValue), g))
    else if IsApply(k) then
      if GuardOf(g, k) then Ok((Command(k, NoValue, true, true, NoValue), g))
      else Ok((Command(k, NoValue, false, false, NoValue), WithGuard(g, k, true)))
    else Ok((Command(k, NoValue, false, false, NoValue), g))
  }

  /** A fresh command is not stale, not complete and has no result, except that a
      numeral that does not parse makes it stale with the error text as result,
      and an apply made while its guard is set is born stale and complete. */
  lemma ConstructFlags(k: Kind, arg: Option<Value>, g: Guards, env: Env)
    requires Construct(k, arg, g, env).Ok?
    ensures var (c, g') := Construct(k, arg, g, env).value;
      && (HasFloatArg(k) ==>
            && (c.stale <==> FloatOf(env, arg.value) == Ok(None))
            && (c.stale ==> c.result == Str(BAD_FLOAT) && c.arg == arg.value)
            && (!c.stale ==> c.arg == Num(FloatOf(env, arg.value).value.value) && c.result == NoValue))
      && (IsApply(k) ==>
            && (c.stale <==> GuardOf(g, k)) && (c.complete <==> GuardOf(g, k))
            && GuardOf(g', k)
            && forall j :: IsApply(j) && j != k ==> GuardOf(g', j) == GuardOf(g, j))
      && (!HasFloatArg(k) && !IsApply(k) ==> !c.stale && !c.complete && c.result == NoValue)
  {
  }

  /** What `invoke` asks of the instrument: the properties it reads and assigns. */
  datatype Call =
    | ReadOutput | SwitchOutput(on: bool)
    | ReadVoltage | WriteVoltage(v: Value) | WriteVoltageSetpoint(v: Value) | ApplyVoltage | ReadVoltageSetpoint
    | ReadCurrent | WriteCurrent(v: Value) | ReadCurrentSetpoint | ApplyCurrent

  type Answers = nat -> Result<Value>

  /** What the commands share: the guards and the instrument's call log. */
  datatype Pool = Pool(guards: Guards, calls: seq<Call>)

  /** The command after `invoke`, the shared state, and whether it raised. */
  datatype Outcome = Outcome(result: Result<()>, cmd: Command, pool: Pool)

  /** `invoke`. Each makes at most one instrument call; an exception from the
      instrument escapes with the command as far as it got. */
  function Invoke(c: Command, pool: Pool, answers: Answers, env: Env): (o: Outcome)
    ensures o.cmd.kind == c.kind && o.cmd.stale == c.stale
    ensures o.result.Ok? ==> o.cmd.complete
    ensures !IsApply(c.kind) ==> o.pool.guards == pool.guards
    ensures IsApply(c.kind) ==>
      && !GuardOf(o.pool.guards, c.kind)
      && forall j :: IsApply(j) && j != c.kind ==> GuardOf(o.pool.guards, j) == GuardOf(pool.guards, j)
    ensures |pool.calls| <= |o.pool.calls| <= |pool.calls| + 1 && o.pool.calls[..|pool.calls|] == pool.calls
  {
    var answer := answers(|pool.calls|);
    match c.kind
    case OutputQuery => Ask(c, pool, ReadOutput, answer, env, false)
    case SetOutput =>
      var on := Truthy(c.arg);
      var o := Ask(c, pool, SwitchOutput(on), answer, env, false);
      if o.result.Err? then o else o.(cmd := o.cmd.(result := c.arg))
    case MeasureVoltage => Ask(c, pool, ReadVoltage, answer, env, false)
    case SetVoltage =>
      if c.complete then Outcome(Ok(()), c, pool)
      else
        var o := Ask(c, pool, WriteVoltage(c.arg), answer, env, false);
        if o.result.Err? then o else o.(cmd := o.cmd.(result := c.result))
    case SetVoltageSetpoint =>
      var o := Ask(c, pool, WriteVoltageSetpoint(c.arg), answer, env, false);
      if o.result.Err? then o else o.(cmd := o.cmd.(result := c.arg))
    case VoltageApply =>
      var cleared := pool.(guards := WithGuard(pool.guards, VoltageApply, false));
      var o := Ask(c, cleared, ApplyVoltage, answer, env, false);
      if o.result.Err? then o else o.(cmd := o.cmd.(result := c.result))
    case VoltageSetpointQuery => Ask(c, pool, ReadVoltageSetpoint, answer, env, true)
    case MeasureCurrent => Ask(c, pool, ReadCurrent, answer, env, true)
    case SetCurrent =>
      var o := Ask(c, pool, WriteCurrent(c.arg), answer, env, false);
      if o.result.Err? then o else o.(cmd := o.cmd.(result := c.result))
    case CurrentSetpointQuery => Ask(c, pool, ReadCurrentSetpoint, answer, env, true)
    case CurrentApply =>
      var cleared := pool.(guards := WithGuard(pool.guards, CurrentApply, false));
      var o := Ask(c, cleared, ApplyCurrent, answer, env, false);
      if o.result.Err? then o else o.(cmd := o.cmd.(result := c.result))
  }

  /** One instrument call; on return its answer (through `float()` when asked)
      becomes the result and the command is complete. */
  function Ask(c: Command, pool: Pool, call: Call, answer: Result<Value>, env: Env, asFloat: bool): (o: Outcome)
    ensures o.pool == pool.(calls := pool.calls + [call])
    ensures o.cmd.kind == c.kind && o.cmd.stale == c.stale && o.cmd.arg == c.arg
    ensures o.result.Ok? <==> answer.Ok? && (asFloat ==> FloatOf(env, answer.value).Ok? && FloatOf(env, answer.value).value.Some?)
    ensures o.result.Ok? ==> o.cmd.complete
    ensures o.result.Err? ==> o.cmd == c
  {
    var p := pool.(calls := pool.calls + [call]);
    match answer
    case Err(e) => Outcome(Err(e), c, p)
    case Ok(v) =>
      if !asFloat then Outcome(Ok(()), c.(result := v, complete := true), p)
      else
        match FloatOf(env, v)
        case Err(e) => Outcome(Err(e), c, p)
        case Ok(None) => Outcome(Err(NotANumber), c, p)
        case Ok(Some(x)) => Outcome(Ok(()), c.(result := Num(x), complete := true), p)
  }

  /** The instrument call each kind makes, and its argument. */
  lemma InvokeCalls(c: Command, pool: Pool, answers: Answers, env: Env)
    ensures var o := Invoke(c, pool, answers, env);
      match c.kind
      case SetOutput => o.pool.calls == pool.calls + [SwitchOutput(Truthy(c.arg))]
      case SetVoltage => o.pool.calls == if c.complete then pool.calls else pool.calls + [WriteVoltage(c.arg)]
      case SetVoltageSetpoint => o.pool.calls == pool.calls + [WriteVoltageSetpoint(c.arg)]
      case SetCurrent => o.pool.calls == pool.calls + [WriteCurrent(c.arg)]
      case VoltageApply => o.pool.calls == pool.calls + [ApplyVoltage]
      case CurrentApply => o.pool.calls == pool.calls + [ApplyCurrent]
      case OutputQuery => o.pool.calls == pool.calls + [ReadOutput]
      case MeasureVoltage => o.pool.calls == pool.calls + [ReadVoltage]
      case VoltageSetpointQuery => o.pool.calls == pool.calls + [ReadVoltageSetpoint]
      case MeasureCurrent => o.pool.calls == pool.calls + [ReadCurrent]
      case CurrentSetpointQuery => o.pool.calls == pool.calls + [ReadCurrentSetpoint]
  {
  }

  /** `SetVoltageCommand.invoke` is idempotent on the instrument: invoked again
      after it returned, it makes no second call. */
  lemma SetVoltageWritesOnce(c: Command, pool: Pool, answers: Answers, env: Env)
    requires c.kind == SetVoltage
    requires Invoke(c, pool, answers, env).result.Ok?
    ensures var o := Invoke(c, pool, answers, env);
      Invoke(o.cmd, o.pool, answers, env) == Outcome(Ok(()), o.cmd, o.pool)
      && |o.pool.calls| <= |pool.calls| + 1
  {
  }

  /** The guard cycle: an apply made while its guard is clear sets it, so a second
      one is born stale; invoking the first clears the guard before the
      instrument is called, even when that call raises, so the next one is live. */
  lemma ApplyGuardCycle(k: Kind, g: Guards, pool: Pool, answers: Answers, env: Env)
    requires IsApply(k) && !GuardOf(g, k)
    ensures var (first, g1) := Construct(k, None, g, env).value;
      && !first.stale && GuardOf(g1, k)
      && Construct(k, None, g1, env).value.0.stale
      && var o := Invoke(first, pool.(guards := g1), answers, env);
         && !GuardOf(o.pool.guards, k)
         && !Construct(k, None, o.pool.guards, env).value.0.stale
  {
  }

  /** `result_as_string`, kept symbolic: plain `str()`, the `2.3f` format, or the
      library's `encode_on_off`. */
  datatype Rendered = Literal(text: string) | Plain(v: Value) | Fixed3(x: real) | OnOff(v: Value)

  /** `result_as_string` of each class. `f"{x:2.3f}"` accepts only numbers (bool
      included); on a string or None it raises. */
  function Render(c: Command): (r: Result<Rendered>)
    ensures HasFloatArg(c.kind) ==> (r.Ok? <==> c.result.Num? || c.result.Flag?)
    ensures !HasFloatArg(c.kind) ==> r.Ok?
  {
    if HasFloatArg(c.kind) then
      match c.result
      case Num(x) => Ok(Fixed3(x))
      case Flag(b) => Ok(Fixed3(if b then 1.0 else 0.0))
      case _ => Err(FormatFailure)
    else if c.kind == OutputQuery then Ok(OnOff(c.result))
    else if c.kind == SetOutput then Ok(Plain(c.arg))
    else Ok(Plain(c.result))
  }

  /** A float command that failed to parse its numeral cannot render its own
      error text: formatting the string with `2.3f` raises. */
  lemma BadFloatCannotRender(k: Kind, arg: Value, g: Guards, env: Env)
    requires HasFloatArg(k) && FloatOf(env, arg) == Ok(None)
    ensures Construct(k, Some(arg), g, env).Ok?
    ensures Render(Construct(k, Some(arg), g, env).value.0) == Err(FormatFailure)
  {
  }

  /** One registry entry: the query constructor and the set constructor. */
  datatype Entry = Entry(query: Option<Kind>, setter: Option<Kind>)

  /** `CommandFactory.Commands` of server_commands.py: no `CURRent:APPLY`. */
  const OLD_REGISTRY: map<string, Entry> := map[
    "VOLTage" := Entry(Some(MeasureVoltage), Some(SetVoltage)),
    "VOLTage:SETPoint" := Entry(Some(VoltageSetpointQuery), Some(SetVoltageSetpoint)),
    "VOLTage:APPLY" := Entry(None, Some(VoltageApply)),
    "CURRent" := Entry(Some(MeasureCurrent), Some(SetCurrent)),
    "CURRent:SETPoint" := Entry(Some(CurrentSetpointQuery), Some(SetCurrent)),
    "OUTput" := Entry(Some(OutputQuery), Some(SetOutput))]

  /** `Commands[name]`: the library resolves the typed name to a key. */
  function Find(registry: map<string, Entry>, env: Env, name: string): Option<Entry> {
    match env.resolve(name)
    case Some(key) => if key in registry then Some(registry[key]) else None
    case None => None
  }

  /** Every query constructor in a registry builds a query, every set constructor
      a non-query. */
  predicate WellSorted(registry: map<string, Entry>) {
    forall key :: key in registry ==>
      (registry[key].query.Some? ==> IsQuery(registry[key].query.value))
      && (registry[key].setter.Some? ==> !IsQuery(registry[key].setter.value))
  }

  /** A registry whose query constructors build queries and whose set
      constructors build non-queries; both registries of the program are. */
  lemma OldRegistryWellSorted()
    ensures WellSorted(OLD_REGISTRY)
    ensures "VOLTage:APPLY" in OLD_REGISTRY && OLD_REGISTRY["VOLTage:APPLY"] == Entry(None, Some(VoltageApply))
    ensures "CURRent:APPLY" !in OLD_REGISTRY
  {
  }

  /** A constructor's outcome as a parse result. */
  function Built(r: Result<(Command, Guards)>): Result<(Option<Command>, Guards)> {
    match r
    case Err(e) => Err(e)
    case Ok((c, g)) => Ok((Some(c), g))
  }

  /** The branch both parsers share once the line is split: look the name up and
      call the query or the set constructor, with the argument when there is
      one. `bareSet` says whether a non-query without an argument calls the set
      constructor (the older parser) or yields None (the current one). */
  function Dispatch(registry: map<string, Entry>, env: Env, name: string, arg: Option<string>,
                    isQuery: bool, g: Guards, bareSet: bool): Result<(Option<Command>, Guards)>
  {
    match Find(registry, env, name)
    case None => Ok((None, g))
    case Some(e) =>
      var argv := if arg.Some? then Some(Str(arg.value)) else None;
      if isQuery && e.query.Some? then Built(Construct(e.query.value, argv, g, env))
      else if !isQuery && e.setter.Some? then
        if arg.None? && !bareSet then Ok((None, g)) else Built(Construct(e.setter.value, argv, g, env))
      else Ok((None, g))
  }

  /** The line with surrounding whitespace removed, then `?` and spaces. */
  function Trimmed(line: string): string {
    Strip(Strip(line, PySpace), QueryMark)
  }

  /** A query is a line whose whitespace-stripped form ends in `?`. */
  predicate IsQueryLine(line: string) {
    EndsWith(Strip(line, PySpace), '?')
  }

  /** `CommandFactory.parse` of server_commands.py: no collapsing of repeated
      spaces, and a bare non-query calls the set constructor with no argument. */
  function OldParse(line: string, g: Guards, env: Env): Result<(Option<Command>, Guards)> {
    BySpaces(OLD_REGISTRY, env, Trimmed(line), IsQueryLine(line), g, true)
  }

  /** The split on the space count, shared by both parsers: one space separates
      name and argument, none means a bare name, more is no command. */
  function BySpaces(registry: map<string, Entry>, env: Env, s: string, isQuery: bool, g: Guards,
                    bareSet: bool): Result<(Option<Command>, Guards)> {
    var n := CountSpaces(s);
    if n == 1 then
      var (name, arg) := SplitOnce(s);
      Dispatch(registry, env, name, Some(arg), isQuery, g, bareSet)
    else if n == 0 then Dispatch(registry, env, s, None, isQuery, g, bareSet)
    else Ok((None, g))
  }

  /** The older parser does not collapse spaces: a line with two spaces in a row
      between name and argument yields no command. */
  lemma OldParseRejectsDoubleSpace(line: string, g: Guards, env: Env)
    requires CountSpaces(Trimmed(line)) >= 2
    ensures OldParse(line, g, env) == Ok((None, g))
  {
  }

  /** For a bare non-query the older parser calls the set constructor with no
      argument: that raises TypeError for every constructor that needs one, and
      for `VOLTage:APPLY` builds an apply command and claims the guard. */
  lemma OldParseCallsBareSet(line: string, g: Guards, env: Env)
    requires CountSpaces(Trimmed(line)) == 0 && !IsQueryLine(line)
    requires Find(OLD_REGISTRY, env, Trimmed(line)).Some?
    requires Find(OLD_REGISTRY, env, Trimmed(line)).value.setter.Some?
    ensures var k := Find(OLD_REGISTRY, env, Trimmed(line)).value.setter.value;
      && OldParse(line, g, env) == Built(Construct(k, None, g, env))
      && (TakesArg(k) ==> OldParse(line, g, env) == Err(TypeMismatch))
      && (k == VoltageApply ==>
            && OldParse(line, g, env).Ok?
            && OldParse(line, g, env).value.0 == Some(Command(VoltageApply, NoValue, g.voltage, g.voltage, NoValue))
            && OldParse(line, g, env).value.1.voltage)
  {
    var s := Trimmed(line);
    var k := Find(OLD_REGISTRY, env, s).value.setter.value;
    var r := BySpaces(OLD_REGISTRY, env, s, false, g, true);
    assert OldParse(line, g, env) == r;
    assert r == Built(Construct(k, None, g, env));
    ConstructWithoutArgument(k, g, env);
  }

  /** A constructor called with no argument: TypeError when the class needs one;
      for an apply, a command whose flags copy the guard, which is then set. */
  lemma ConstructWithoutArgument(k: Kind, g: Guards, env: Env)
    ensures TakesArg(k) ==> Construct(k, None, g, env) == Err(TypeMismatch)
    ensures IsApply(k) ==>
      Construct(k, None, g, env) == Ok((Command(k, NoValue, GuardOf(g, k), GuardOf(g, k), NoValue), WithGuard(g, k, true)))
  {
  }
}

=== FILE: crc.dfy ===
/** The Modbus CRC-16 (MODBUS over Serial Line V1.02, section 2.5.1.2 and
    Appendix B, section 6.2.2): register seeded with 0xFFFF, each byte XORed into
    the low end, then eight right shifts that XOR in the reflected polynomial
    0xA001 whenever the bit shifted out was 1.

    The register is a Python int, so XOR and shifts are modelled on unbounded
    naturals; that the register never leaves 16 bits is proved, not assumed. */
module Crc {
  import opened Base

  const SEED: nat := 0xFFFF
  const POLY: nat := 0xA001

  function Pow2(k: nat): (r: nat)
    ensures r >= 1
  {
    if k == 0 then 1 else 2 * Pow2(k - 1)
  }

  /** Python's `a ^ b` on non-negative ints, one bit at a time from the bottom. */
  function Xor(a: nat, b: nat): nat
    decreases a + b
  {
    if a == 0 then b
    else if b == 0 then a
    else 2 * Xor(a / 2, b / 2) + (a + b) % 2
  }

  lemma Pow2Sixteen()
    ensures Pow2(16) == 0x1_0000
  {
    assert Pow2(4) == 16;
    assert Pow2(8) == 256;
    assert Pow2(12) == 4096;
  }

  /** XOR of two k-bit numbers is a k-bit number. */
  lemma {:induction false} XorBound(a: nat, b: nat, k: nat)
    requires a < Pow2(k) && b < Pow2(k)
    ensures Xor(a, b) < Pow2(k)
    decreases k
  {
    if a != 0 && b != 0 {
      assert k > 0;
      XorBound(a / 2, b / 2, k - 1);
    }
  }

  /** One inner-loop iteration: `if crc & 1: crc >>= 1; crc ^= 0xa001 else: crc >>= 1`. */
  function Shift(crc: nat): (r: nat)
    requires crc < 0x1_0000
    ensures r < 0x1_0000
  {
    Pow2Sixteen();
    if crc % 2 == 1 then
      XorBound(crc / 2, POLY, 16);
      Xor(crc / 2, POLY)
    else crc / 2
  }

  /** The first n iterations of the inner loop. */
  function ShiftN(crc: nat, n: nat): (r: nat)
    requires crc < 0x1_0000
    ensures r < 0x1_0000
  {
    if n == 0 then crc else Shift(ShiftN(crc, n - 1))
  }

  /** The effect of one outer-loop iteration on the register. */
  function Update(crc: nat, b: byte): (r: nat)
    requires crc < 0x1_0000
    ensures r < 0x1_0000
  {
    Pow2Sixteen();
    XorBound(crc, b, 16);
    ShiftN(Xor(crc, b), 8)
  }

  /** The CRC of a byte string: the seed folded with Update from the left. */
  function Crc16(data: seq<byte>): (r: nat)
    ensures r < 0x1_0000
  {
    if |data| == 0 then SEED
    else Update(Crc16(data[..|data| - 1]), data[|data| - 1])
  }

  /** `calculate_crc` as written, with its two nested loops. */
  method CalculateCrc(data: seq<byte>) returns (crc: int)
    ensures crc == Crc16(data)
    ensures 0 <= crc <= 0xFFFF
  {
    crc := SEED;
    var i := 0;
    while i < |data|
      invariant 0 <= i <= |data|
      invariant crc == Crc16(data[..i])
    {
      var x := Xor(crc, data[i]);
      Pow2Sixteen();
      XorBound(crc, data[i], 16);
      crc := x;
      var j := 0;
      while j < 8
        invariant 0 <= j <= 8
        invariant crc == ShiftN(x, j)
      {
        if crc % 2 == 1 {
          crc := crc / 2;
          crc := Xor(crc, POLY);
        } else {
          crc := crc / 2;
        }
        j := j + 1;
      }
      assert data[..i + 1][..i] == data[..i];
      i := i + 1;
    }
    assert data[..i] == data;
  }

  /** Appending one byte continues the CRC from where the prefix left it. */
  lemma Crc16Snoc(data: seq<byte>, b: byte)
    ensures Crc16(data + [b]) == Update(Crc16(data), b)
  {
    assert (data + [b])[..|data|] == data;
  }

  /** The CRC of the empty string is the seed. */
  lemma Crc16Empty()
    ensures Crc16([]) == 0xFFFF
  {
  }
}

=== FILE: floatsetting.dfy ===
/** `FloatSetting` (hm305/floatsetting.py): a scaled instrument parameter with a
    software-cached setpoint. The cache and its out-of-sync flag change freely in
    software; only the `instrument_setpoint` setter (and `apply`, which calls it)
    writes the setpoint register, after clamping to [min, max] and scaling.

    Python floats are modelled as reals; `int(round(...))` is Base.RoundHalfEven. */
module Settings {
  import opened Base
  import opened Transport
  import Modbus

  const DEFAULT_SCALAR: real := 1.0
  const DEFAULT_MIN: real := 0.0
  const DEFAULT_MAX: real := 999.0

  datatype FloatSetting = FloatSetting(
    valueAddr: int,
    setpointAddr: int,
    scalar: real,
    cache: real,          // _sw_setpoint
    outOfSync: bool,      // _setpoint_out_of_sync
    min: real,
    minAddr: Option<int>,
    max: real,
    maxAddr: Option<int>)

  /** A result, the setting after the call (also after a raise), and the bus log. */
  datatype Run<T> = Run(result: Result<T>, setting: FloatSetting, log: seq<Request>)

  /** Everything but the cache and the flag: what only `initialize` may change. */
  predicate SameConfig(a: FloatSetting, b: FloatSetting) {
    && a.valueAddr == b.valueAddr && a.setpointAddr == b.setpointAddr && a.scalar == b.scalar
    && a.min == b.min && a.minAddr == b.minAddr && a.max == b.max && a.maxAddr == b.maxAddr
  }

  /** `FloatSetting.__init__`: cache 0.0, out of sync, bounds as given. */
  function Create(valueAddr: int, setpointAddr: int, scalar: real, minimum: real, minAddr: Option<int>,
                  maximum: real, maxAddr: Option<int>): (s: FloatSetting)
    ensures s.cache == 0.0 && s.outOfSync
    ensures s.valueAddr == valueAddr && s.setpointAddr == setpointAddr && s.scalar == scalar
    ensures s.min == minimum && s.minAddr == minAddr && s.max == maximum && s.maxAddr == maxAddr
  {
    FloatSetting(valueAddr, setpointAddr, scalar, 0.0, true, minimum, minAddr, maximum, maxAddr)
  }

  /** `FloatSetting(modbus, value_addr, setpoint_addr)` with every keyword left at its default. */
  function CreateWithDefaults(valueAddr: int, setpointAddr: int): (s: FloatSetting)
    ensures s.cache == 0.0 && s.outOfSync && s.scalar == 1.0
    ensures s.min == 0.0 && s.max == 999.0 && s.minAddr.None? && s.maxAddr.None?
  {
    Create(valueAddr, setpointAddr, DEFAULT_SCALAR, DEFAULT_MIN, None, DEFAULT_MAX, None)
  }

  /** The clamp in `_scaled_int_writing`: below min gives min, else above max gives max. */
  function Clamp(value: real, lo: real, hi: real): (r: real)
    ensures r == value || r == lo || r == hi
    ensures lo <= hi ==> lo <= r <= hi
    ensures lo <= hi ==> (r == value <==> lo <= value <= hi)
  {
    if value < lo then lo else if value > hi then hi else value
  }

  /** The clamped value multiplied by the scale, before rounding. */
  function Scaled(s: FloatSetting, value: real): real {
    Clamp(value, s.min, s.max) * s.scalar
  }

  /** The integer `_scaled_int_writing` sends for a pre-scaling value. */
  function WrittenValue(s: FloatSetting, value: real): int {
    RoundHalfEven(Scaled(s, value))
  }

  /** `_scaled_reading`: one read; the int reply divided by the scale. A tuple or
      bytes reply cannot be divided (TypeError). */
  function ScaledReading(s: FloatSetting, log: seq<Request>, replies: Replies, addr: int): (r: Exchange<real>)
    ensures r.log == (if IsWord(addr) then log + [Get(addr)] else log)
    ensures r.result.Ok? <==> (IsWord(addr) && replies(|log|).Ok? && replies(|log|).value.Word? && s.scalar != 0.0)
    ensures r.result.Ok? ==> r.result.value * s.scalar == replies(|log|).value.w as real
  {
    var x := GetByAddr(log, replies, addr);
    match x.result
    case Err(e) => Exchange(Err(e), x.log)
    case Ok(d) =>
      if !d.Word? then Exchange(Err(TypeMismatch), x.log)
      else if s.scalar == 0.0 then Exchange(Err(ZeroDivision), x.log)
      else Exchange(Ok(d.w as real / s.scalar), x.log)
  }

  /** `_scaled_int_writing`: clamp, scale, round, write. */
  function ScaledIntWriting(s: FloatSetting, log: seq<Request>, replies: Replies, addr: int, value: real): (r: Exchange<bool>)
    ensures var v := WrittenValue(s, value);
      && (IsWord(addr) && IsWord(v) ==> r.log == log + [Set(addr, v)])
      && (!(IsWord(addr) && IsWord(v)) ==> r == Exchange(Err(StructError), log))
      && (r.result.Ok? <==> IsWord(addr) && IsWord(v) && replies(|log|).Ok?)
      && (r.result.Ok? ==> (r.result.value <==> replies(|log|).value == Modbus.Echo(addr, v)))
  {
    SetByAddr(log, replies, addr, WrittenValue(s, value))
  }

  /** The `setpoint` setter: software only. */
  function SetSetpoint(s: FloatSetting, x: real): (r: FloatSetting)
    ensures r.cache == x && r.outOfSync && SameConfig(r, s)
  {
    s.(outOfSync := true, cache := x)
  }

  /** `increment(inc)`: `setpoint += inc`, software only. */
  function Increment(s: FloatSetting, inc: real): (r: FloatSetting)
    ensures r.cache == s.cache + inc && r.outOfSync && SameConfig(r, s)
  {
    SetSetpoint(s, s.cache + inc)
  }

  /** The `instrument_setpoint` getter: read the setpoint register into the cache. */
  function ReadInstrumentSetpoint(s: FloatSetting, log: seq<Request>, replies: Replies): (r: Run<real>)
    ensures r.log == (if IsWord(s.setpointAddr) then log + [Get(s.setpointAddr)] else log)
    ensures SameConfig(r.setting, s)
    ensures r.result.Ok? ==>
              && r.setting.cache == r.result.value && !r.setting.outOfSync
              && replies(|log|).Ok? && replies(|log|).value.Word?
              && r.result.value * s.scalar == replies(|log|).value.w as real
    ensures r.result.Err? ==> r.setting == s
  {
    var got := ScaledReading(s, log, replies, s.setpointAddr);
    match got.result
    case Err(e) => Run(Err(e), s, got.log)
    case Ok(x) => Run(Ok(x), SetSetpoint(s, x).(outOfSync := false), got.log)
  }

  /** The `instrument_setpoint` setter: the cache takes the unclamped value, the
      clamped scaled value is written once, and only then is the flag cleared, so
      a raise leaves the setting out of sync. */
  function WriteInstrumentSetpoint(s: FloatSetting, log: seq<Request>, replies: Replies, x: real): (r: Run<()>)
    ensures r.setting.cache == x && SameConfig(r.setting, s)
    ensures r.log == (if IsWord(s.setpointAddr) && IsWord(WrittenValue(s, x))
                      then log + [Set(s.setpointAddr, WrittenValue(s, x))] else log)
    ensures r.setting.outOfSync <==> r.result.Err?
    ensures r.result.Ok? <==> IsWord(s.setpointAddr) && IsWord(WrittenValue(s, x)) && replies(|log|).Ok?
  {
    var s1 := SetSetpoint(s, x);
    assert Scaled(s1, s1.cache) == Scaled(s, x);
    var w := ScaledIntWriting(s1, log, replies, s1.setpointAddr, s1.cache);
    match w.result
    case Err(e) => Run(Err(e), s1, w.log)
    case Ok(_) => Run(Ok(()), s1.(outOfSync := false), w.log)
  }

  /** `value`: a fresh read of the live-value register; the setting is untouched. */
  function Value(s: FloatSetting, log: seq<Request>, replies: Replies): (r: Run<real>)
    ensures r.setting == s
    ensures r.log == (if IsWord(s.valueAddr) then log + [Get(s.valueAddr)] else log)
    ensures r.result.Ok? <==> IsWord(s.valueAddr) && replies(|log|).Ok? && replies(|log|).value.Word? && s.scalar != 0.0
    ensures r.result.Ok? ==> r.result.value * s.scalar == replies(|log|).value.w as real
  {
    var got := ScaledReading(s, log, replies, s.valueAddr);
    Run(got.result, s, got.log)
  }

  /** `apply`: write whatever the cache holds; the cache keeps its value, and
      the flag is cleared exactly when the write returns. */
  function Apply(s: FloatSetting, log: seq<Request>, replies: Replies): (r: Run<()>)
    ensures r.setting.cache == s.cache && SameConfig(r.setting, s)
    ensures r.setting.outOfSync <==> r.result.Err?
    ensures r.result.Ok? <==> IsWord(s.setpointAddr) && IsWord(WrittenValue(s, s.cache)) && replies(|log|).Ok?
    ensures r.log == (if IsWord(s.setpointAddr) && IsWord(WrittenValue(s, s.cache))
                      then log + [Set(s.setpointAddr, WrittenValue(s, s.cache))] else log)
  {
    WriteInstrumentSetpoint(s, log, replies, s.cache)
  }

  /** One optional bound read of `initialize`: skipped when the address is None. */
  function ReadBound(s: FloatSetting, log: seq<Request>, replies: Replies, addr: Option<int>): (r: Exchange<Option<real>>)
    ensures addr.None? ==> r == Exchange(Ok(None), log)
    ensures addr.Some? ==> r.log == (if IsWord(addr.value) then log + [Get(addr.value)] else log)
    ensures r.result.Ok? && addr.Some? ==>
              && r.result.value.Some? && replies(|log|).Ok? && replies(|log|).value.Word?
              && r.result.value.value * s.scalar == replies(|log|).value.w as real
  {
    if addr.None? then Exchange(Ok(None), log)
    else
      var x := ScaledReading(s, log, replies, addr.value);
      match x.result
      case Err(e) => Exchange(Err(e), x.log)
      case Ok(v) => Exchange(Ok(Some(v)), x.log)
  }

  /** `initialize`: seed the cache from the setpoint register, then read min and
      max from their addresses when those are given. Each step that ran before a
      raise keeps its effect. */
  function Initialize(s: FloatSetting, log: seq<Request>, replies: Replies): (r: Run<()>)
    ensures r.setting.valueAddr == s.valueAddr && r.setting.setpointAddr == s.setpointAddr
    ensures r.setting.scalar == s.scalar && r.setting.minAddr == s.minAddr && r.setting.maxAddr == s.maxAddr
    ensures s.minAddr.None? ==> r.setting.min == s.min
    ensures s.maxAddr.None? ==> r.setting.max == s.max
    ensures r.result.Ok? ==>
              && !r.setting.outOfSync && replies(|log|).Ok? && replies(|log|).value.Word?
              && r.setting.cache * s.scalar == replies(|log|).value.w as real
    ensures r.result.Ok? ==>
              r.log == log + [Get(s.setpointAddr)]
                       + (if s.minAddr.Some? then [Get(s.minAddr.value)] else [])
                       + (if s.maxAddr.Some? then [Get(s.maxAddr.value)] else [])
    ensures r.result.Ok? && s.minAddr.Some? ==>
              && replies(|log| + 1).Ok? && replies(|log| + 1).value.Word?
              && r.setting.min * s.scalar == replies(|log| + 1).value.w as real
    ensures var k := |log| + (if s.minAddr.Some? then 2 else 1);
            r.result.Ok? && s.maxAddr.Some? ==>
              && replies(k).Ok? && replies(k).value.Word?
              && r.setting.max * s.scalar == replies(k).value.w as real
  {
    var rd := ReadInstrumentSetpoint(s, log, replies);
    match rd.result
    case Err(e) => Run(Err(e), rd.setting, rd.log)
    case Ok(got) =>
      var s1 := rd.setting.(cache := got);
      var lo := ReadBound(s1, rd.log, replies, s1.minAddr);
      match lo.result
      case Err(e) => Run(Err(e), s1, lo.log)
      case Ok(mn) =>
        var s2 := if mn.Some? then s1.(min := mn.value) else s1;
        var hi := ReadBound(s2, lo.log, replies, s2.maxAddr);
        match hi.result
        case Err(e) => Run(Err(e), s2, hi.log)
        case Ok(mx) =>
          var s3 := if mx.Some? then s2.(max := mx.value) else s2;
          Run(Ok(()), s3, hi.log)
  }

  /** Two settings with the same configuration write the same integer for a value. */
  lemma WrittenValueDependsOnConfig(a: FloatSetting, b: FloatSetting, x: real)
    requires SameConfig(a, b)
    ensures WrittenValue(a, x) == WrittenValue(b, x)
  {
    assert Scaled(a, x) == Scaled(b, x);
  }

  /** With bounds in order, the pre-scaling value `_scaled_int_writing` writes lies
      in [min, max], and a value already in range goes through unchanged. */
  lemma WriteIsClamped(s: FloatSetting, x: real)
    requires s.min <= s.max
    ensures s.min <= Clamp(x, s.min, s.max) <= s.max
    ensures s.min <= x <= s.max ==> Clamp(x, s.min, s.max) == x
    ensures s.min <= x <= s.max ==> WrittenValue(s, x) == RoundHalfEven(x * s.scalar)
  {
    if s.min <= x <= s.max {
      assert Scaled(s, x) == x * s.scalar;
    }
  }

  /** When the bounds are non-negative and the scaled maximum fits a register,
      every value the setting writes is packable, however far out of range the
      request was. */
  lemma WrittenValueFits(s: FloatSetting, x: real)
    requires 0.0 <= s.min <= s.max && 0.0 <= s.scalar && s.max * s.scalar <= 65535.0
    ensures IsWord(WrittenValue(s, x))
  {
    var c := Clamp(x, s.min, s.max);
    assert 0.0 <= c * s.scalar <= s.max * s.scalar by {
      assert 0.0 <= c <= s.max;
      MultiplyMonotone(c, s.max, s.scalar);
    }
    RoundHalfEvenBounded(Scaled(s, x), 0, 65535);
  }

  lemma MultiplyMonotone(a: real, b: real, k: real)
    requires 0.0 <= a <= b && 0.0 <= k
    ensures 0.0 <= a * k <= b * k
  {
    assert b * k - a * k == (b - a) * k;
  }

  /** A request whose reply the register layer would act on: an acknowledged
      write, or a read that returned a word. */
  predicate Completed(req: Request, reply: Result<Modbus.RxData>) {
    reply.Ok? && (req.Get? ==> reply.value.Word?)
  }

  /** The position of the last completed exchange with register `addr`. */
  function LastCompleted(log: seq<Request>, replies: Replies, addr: int): (k: Option<nat>)
    ensures k.Some? ==> k.value < |log| && log[k.value].Address() == addr && Completed(log[k.value], replies(k.value))
    ensures k.None? ==> forall i :: 0 <= i < |log| && log[i].Address() == addr ==> !Completed(log[i], replies(i))
  {
    if |log| == 0 then None
    else
      var last := |log| - 1;
      if log[last].Address() == addr && Completed(log[last], replies(last)) then Some(last)
      else LastCompleted(log[..last], replies, addr)
  }

  /** The completed exchange agrees with the cache: a write sent exactly what the
      setting would write for the cache now, or a read returned the cache scaled. */
  predicate Agrees(s: FloatSetting, req: Request, reply: Result<Modbus.RxData>) {
    match req
    case Set(_, v) => v == WrittenValue(s, s.cache)
    case Get(_) => reply.Ok? && reply.value.Word? && s.cache * s.scalar == reply.value.w as real
  }

  /** What a cleared out-of-sync flag promises: the last completed exchange with
      the setpoint register agrees with the cache. */
  predicate Synced(s: FloatSetting, log: seq<Request>, replies: Replies) {
    !s.outOfSync ==>
      var k := LastCompleted(log, replies, s.setpointAddr);
      k.Some? && Agrees(s, log[k.value], replies(k.value))
  }

  /** The configurations the register layer builds: a non-zero scale and a
      setpoint register that no other read of the setting touches. */
  predicate WellFormed(s: FloatSetting) {
    && s.scalar != 0.0
    && s.valueAddr != s.setpointAddr
    && (s.minAddr.Some? ==> s.minAddr.value != s.setpointAddr)
    && (s.maxAddr.Some? ==> s.maxAddr.value != s.setpointAddr)
  }

  /** Appending one request moves the last completed exchange only when the new
      one is a completed exchange with the same register. */
  lemma {:induction false} LastCompletedSnoc(log: seq<Request>, replies: Replies, addr: int, req: Request)
    ensures LastCompleted(log + [req], replies, addr)
         == if req.Address() == addr && Completed(req, replies(|log|)) then Some(|log|)
            else LastCompleted(log, replies, addr)
  {
    assert (log + [req])[..|log|] == log;
  }

  /** A run of exchanges with other registers does not move the last completed
      exchange with `addr`. */
  lemma {:induction false} ForeignRunKeepsLast(log: seq<Request>, replies: Replies, addr: int, extra: seq<Request>)
    requires forall i :: 0 <= i < |extra| ==> extra[i].Address() != addr
    ensures LastCompleted(log + extra, replies, addr) == LastCompleted(log, replies, addr)
    decreases |extra|
  {
    if |extra| > 0 {
      var init := extra[..|extra| - 1];
      var last := extra[|extra| - 1];
      ForeignRunKeepsLast(log, replies, addr, init);
      LastCompletedSnoc(log + init, replies, addr, last);
      assert (log + init) + [last] == log + extra;
    } else {
      assert log + extra == log;
    }
  }

  /** Exchanges with other registers (the other setting, the output switch, ...)
      leave a setting in sync. */
  lemma ForeignExchangeKeepsSync(s: FloatSetting, log: seq<Request>, replies: Replies, req: Request)
    requires Synced(s, log, replies) && req.Address() != s.setpointAddr
    ensures Synced(s, log + [req], replies)
  {
    LastCompletedSnoc(log, replies, s.setpointAddr, req);
    var k := LastCompleted(log, replies, s.setpointAddr);
    if !s.outOfSync {
      assert (log + [req])[k.value] == log[k.value];
    }
  }

  /** Every operation of a setting, with its result dropped. */
  datatype Op =
    | AssignSetpoint(x: real)     // setpoint = x
    | IncrementBy(inc: real)      // increment(inc)
    | ReadSetpoint                // instrument_setpoint (getter)
    | WriteSetpoint(x: real)      // instrument_setpoint = x
    | ReadValue                   // value
    | ApplyCache                  // apply()
    | Init                        // initialize()

  /** The setting and the log after one operation, whether it returned or raised. */
  function Exec(s: FloatSetting, log: seq<Request>, replies: Replies, op: Op): (FloatSetting, seq<Request>) {
    match op
    case AssignSetpoint(x) => (SetSetpoint(s, x), log)
    case IncrementBy(inc) => (Increment(s, inc), log)
    case ReadSetpoint => var r := ReadInstrumentSetpoint(s, log, replies); (r.setting, r.log)
    case WriteSetpoint(x) => var r := WriteInstrumentSetpoint(s, log, replies, x); (r.setting, r.log)
    case ReadValue => var r := Value(s, log, replies); (r.setting, r.log)
    case ApplyCache => var r := Apply(s, log, replies); (r.setting, r.log)
    case Init => var r := Initialize(s, log, replies); (r.setting, r.log)
  }

  /** Only `instrument_setpoint =` and `apply` write, and they write only the
      setpoint register; every other operation only appends reads, and the
      software setters append nothing. */
  lemma OnlyWritersWrite(s: FloatSetting, log: seq<Request>, replies: Replies, op: Op)
    ensures var (_, log') := Exec(s, log, replies, op);
      && |log| <= |log'| && log'[..|log|] == log
      && (op.AssignSetpoint? || op.IncrementBy? ==> log' == log)
      && (forall i :: |log| <= i < |log'| ==>
            var a := log'[i].Address();
            a == s.valueAddr || a == s.setpointAddr
            || (s.minAddr.Some? && a == s.minAddr.value) || (s.maxAddr.Some? && a == s.maxAddr.value))
      && forall i :: |log| <= i < |log'| ==>
           (log'[i].Set? ==> (op.WriteSetpoint? || op.ApplyCache?) && log'[i].addr == s.setpointAddr)
  {
    if op.Init? {
      InitializeOnlyReads(s, log, replies);
    }
  }

  /** `initialize` appends only reads, of the setpoint and the two bound registers. */
  lemma InitializeOnlyReads(s: FloatSetting, log: seq<Request>, replies: Replies)
    ensures var r := Initialize(s, log, replies);
      && |log| <= |r.log| <= |log| + 3 && r.log[..|log|] == log
      && forall i :: |log| <= i < |r.log| ==>
           && r.log[i].Get?
           && (r.log[i].addr == s.setpointAddr || (s.minAddr.Some? && r.log[i].addr == s.minAddr.value)
               || (s.maxAddr.Some? && r.log[i].addr == s.maxAddr.value))
  {
  }

  /** Every operation keeps the out-of-sync flag honest: a setting in sync with
      the log stays in sync after any operation on it. */
  lemma ExecKeepsSync(s: FloatSetting, log: seq<Request>, replies: Replies, op: Op)
    requires WellFormed(s) && Synced(s, log, replies)
    ensures var (s', log') := Exec(s, log, replies, op); Synced(s', log', replies)
  {
    var sp := s.setpointAddr;
    match op
    case AssignSetpoint(x) =>
    case IncrementBy(inc) =>
    case ReadSetpoint =>
      var r := ReadInstrumentSetpoint(s, log, replies);
      if IsWord(sp) {
        LastCompletedSnoc(log, replies, sp, Get(sp));
      }
    case WriteSetpoint(x) =>
      var r := WriteInstrumentSetpoint(s, log, replies, x);
      WrittenValueDependsOnConfig(r.setting, s, x);
      if IsWord(sp) && IsWord(WrittenValue(s, x)) {
        LastCompletedSnoc(log, replies, sp, Set(sp, WrittenValue(s, x)));
      }
    case ReadValue =>
      if IsWord(s.valueAddr) {
        ForeignExchangeKeepsSync(s, log, replies, Get(s.valueAddr));
      }
    case ApplyCache =>
      var r := Apply(s, log, replies);
      WrittenValueDependsOnConfig(r.setting, s, s.cache);
      if IsWord(sp) && IsWord(WrittenValue(s, s.cache)) {
        LastCompletedSnoc(log, replies, sp, Set(sp, WrittenValue(s, s.cache)));
      }
    case Init =>
      InitializeKeepsSync(s, log, replies);
  }

  lemma InitializeKeepsSync(s: FloatSetting, log: seq<Request>, replies: Replies)
    requires WellFormed(s) && Synced(s, log, replies)
    ensures var r := Initialize(s, log, replies); Synced(r.setting, r.log, replies)
  {
    var sp := s.setpointAddr;
    var rd := ReadInstrumentSetpoint(s, log, replies);
    if IsWord(sp) {
      LastCompletedSnoc(log, replies, sp, Get(sp));
    }
    if rd.result.Ok? {
      var s1 := rd.setting.(cache := rd.result.value);
      assert Synced(s1, rd.log, replies);
      var lo := ReadBound(s1, rd.log, replies, s1.minAddr);
      if s1.minAddr.Some? && IsWord(s1.minAddr.value) {
        ForeignExchangeKeepsSync(s1, rd.log, replies, Get(s1.minAddr.value));
      }
      assert Synced(s1, lo.log, replies);
      if lo.result.Ok? {
        var mn := lo.result.value;
        var s2 := if mn.Some? then s1.(min := mn.value) else s1;
        assert Synced(s2, lo.log, replies);
        var hi := ReadBound(s2, lo.log, replies, s2.maxAddr);
        if s2.maxAddr.Some? && IsWord(s2.maxAddr.value) {
          ForeignExchangeKeepsSync(s2, lo.log, replies, Get(s2.maxAddr.value));
        }
        assert Synced(s2, hi.log, replies);
        if hi.result.Ok? {
          var mx := hi.result.value;
          var s3 := if mx.Some? then s2.(max := mx.value) else s2;
          assert Synced(s3, hi.log, replies);
        }
      }
    }
  }
}

=== FILE: legacy.dfy ===
/** The older stand-alone codec in hm305.py. It shares the frame layout and the
    CRC with the current codec, but raises where the current one returns a
    sentinel, and its register helpers `x` and `x4` sit directly on the port. */
module Legacy {
  import opened Base
  import opened Crc
  import opened Modbus

  /** `send_packet`'s `(6, 3)[read]`: the tuple indexed by a bool. */
  function FunctionCode(read: bool): int {
    [WRITE_SINGLE_REGISTER, READ_REGISTERS][if read then 1 else 0]
  }

  /** The older `send_packet` puts the same bytes on the wire as the current one. */
  function SendPacket(link: Link, dev: int, addr: int, value: Option<int>): (r: Result<Link>)
    ensures r == Modbus.SendPacket(link, dev, addr, value)
  {
    var read := value.None?;
    var v := if read then 1 else value.value;
    var pack :- Pack(dev, FunctionCode(read), addr, v);
    Ok(Send(link, pack).1)
  }

  /** `recv` after its read loop, with the CRC comparison written inline. */
  function RecvFrame(data: seq<byte>): (r: Result<Option<seq<byte>>>)
    ensures r == Modbus.RecvFrame(data)
  {
    if |data| > 2 then
      var crc := Crc16(data[..|data| - 2]);
      var packetCrc := LittleEndianValue(data[|data| - 2], data[|data| - 1]);
      if crc != packetCrc then Err(CrcError(false)) else Ok(Some(data[..|data| - 2]))
    else Ok(None)
  }

  /** `receive_packet` on what `recv` returned. A missing or empty packet falls off
      the end of `if p:` and yields None. An unknown function code reaches
      `"Unknown response %d" % p`, which itself raises TypeError on bytes. */
  function Decode(p: Option<seq<byte>>): (r: Result<Option<RxData>>)
    ensures r == Ok(None) <==> p.None? || |p.value| == 0
    ensures r.Ok? && r.value.Some? ==> p.Some? && RxPacket(p.value) == Ok(r.value.value)
  {
    if p.None? || |p.value| == 0 then Ok(None)
    else
      var q := p.value;
      if |q| < 2 then Err(IndexOutOfRange)
      else if q[1] == EXCEPTION_READ then
        if |q| < 3 then Err(IndexOutOfRange)
        else if q[2] == EXCEPTION_CRC_SUBCODE then Err(CrcError(true))
        else Err(UnknownReply)
      else if q[1] == READ_REGISTERS then
        if |q| < 3 then Err(IndexOutOfRange)
        else if |q| - 3 != q[2] then Err(AssertionFailed)
        else if q[2] == 2 then Ok(Some(Word(BigEndian(q[3], q[4]))))
        else Ok(Some(Raw(q)))
      else if q[1] == WRITE_SINGLE_REGISTER then
        if |q| - 2 != 4 then Err(AssertionFailed)
        else Ok(Some(Echo(BigEndian(q[2], q[3]), BigEndian(q[4], q[5]))))
      else Err(TypeMismatch)
  }

  /** The two variants agree wherever the older one returns a value; where the
      current one returns the sentinels `(0, 0)` and `0` for exception replies
      and unknown function codes, the older one raises. */
  lemma DecodeRaisesWhereCurrentReturnsSentinels(pkt: seq<byte>)
    requires |pkt| >= 1
    ensures Decode(Some(pkt)).Ok? ==> Decode(Some(pkt)) == Ok(Some(RxPacket(pkt).value)) && RxPacket(pkt).Ok?
    ensures RxPacket(pkt).Err? ==> Decode(Some(pkt)) == Err(RxPacket(pkt).error)
    ensures |pkt| >= 3 && pkt[1] == EXCEPTION_READ ==>
      Decode(Some(pkt)) == Err(if pkt[2] == 8 then CrcError(true) else UnknownReply)
    ensures |pkt| >= 2 && pkt[1] !in {3, 6, 0x83} ==> Decode(Some(pkt)) == Err(TypeMismatch) && RxPacket(pkt) == Ok(Word(0))
  {
  }

  /** `receive_packet` on the port: collect, check, decode. */
  function ReceivePacket(link: Link): (r: Io<Option<RxData>>)
    ensures r.link.pending == Gather(link.pending).1 && r.link.sent == link.sent
  {
    var (data, rest) := Gather(link.pending);
    var after := link.(pending := rest);
    match RecvFrame(data)
    case Err(e) => Io(Err(e), after)
    case Ok(p) => Io(Decode(p), after)
  }

  /** `x(addr, val)`: one exchange. A read returns the decoded reply; a write
      returns None, and its `assert addr, val == ret` only checks that `addr` is
      non-zero (the comparison is the assert's message, never evaluated). */
  function X(link: Link, addr: int, val: Option<int>): (r: Io<Option<RxData>>)
    ensures !(IsWord(addr) && (val.None? || IsWord(val.value))) ==> r == Io(Err(StructError), link)
    ensures val.Some? && r.result.Ok? ==> r.result.value.None? && addr != 0
  {
    match SendPacket(link, DEVICE, addr, val)
    case Err(e) => Io(Err(e), link)
    case Ok(l) =>
      var rx := ReceivePacket(l);
      if rx.result.Err? || val.None? then rx
      else if addr == 0 then Io(Err(AssertionFailed), rx.link)
      else Io(Ok(None), rx.link)
  }

  /** A read through `x` returns the decoded reply: it leaves the port as the
      current `get_by_addr` does, returns the same data wherever it returns data,
      reads a timeout as None where the current codec reads 0, and raises the
      same error wherever the current codec raises. */
  lemma XReadAgreesWithGetByAddr(link: Link, addr: int)
    ensures X(link, addr, None).link == Modbus.GetByAddr(link, addr).link
    ensures var r := X(link, addr, None).result;
      r.Ok? && r.value.Some? ==> Modbus.GetByAddr(link, addr).result == Ok(r.value.value)
    ensures X(link, addr, None).result == Ok(None) ==> Modbus.GetByAddr(link, addr).result == Ok(Word(0))
    ensures Modbus.GetByAddr(link, addr).result.Err? ==> X(link, addr, None).result == Err(Modbus.GetByAddr(link, addr).result.error)
  {
    match Modbus.SendPacket(link, DEVICE, addr, None)
    case Err(_) =>
    case Ok(l) =>
      var (data, rest) := Gather(l.pending);
      match Modbus.RecvFrame(data)
      case Err(_) =>
      case Ok(None) =>
      case Ok(Some(p)) =>
        DecodeRaisesWhereCurrentReturnsSentinels(p);
  }

  /** A write through `x` succeeds whatever register and value the device echoes. */
  lemma XIgnoresTheEcho(link: Link, addr: int, val: int, a: int, v: int)
    requires IsWord(addr) && IsWord(val) && addr != 0
    requires ReceivePacket(Modbus.SendPacket(link, DEVICE, addr, Some(val)).value).result == Ok(Some(Echo(a, v)))
    ensures X(link, addr, Some(val)).result == Ok(None)
  {
  }

  /** `x4(addr, val)`: a 32-bit quantity in two consecutive registers, high word
      first. A read shifts the first reply left 16 bits before the second
      exchange, so a non-int first reply raises TypeError after one exchange. */
  function X4(link: Link, addr: int, val: Option<int>): (r: Io<Option<int>>)
    ensures val.Some? && r.result.Ok? ==> r.result.value.None?
    ensures val.None? && r.result.Ok? ==> r.result.value.Some?
  {
    if val.None? then
      var first := X(link, addr, None);
      match first.result
      case Err(e) => Io(Err(e), first.link)
      case Ok(hi) =>
        if !(hi.Some? && hi.value.Word?) then Io(Err(TypeMismatch), first.link)
        else
          var second := X(first.link, addr + 1, None);
          match second.result
          case Err(e) => Io(Err(e), second.link)
          case Ok(lo) =>
            if !(lo.Some? && lo.value.Word?) then Io(Err(TypeMismatch), second.link)
            else Io(Ok(Some(Combine(hi.value.w, lo.value.w))), second.link)
    else
      var first := X(link, addr, Some(HighHalf(val.value)));
      match first.result
      case Err(e) => Io(Err(e), first.link)
      case Ok(_) =>
        var second := X(first.link, addr + 1, Some(LowHalf(val.value)));
        match second.result
        case Err(e) => Io(Err(e), second.link)
        case Ok(_) => Io(Ok(None), second.link)
  }

  /** An `x4` write of a 32-bit value puts exactly two write frames on the wire,
      the high half to `addr` and then the low half to `addr + 1`, and those
      halves recombine to the value. */
  lemma X4WriteSendsHalves(link: Link, addr: int, val: int)
    requires 0 < addr && IsWord(addr + 1) && 0 <= val < 0x1_0000_0000
    requires X4(link, addr, Some(val)).result.Ok?
    ensures var hi, lo := HighHalf(val), LowHalf(val);
      && X4(link, addr, Some(val)).link.sent
         == link.sent + [Seal(RequestBytes(DEVICE, addr, Some(hi))), Seal(RequestBytes(DEVICE, addr + 1, Some(lo)))]
      && Combine(hi, lo) == val
  {
    SplitCombine(val);
  }

  /** An `x4` read whose two replies are the words hi and lo returns `(hi << 16) + lo`. */
  lemma X4ReadCombines(link: Link, addr: int, hi: int, lo: int)
    requires IsWord(addr) && IsWord(addr + 1) && IsWord(hi) && IsWord(lo)
    requires X(link, addr, None).result == Ok(Some(Word(hi)))
    requires X(X(link, addr, None).link, addr + 1, None).result == Ok(Some(Word(lo)))
    ensures X4(link, addr, None).result == Ok(Some(Combine(hi, lo)))
    ensures 0 <= Combine(hi, lo) < 0x1_0000_0000
  {
    CombineSplit(hi, lo);
  }
}

=== FILE: modbus.dfy ===
/** The current Modbus RTU codec (modbus/__init__.py): request frames for
    function 0x03 (Read Holding Registers, section 6.3 of the MODBUS Application
    Protocol Specification V1.1b3) and 0x06 (Write Single Register, section 6.6),
    CRC sealing, reply collection over an idle-timeout serial line, CRC checking
    and the function-code switch that turns a reply into Python data.

    The serial port is a Link: the frames written so far, and the chunks that
    successive `read(1)` calls will return (an empty chunk is a read timeout). */
module Modbus {
  import opened Base
  import opened Crc

  const READ_REGISTERS: int := 0x03
  const WRITE_SINGLE_REGISTER: int := 0x06
  const EXCEPTION_READ: int := 0x83
  const EXCEPTION_CRC_SUBCODE: int := 0x08
  /** `send_packet`'s default `device_address`; the register layer never overrides it. */
  const DEVICE: int := 1

  datatype Link = Link(sent: seq<seq<byte>>, pending: seq<seq<byte>>)

  /** What `receive_packet` hands back: an int, an `(addr, val)` tuple, or the raw packet. */
  datatype RxData = Word(w: int) | Echo(addr: int, value: int) | Raw(bytes: seq<byte>)

  /** A result together with the port state it leaves behind, also after a raise. */
  datatype Io<T> = Io(result: Result<T>, link: Link)

  function BigEndian(hi: byte, lo: byte): int {
    hi as int * 256 + lo as int
  }

  function LittleEndianValue(lo: byte, hi: byte): int {
    lo as int + 256 * hi as int
  }

  /** `struct.pack('<H', w)`. */
  function LittleEndian(w: int): (r: seq<byte>)
    requires IsWord(w)
    ensures |r| == 2 && LittleEndianValue(r[0], r[1]) == w
  {
    [w % 256, w / 256]
  }

  /** `struct.pack('>BBHH', device_address, function_code, address, value)`. */
  function Pack(dev: int, fc: int, addr: int, value: int): (r: Result<seq<byte>>)
    ensures r.Ok? <==> 0 <= dev < 256 && 0 <= fc < 256 && IsWord(addr) && IsWord(value)
    ensures r.Err? ==> r.error == StructError
    ensures r.Ok? ==>
              && |r.value| == 6 && r.value[0] == dev && r.value[1] == fc
              && BigEndian(r.value[2], r.value[3]) == addr && BigEndian(r.value[4], r.value[5]) == value
  {
    if 0 <= dev < 256 && 0 <= fc < 256 && IsWord(addr) && IsWord(value) then
      Ok([dev, fc, addr / 256, addr % 256, value / 256, value % 256])
    else Err(StructError)
  }

  /** The bytes `_send` writes: the payload followed by its CRC, low byte first. */
  function Seal(data: seq<byte>): (r: seq<byte>)
    ensures |r| == |data| + 2 && r[..|data|] == data
    ensures LittleEndianValue(r[|data|], r[|data| + 1]) == Crc16(data)
  {
    data + LittleEndian(Crc16(data))
  }

  /** `_send`: write the sealed frame; the port reports the whole frame written. */
  function Send(link: Link, data: seq<byte>): (r: (int, Link))
    ensures r.1.sent == link.sent + [Seal(data)] && r.1.pending == link.pending
    ensures r.0 == |data| + 2
  {
    var frame := Seal(data);
    (|frame|, link.(sent := link.sent + [frame]))
  }

  /** `send_packet`: a read asks for one register (value 1, function 3); a write
      sends the value with function 6. */
  function SendPacket(link: Link, dev: int, addr: int, value: Option<int>): (r: Result<Link>)
    ensures r.Ok? <==> 0 <= dev < 256 && IsWord(addr) && (value.None? || IsWord(value.value))
    ensures r.Ok? ==>
              && r.value.pending == link.pending
              && r.value.sent == link.sent + [Seal(RequestBytes(dev, addr, value))]
  {
    var fc := if value.None? then READ_REGISTERS else WRITE_SINGLE_REGISTER;
    var v := if value.None? then 1 else value.value;
    var pack :- Pack(dev, fc, addr, v);
    Ok(Send(link, pack).1)
  }

  /** The six request bytes for a read (value None) or a write of a packable value. */
  function RequestBytes(dev: int, addr: int, value: Option<int>): (r: seq<byte>)
    requires 0 <= dev < 256 && IsWord(addr) && (value.None? || IsWord(value.value))
    ensures |r| == 6
  {
    var fc := if value.None? then READ_REGISTERS else WRITE_SINGLE_REGISTER;
    var v := if value.None? then 1 else value.value;
    Pack(dev, fc, addr, v).value
  }

  /** The concatenation of a sequence of chunks. */
  function Flatten(chunks: seq<seq<byte>>): seq<byte> {
    if |chunks| == 0 then [] else Flatten(chunks[..|chunks| - 1]) + chunks[|chunks| - 1]
  }

  /** The index of the first timed-out read, or the end of the supply. */
  function IdleIndex(chunks: seq<seq<byte>>): (k: nat)
    ensures k <= |chunks|
    ensures forall i :: 0 <= i < k ==> chunks[i] != []
    ensures k < |chunks| ==> chunks[k] == []
  {
    if |chunks| == 0 || chunks[0] == [] then 0 else 1 + IdleIndex(chunks[1..])
  }

  /** The bytes `_recv`'s loop accumulates, and the chunks still unread after it. */
  function Gather(chunks: seq<seq<byte>>): (seq<byte>, seq<seq<byte>>) {
    var k := IdleIndex(chunks);
    (Flatten(chunks[..k]), if k < |chunks| then chunks[k + 1..] else [])
  }

  /** `_recv`'s read loop as written: read until a read returns no bytes. */
  method ReadUntilIdle(chunks: seq<seq<byte>>) returns (data: seq<byte>, rest: seq<seq<byte>>)
    ensures (data, rest) == Gather(chunks)
  {
    data := [];
    var i := 0;
    while true
      invariant 0 <= i <= IdleIndex(chunks)
      invariant data == Flatten(chunks[..i])
      decreases |chunks| - i
    {
      if i == |chunks| {
        rest := [];
        break;
      }
      var b := chunks[i];
      if |b| == 0 {
        rest := chunks[i + 1..];
        break;
      }
      assert chunks[..i + 1][..i] == chunks[..i];
      data := data + b;
      i := i + 1;
    }
  }

  /** `_proc_pkt_crc`: strip the trailing little-endian CRC if it matches. */
  function ProcPktCrc(data: seq<byte>): (r: Result<seq<byte>>)
    ensures r.Err? ==> r.error == (if |data| < 2 then StructError else CrcError(false))
  {
    if |data| < 2 then Err(StructError)
    else if Crc16(data[..|data| - 2]) != LittleEndianValue(data[|data| - 2], data[|data| - 1]) then Err(CrcError(false))
    else Ok(data[..|data| - 2])
  }

  /** `ProcPktCrc` accepts exactly the sealed frames, and gives back their payload. */
  lemma CrcCheckAcceptsExactlySealed(data: seq<byte>, payload: seq<byte>)
    ensures ProcPktCrc(data) == Ok(payload) <==> data == Seal(payload)
  {
    if data == Seal(payload) {
      assert data[..|data| - 2] == payload;
    }
    if ProcPktCrc(data) == Ok(payload) {
      var w := Crc16(payload);
      assert data[..|data| - 2] == payload;
      assert data[|data| - 2] == w % 256 && data[|data| - 1] == w / 256;
      assert data == payload + data[|data| - 2..];
    }
  }

  /** What `_recv` makes of the collected bytes: None for two bytes or fewer. */
  function RecvFrame(data: seq<byte>): (r: Result<Option<seq<byte>>>)
    ensures |data| <= 2 ==> r == Ok(None)
    ensures |data| > 2 ==> r.Ok? ==> r.value.Some? && Seal(r.value.value) == data && |r.value.value| >= 1
  {
    if |data| > 2 then
      var p :- ProcPktCrc(data);
      CrcCheckAcceptsExactlySealed(data, p);
      Ok(Some(p))
    else Ok(None)
  }

  /** `RxPacket.__init__`: switch on the function byte of a CRC-checked reply. */
  function RxPacket(pkt: seq<byte>): (r: Result<RxData>)
    ensures r.Ok? && r.value.Word? ==> IsWord(r.value.w)
    ensures r.Ok? && r.value.Echo? ==> IsWord(r.value.addr) && IsWord(r.value.value)
    ensures r.Ok? && r.value.Raw? ==> r.value.bytes == pkt && |pkt| >= 3 && pkt[1] == READ_REGISTERS && pkt[2] != 2
    ensures r.Err? ==> r.error == IndexOutOfRange || r.error == AssertionFailed
  {
    if |pkt| < 2 then Err(IndexOutOfRange)
    else if pkt[1] == READ_REGISTERS then
      if |pkt| < 3 then Err(IndexOutOfRange)
      else if |pkt| - 3 != pkt[2] then Err(AssertionFailed)
      else if pkt[2] == 2 then Ok(Word(BigEndian(pkt[3], pkt[4])))
      else Ok(Raw(pkt))
    else if pkt[1] == WRITE_SINGLE_REGISTER then
      if |pkt| - 2 != 4 then Err(AssertionFailed)
      else Ok(Echo(BigEndian(pkt[2], pkt[3]), BigEndian(pkt[4], pkt[5])))
    else if pkt[1] == EXCEPTION_READ then
      if |pkt| < 3 then Err(IndexOutOfRange)
      else if pkt[2] == EXCEPTION_CRC_SUBCODE then Ok(Echo(0, 0))
      else Ok(Word(0))
    else Ok(Word(0))
  }

  /** The reply a device sends to a one-register read: function 3, byte count 2, the word. */
  function ReadReply(dev: byte, w: int): seq<byte>
    requires IsWord(w)
  {
    [dev, READ_REGISTERS, 2, w / 256, w % 256]
  }

  /** Decoding inverts encoding: a write request echoed back decodes to its
      (address, value), and a one-register read reply decodes to its word. */
  lemma RxPacketInvertsEncoding(dev: byte, addr: int, value: int)
    requires IsWord(addr) && IsWord(value)
    ensures RxPacket(RequestBytes(dev, addr, Some(value))) == Ok(Echo(addr, value))
    ensures RxPacket(ReadReply(dev, value)) == Ok(Word(value))
  {
  }

  /** How each reply shape decodes: a read reply whose byte count disagrees with
      its length fails the assert, exception 0x83 with sub-code 0x08 reads as
      `(0, 0)`, and any other function code as 0. */
  lemma RxPacketCases(pkt: seq<byte>)
    requires |pkt| >= 3
    ensures pkt[1] == READ_REGISTERS && pkt[2] != |pkt| - 3 ==> RxPacket(pkt) == Err(AssertionFailed)
    ensures pkt[1] == READ_REGISTERS && pkt[2] == |pkt| - 3 && pkt[2] != 2 ==> RxPacket(pkt) == Ok(Raw(pkt))
    ensures pkt[1] == WRITE_SINGLE_REGISTER && |pkt| != 6 ==> RxPacket(pkt) == Err(AssertionFailed)
    ensures pkt[1] == EXCEPTION_READ ==>
      RxPacket(pkt) == (if pkt[2] == 8 then Ok(Echo(0, 0)) else Ok(Word(0)))
    ensures pkt[1] !in {3, 6, 0x83} ==> RxPacket(pkt) == Ok(Word(0))
  {
  }

  /** `receive_packet`: collect, check, decode; a timeout (None) reads as 0. */
  function ReceivePacket(link: Link): (r: Io<RxData>)
    ensures r.link.sent == link.sent && r.link.pending == Gather(link.pending).1
  {
    var (data, rest) := Gather(link.pending);
    var after := link.(pending := rest);
    match RecvFrame(data)
    case Err(e) => Io(Err(e), after)
    case Ok(None) => Io(Ok(Word(0)), after)
    case Ok(Some(p)) => Io(RxPacket(p), after)
  }

  /** `set_by_addr`: one write exchange; True iff the reply decodes to `(address, value)`. */
  function SetByAddr(link: Link, addr: int, value: int): (r: Io<bool>)
    ensures !(IsWord(addr) && IsWord(value)) ==> r == Io(Err(StructError), link)
    ensures IsWord(addr) && IsWord(value) ==>
      && r.link.sent == link.sent + [Seal(RequestBytes(DEVICE, addr, Some(value)))]
      && r.result == (match ReceivePacket(link).result
                      case Ok(d) => Ok(d == Echo(addr, value))
                      case Err(e) => Err(e))
  {
    match SendPacket(link, DEVICE, addr, Some(value))
    case Err(e) => Io(Err(e), link)
    case Ok(l) =>
      var rx := ReceivePacket(l);
      match rx.result
      case Ok(d) => Io(Ok(d == Echo(addr, value)), rx.link)
      case Err(e) => Io(Err(e), rx.link)
  }

  /** `get_by_addr`: one read exchange; the decoded reply. */
  function GetByAddr(link: Link, addr: int): (r: Io<RxData>)
    ensures !IsWord(addr) ==> r == Io(Err(StructError), link)
    ensures IsWord(addr) ==>
      r.link.sent == link.sent + [Seal(RequestBytes(DEVICE, addr, None))]
      && r.result == ReceivePacket(link).result
  {
    match SendPacket(link, DEVICE, addr, None)
    case Err(e) => Io(Err(e), link)
    case Ok(l) => ReceivePacket(l)
  }

  /** Every request frame on the wire is eight bytes: six of payload and the CRC. */
  lemma RequestFramesAreEightBytes(link: Link, addr: int, value: Option<int>)
    requires SendPacket(link, DEVICE, addr, value).Ok?
    ensures var l := SendPacket(link, DEVICE, addr, value).value;
      |l.sent[|l.sent| - 1]| == 8 && ProcPktCrc(l.sent[|l.sent| - 1]) == Ok(RequestBytes(DEVICE, addr, value))
  {
    var l := SendPacket(link, DEVICE, addr, value).value;
    CrcCheckAcceptsExactlySealed(l.sent[|l.sent| - 1], RequestBytes(DEVICE, addr, value));
  }

  /** A device that echoes the write request (as function 6 prescribes) makes
      `set_by_addr` report success, however the reply was split into reads. */
  lemma EchoedWriteSucceeds(link: Link, addr: int, value: int)
    requires IsWord(addr) && IsWord(value)
    requires Gather(link.pending).0 == Seal(RequestBytes(DEVICE, addr, Some(value)))
    ensures SetByAddr(link, addr, value).result == Ok(true)
  {
    var req := RequestBytes(DEVICE, addr, Some(value));
    CrcCheckAcceptsExactlySealed(Seal(req), req);
    RxPacketInvertsEncoding(DEVICE, addr, value);
  }

  /** A one-register read reply makes `get_by_addr` return the register's word. */
  lemma ReadReplyDecodes(link: Link, addr: int, w: int)
    requires IsWord(addr) && IsWord(w)
    requires Gather(link.pending).0 == Seal(ReadReply(DEVICE, w))
    ensures GetByAddr(link, addr).result == Ok(Word(w))
  {
    CrcCheckAcceptsExactlySealed(Seal(ReadReply(DEVICE, w)), ReadReply(DEVICE, w));
    RxPacketInvertsEncoding(DEVICE, 0, w);
  }

  /** A read timeout (two bytes or fewer arrive) is indistinguishable from a
      register holding 0, and makes every write report failure. */
  lemma TimeoutReadsAsZero(link: Link, addr: int, value: int)
    requires IsWord(addr) && IsWord(value)
    requires |Gather(link.pending).0| <= 2
    ensures GetByAddr(link, addr).result == Ok(Word(0))
    ensures SetByAddr(link, addr, value).result == Ok(false)
  {
  }

  /** The device's "CRC rejected" exception (0x83, sub-code 0x08) decodes to the
      tuple `(0, 0)`, so a write of 0 to register 0 that the device rejected is
      reported as successful. */
  lemma CrcRejectionLooksLikeZeroWrite(link: Link)
    requires Gather(link.pending).0 == Seal([DEVICE, EXCEPTION_READ, EXCEPTION_CRC_SUBCODE])
    ensures SetByAddr(link, 0, 0).result == Ok(true)
    ensures GetByAddr(link, 0).result == Ok(Echo(0, 0))
  {
    var p: seq<byte> := [DEVICE, EXCEPTION_READ, EXCEPTION_CRC_SUBCODE];
    CrcCheckAcceptsExactlySealed(Seal(p), p);
  }
}

=== FILE: parser.dfy ===
/** `CommandFactory` of hm305/command_factory.py: the command registry and
    `parse`, which trims the line, notes a trailing `?`, strips `?` and spaces,
    collapses runs of spaces, and dispatches on the number of spaces left. */
module Parser {
  import opened Base
  import opened Text
  import opened Commands

  /** `CommandFactory.Commands`: the apply entries have no query constructor. */
  const REGISTRY: map<string, Entry> := map[
    "VOLTage" := Entry(Some(MeasureVoltage), Some(SetVoltage)),
    "VOLTage:SETPoint" := Entry(Some(VoltageSetpointQuery), Some(SetVoltageSetpoint)),
    "VOLTage:APPLY" := Entry(None, Some(VoltageApply)),
    "CURRent" := Entry(Some(MeasureCurrent), Some(SetCurrent)),
    "CURRent:SETPoint" := Entry(Some(CurrentSetpointQuery), Some(SetCurrent)),
    "CURRent:APPLY" := Entry(None, Some(CurrentApply)),
    "OUTput" := Entry(Some(OutputQuery), Some(SetOutput))]

  /** Query constructors build queries and set constructors build non-queries;
      the two apply entries have no query side, and `CURRent:SETPoint` builds the
      same class as `CURRent` (`SetCurrentSetpointCommand` is an alias). */
  lemma RegistryShape()
    ensures WellSorted(REGISTRY)
    ensures forall key :: key in REGISTRY && REGISTRY[key].setter.Some? && IsApply(REGISTRY[key].setter.value) ==>
              REGISTRY[key].query.None?
    ensures REGISTRY["CURRent:SETPoint"].setter == REGISTRY["CURRent"].setter
    ensures forall key :: key in OLD_REGISTRY ==> key in REGISTRY && REGISTRY[key] == OLD_REGISTRY[key]
    ensures REGISTRY.Keys == OLD_REGISTRY.Keys + {"CURRent:APPLY"}
  {
    RegistryWellSorted();
    RegistryExtendsOld();
  }

  lemma RegistryWellSorted()
    ensures WellSorted(REGISTRY)
    ensures forall key :: key in REGISTRY && REGISTRY[key].setter.Some? && IsApply(REGISTRY[key].setter.value) ==>
              REGISTRY[key].query.None?
  {
  }

  /** The registry is the older one with `CURRent:APPLY` added. */
  lemma RegistryExtendsOld()
    ensures forall key :: key in OLD_REGISTRY ==> key in REGISTRY && REGISTRY[key] == OLD_REGISTRY[key]
    ensures REGISTRY.Keys == OLD_REGISTRY.Keys + {"CURRent:APPLY"}
  {
  }

  /** The `VOLTage` entry, looked up past the other keys of the registry. */
  lemma VoltageEntry()
    ensures "VOLTage" in REGISTRY && REGISTRY["VOLTage"] == Entry(Some(MeasureVoltage), Some(SetVoltage))
  {
    var k := "VOLTage";
    assert k[0] != "CURRent"[0] && k[0] != "CURRent:SETPoint"[0] && k[0] != "CURRent:APPLY"[0] && k[0] != "OUTput"[0];
    assert |k| != |"VOLTage:SETPoint"| && |k| != |"VOLTage:APPLY"|;
  }

  /** The normalised line: stripped, `?`/space-stripped, runs of spaces collapsed. */
  function Normalise(line: string): string {
    CollapseSpaces(Trimmed(line))
  }

  /** `CommandFactory.parse`. A bare non-query yields None without calling any
      constructor. */
  function Parse(line: string, g: Guards, env: Env): Result<(Option<Command>, Guards)> {
    BySpaces(REGISTRY, env, Normalise(line), IsQueryLine(line), g, false)
  }

  /** The normalised line has no two spaces in a row, and it is exactly the
      trimmed line with every run of spaces shortened to one. */
  lemma NormalisedIsSqueezed(line: string)
    ensures Normalise(line) == Squeeze(Trimmed(line))
    ensures !HasDouble(Normalise(line))
  {
    CollapseIsSqueeze(Trimmed(line));
  }

  /** What a parse can return, by the number of spaces left after normalising.
      More than one: no command. None: only a query constructor, called bare.
      One: the line is `name + " " + arg`, a query raises TypeError (no query
      class takes an argument), a non-query calls the set constructor with arg. */
  lemma ParseBySpaceCount(line: string, g: Guards, env: Env)
    ensures var s := Normalise(line);
      && (CountSpaces(s) >= 2 ==> Parse(line, g, env) == Ok((None, g)))
      && (CountSpaces(s) == 0 && !IsQueryLine(line) ==> Parse(line, g, env) == Ok((None, g)))
      && (CountSpaces(s) == 0 && IsQueryLine(line) ==>
            Parse(line, g, env) == match Find(REGISTRY, env, s)
              case Some(Entry(Some(k), _)) => Built(Construct(k, None, g, env))
              case _ => Ok((None, g)))
  {
    var s := Normalise(line);
    assert Parse(line, g, env) == BySpaces(REGISTRY, env, s, IsQueryLine(line), g, false);
  }

  /** A line with a name and one argument. */
  lemma ParseWithArgument(line: string, g: Guards, env: Env)
    requires CountSpaces(Normalise(line)) == 1
    ensures var (name, arg) := SplitOnce(Normalise(line));
      && Normalise(line) == name + " " + arg
      && CountSpaces(name) == 0 && CountSpaces(arg) == 0
      && (Find(REGISTRY, env, name).None? ==> Parse(line, g, env) == Ok((None, g)))
      && (IsQueryLine(line) && Find(REGISTRY, env, name).Some? && Find(REGISTRY, env, name).value.query.Some? ==>
            Parse(line, g, env) == Err(TypeMismatch))
      && (!IsQueryLine(line) && Find(REGISTRY, env, name).Some? && Find(REGISTRY, env, name).value.setter.Some? ==>
            Parse(line, g, env) == Built(Construct(Find(REGISTRY, env, name).value.setter.value, Some(Str(arg)), g, env)))
  {
    var s := Normalise(line);
    SplitOnceRejoins(s);
    var (name, arg) := SplitOnce(s);
    assert Parse(line, g, env) == Dispatch(REGISTRY, env, name, Some(arg), IsQueryLine(line), g, false);
    RegistryShape();
  }

  /** The parser never builds an apply command and never touches the apply
      guards: the apply entries have no query side, their set constructors take
      no argument, and a bare non-query is not constructed. A command it does
      return is a query exactly when the line ended in `?`. */
  lemma ParseNeverApplies(line: string, g: Guards, env: Env)
    requires Parse(line, g, env).Ok?
    ensures Parse(line, g, env).value.1 == g
    ensures var c := Parse(line, g, env).value.0;
      c.Some? ==> !IsApply(c.value.kind) && (IsQuery(c.value.kind) <==> IsQueryLine(line))
  {
    var s := Normalise(line);
    var q := IsQueryLine(line);
    RegistryShape();
    assert Parse(line, g, env) == BySpaces(REGISTRY, env, s, q, g, false);
    if CountSpaces(s) == 1 {
      var (name, arg) := SplitOnce(s);
      DispatchNeverApplies(env, name, Some(arg), q, g);
    } else if CountSpaces(s) == 0 {
      DispatchNeverApplies(env, s, None, q, g);
    }
  }

  lemma DispatchNeverApplies(env: Env, name: string, arg: Option<string>, q: bool, g: Guards)
    requires WellSorted(REGISTRY)
    requires Dispatch(REGISTRY, env, name, arg, q, g, false).Ok?
    ensures Dispatch(REGISTRY, env, name, arg, q, g, false).value.1 == g
    ensures var c := Dispatch(REGISTRY, env, name, arg, q, g, false).value.0;
      c.Some? ==> !IsApply(c.value.kind) && (IsQuery(c.value.kind) <==> q)
  {
    match Find(REGISTRY, env, name)
    case None =>
    case Some(e) =>
      assert e in REGISTRY.Values;
      var argv := if arg.Some? then Some(Str(arg.value)) else None;
      if q && e.query.Some? {
        ClassAttributes(e.query.value);
      } else if !q && e.setter.Some? && arg.Some? {
        ClassAttributes(e.setter.value);
      }
  }
}

=== FILE: registers.dfy ===
/** The HM305 register layer (hm305/__init__.py): the register table, the two
    scaled settings for voltage and current, the 32-bit split over two
    registers, and the output switch. The bus is the abstract request log of
    Transport; the serial port the driver opens is not modelled. */
module Registers {
  import opened Base
  import opened Transport
  import opened Settings
  import Modbus

  /** `HM305.CMD`. */
  datatype Reg =
    | Output | ProtectionStatus | ModelNum | ClassDetail | Decimals
    | Voltage | Current | Power | PowerCal
    | ProtectVoltage | ProtectCurrent | ProtectPower
    | SetVoltage | SetCurrent | SetTimeSpan
    | PowerState | DefaultShow | Scp | Buzzer
    | Device | SdTime
    | VoltageMin | VoltageMax | CurrentMin | CurrentMax

  function Address(r: Reg): int {
    match r
    case Output => 0x0001
    case ProtectionStatus => 0x0002
    case ModelNum => 0x0003
    case ClassDetail => 0x0004
    case Decimals => 0x0005
    case Voltage => 0x0010
    case Current => 0x0011
    case Power => 0x0012
    case PowerCal => 0x0014
    case ProtectVoltage => 0x0020
    case ProtectCurrent => 0x0021
    case ProtectPower => 0x0022
    case SetVoltage => 0x0030
    case SetCurrent => 0x0031
    case SetTimeSpan => 0x0032
    case PowerState => 0x8801
    case DefaultShow => 0x8802
    case Scp => 0x8803
    case Buzzer => 0x8804
    case Device => 0x9999
    case SdTime => 0xCCCC
    case VoltageMin => 0xC110
    case VoltageMax => 0xC11E
    case CurrentMin => 0xC120
    case CurrentMax => 0xC12E
  }

  /** `HM305.CMD(a)`: the member with value a, if any. */
  function FromAddress(a: int): (r: Option<Reg>)
    ensures r.Some? ==> Address(r.value) == a
  {
    match a
    case 0x0001 => Some(Output)
    case 0x0002 => Some(ProtectionStatus)
    case 0x0003 => Some(ModelNum)
    case 0x0004 => Some(ClassDetail)
    case 0x0005 => Some(Decimals)
    case 0x0010 => Some(Voltage)
    case 0x0011 => Some(Current)
    case 0x0012 => Some(Power)
    case 0x0014 => Some(PowerCal)
    case 0x0020 => Some(ProtectVoltage)
    case 0x0021 => Some(ProtectCurrent)
    case 0x0022 => Some(ProtectPower)
    case 0x0030 => Some(SetVoltage)
    case 0x0031 => Some(SetCurrent)
    case 0x0032 => Some(SetTimeSpan)
    case 0x8801 => Some(PowerState)
    case 0x8802 => Some(DefaultShow)
    case 0x8803 => Some(Scp)
    case 0x8804 => Some(Buzzer)
    case 0x9999 => Some(Device)
    case 0xCCCC => Some(SdTime)
    case 0xC110 => Some(VoltageMin)
    case 0xC11E => Some(VoltageMax)
    case 0xC120 => Some(CurrentMin)
    case 0xC12E => Some(CurrentMax)
    case _ => None
  }

  /** Every register address fits the `'>H'` field of a request, and the table is
      a bijection onto its values: distinct members have distinct addresses. */
  lemma AddressTableIsInjective(r: Reg, q: Reg)
    ensures IsWord(Address(r))
    ensures FromAddress(Address(r)) == Some(r)
    ensures Address(r) == Address(q) ==> r == q
  {
    AddressRoundTrip(r);
    AddressRoundTrip(q);
  }

  /** Looking a member's address up gives the member back. */
  lemma AddressRoundTrip(r: Reg)
    ensures IsWord(Address(r)) && FromAddress(Address(r)) == Some(r)
  {
  }

  /** The driver: the voltage and current settings, both on the same bus. */
  datatype Hm305 = Hm305(voltage: FloatSetting, current: FloatSetting)

  /** `HM305.__init__`: voltage in centivolts on 0x10/0x30, current in milliamps on
      0x11/0x31, both with device-read bounds and the default [0, 999] until read. */
  function Create(): (h: Hm305)
    ensures h.voltage == Settings.Create(0x10, 0x30, 100.0, 0.0, Some(0xC110), 999.0, Some(0xC11E))
    ensures h.current == Settings.Create(0x11, 0x31, 1000.0, 0.0, Some(0xC120), 999.0, Some(0xC12E))
  {
    Hm305(
      Settings.Create(Address(Voltage), Address(SetVoltage), 100.0, DEFAULT_MIN, Some(Address(VoltageMin)),
                      DEFAULT_MAX, Some(Address(VoltageMax))),
      Settings.Create(Address(Current), Address(SetCurrent), 1000.0, DEFAULT_MIN, Some(Address(CurrentMin)),
                      DEFAULT_MAX, Some(Address(CurrentMax))))
  }

  /** The addresses a setting ever puts on the bus. */
  predicate Uses(s: FloatSetting, a: int) {
    a == s.valueAddr || a == s.setpointAddr
    || (s.minAddr.Some? && a == s.minAddr.value) || (s.maxAddr.Some? && a == s.maxAddr.value)
  }

  /** Both settings of a fresh driver are well formed, and neither touches a
      register the other one uses. */
  lemma CreatedSettingsAreSeparate()
    ensures WellFormed(Create().voltage) && WellFormed(Create().current)
    ensures forall a :: Uses(Create().voltage, a) ==> !Uses(Create().current, a)
  {
  }

  /** `_get_val`. */
  function GetVal(log: seq<Request>, replies: Replies, r: Reg): (x: Exchange<Modbus.RxData>)
    ensures x.log == log + [Get(Address(r))] && x.result == replies(|log|)
  {
    AddressTableIsInjective(r, r);
    GetByAddr(log, replies, Address(r))
  }

  /** `_set_val`. */
  function SetVal(log: seq<Request>, replies: Replies, r: Reg, v: int): (x: Exchange<bool>)
    ensures IsWord(v) ==> x.log == log + [Set(Address(r), v)]
    ensures !IsWord(v) ==> x == Exchange(Err(StructError), log)
    ensures x.result.Ok? <==> IsWord(v) && replies(|log|).Ok?
    ensures x.result.Ok? ==> (x.result.value <==> replies(|log|).value == Modbus.Echo(Address(r), v))
  {
    AddressTableIsInjective(r, r);
    SetByAddr(log, replies, Address(r), v)
  }

  /** The read half of `_tx_rx_word`: `(get(addr) << 16) + get(addr + 1)`. The
      shift is evaluated before the second read, so a non-int first reply raises
      TypeError after one request. */
  function ReadWord(log: seq<Request>, replies: Replies, addr: int): (x: Exchange<int>)
    ensures x.result.Ok? ==>
              && x.log == log + [Get(addr), Get(addr + 1)]
              && replies(|log|).Ok? && replies(|log|).value.Word?
              && replies(|log| + 1).Ok? && replies(|log| + 1).value.Word?
              && x.result.value == Combine(replies(|log|).value.w, replies(|log| + 1).value.w)
  {
    var first := GetByAddr(log, replies, addr);
    match first.result
    case Err(e) => Exchange(Err(e), first.log)
    case Ok(hi) =>
      if !hi.Word? then Exchange(Err(TypeMismatch), first.log)
      else
        var second := GetByAddr(first.log, replies, addr + 1);
        match second.result
        case Err(e) => Exchange(Err(e), second.log)
        case Ok(lo) =>
          if !lo.Word? then Exchange(Err(TypeMismatch), second.log)
          else Exchange(Ok(Combine(hi.w, lo.w)), second.log)
  }

  /** The write half of `_tx_rx_word`: `val >> 16` to addr, and `val & 0xFFFF` to
      addr + 1 only when the first write was echoed; otherwise False. */
  function WriteWord(log: seq<Request>, replies: Replies, addr: int, val: int): (x: Exchange<bool>)
    ensures x.result.Ok? && x.result.value ==>
              x.log == log + [Set(addr, HighHalf(val)), Set(addr + 1, LowHalf(val))]
    ensures x.result.Ok? && replies(|log|) != Ok(Modbus.Echo(addr, HighHalf(val))) ==>
              !x.result.value && x.log == log + [Set(addr, HighHalf(val))]
    ensures IsWord(addr) && IsWord(addr + 1) && 0 <= val < 0x1_0000_0000
            && replies(|log|) == Ok(Modbus.Echo(addr, HighHalf(val))) ==>
              && x.log == log + [Set(addr, HighHalf(val)), Set(addr + 1, LowHalf(val))]
              && (x.result.Ok? <==> replies(|log| + 1).Ok?)
              && (x.result.Ok? ==> (x.result.value <==> replies(|log| + 1).value == Modbus.Echo(addr + 1, LowHalf(val))))
  {
    var a := SetByAddr(log, replies, addr, HighHalf(val));
    match a.result
    case Err(e) => Exchange(Err(e), a.log)
    case Ok(ok) =>
      if ok then SetByAddr(a.log, replies, addr + 1, LowHalf(val))
      else Exchange(Ok(false), a.log)
  }

  /** A 32-bit value written with `_tx_rx_word` to a device that echoes both
      writes and then returns the stored halves reads back as the same value: the
      write sends the high half first, and the read formula inverts the split. */
  lemma WordWriteThenRead(log: seq<Request>, replies: Replies, addr: int, val: int)
    requires IsWord(addr) && IsWord(addr + 1) && 0 <= val < 0x1_0000_0000
    requires replies(|log|) == Ok(Modbus.Echo(addr, HighHalf(val)))
    requires replies(|log| + 1) == Ok(Modbus.Echo(addr + 1, LowHalf(val)))
    requires replies(|log| + 2) == Ok(Modbus.Word(HighHalf(val)))
    requires replies(|log| + 3) == Ok(Modbus.Word(LowHalf(val)))
    ensures var w := WriteWord(log, replies, addr, val);
      && w == Exchange(Ok(true), log + [Set(addr, HighHalf(val)), Set(addr + 1, LowHalf(val))])
      && ReadWord(w.log, replies, addr).result == Ok(val)
  {
    SplitCombine(val);
  }

  /** `w`: the 32-bit power reading in milliwatts, as watts. */
  function Watts(log: seq<Request>, replies: Replies): (x: Exchange<real>)
    ensures x.result.Ok? <==> ReadWord(log, replies, Address(Power)).result.Ok?
    ensures x.result.Ok? ==> x.result.value * 1000.0 == ReadWord(log, replies, Address(Power)).result.value as real
  {
    var r := ReadWord(log, replies, Address(Power));
    match r.result
    case Err(e) => Exchange(Err(e), r.log)
    case Ok(v) => Exchange(Ok(v as real / 1000.0), r.log)
  }

  /** `off()` and `on()`: one write of 0 or 1 to the output register; the echo
      check's verdict is discarded. */
  function Switch(log: seq<Request>, replies: Replies, on: bool): (x: Exchange<()>)
    ensures x.log == log + [Set(0x0001, if on then 1 else 0)]
    ensures x.result.Ok? <==> replies(|log|).Ok?
  {
    var r := SetVal(log, replies, Output, if on then 1 else 0);
    match r.result
    case Err(e) => Exchange(Err(e), r.log)
    case Ok(_) => Exchange(Ok(()), r.log)
  }

  /** `initialize`: the voltage setting first; the current setting only when
      that returned. It only reads, and a return leaves both settings in sync. */
  function Initialize(h: Hm305, log: seq<Request>, replies: Replies): (x: (Hm305, Exchange<()>))
    ensures x.1.result.Ok? ==> !x.0.voltage.outOfSync && !x.0.current.outOfSync
    ensures Settings.Initialize(h.voltage, log, replies).result.Err? ==> x.1.result.Err? && x.0.current == h.current
    ensures x.0.voltage.setpointAddr == h.voltage.setpointAddr && x.0.current.setpointAddr == h.current.setpointAddr
    ensures x.0.voltage.scalar == h.voltage.scalar && x.0.current.scalar == h.current.scalar
    ensures |log| <= |x.1.log| <= |log| + 6 && x.1.log[..|log|] == log
    ensures forall i :: |log| <= i < |x.1.log| ==> x.1.log[i].Get?
  {
    InitializeOnlyReads(h.voltage, log, replies);
    var v := Settings.Initialize(h.voltage, log, replies);
    if v.result.Err? then (h.(voltage := v.setting), Exchange(Err(v.result.error), v.log))
    else
      InitializeOnlyReads(h.current, v.log, replies);
      var c := Settings.Initialize(h.current, v.log, replies);
      (Hm305(v.setting, c.setting), Exchange(c.result, c.log))
  }

  /** A successful `initialize` of a fresh driver reads, in order, the voltage
      setpoint, minimum and maximum, then the same three for current. */
  lemma InitializeReadsInOrder(log: seq<Request>, replies: Replies)
    requires Initialize(Create(), log, replies).1.result.Ok?
    ensures Initialize(Create(), log, replies).1.log
         == log + [Get(0x30), Get(0xC110), Get(0xC11E), Get(0x31), Get(0xC120), Get(0xC12E)]
  {
  }

  /** A run of exchanges with registers other than the setpoint keeps a setting in sync. */
  lemma ForeignRunKeepsSync(s: FloatSetting, log: seq<Request>, replies: Replies, extra: seq<Request>)
    requires Synced(s, log, replies)
    requires forall i :: 0 <= i < |extra| ==> extra[i].Address() != s.setpointAddr
    ensures Synced(s, log + extra, replies)
  {
    ForeignRunKeepsLast(log, replies, s.setpointAddr, extra);
    var k := LastCompleted(log, replies, s.setpointAddr);
    if k.Some? {
      assert (log + extra)[k.value] == log[k.value];
    }
  }

  /** After `initialize` of a fresh driver returns, both flags are clear and
      each setting agrees with the last completed exchange of its setpoint
      register: the current setting's reads never touch the voltage setpoint. */
  lemma InitializeSyncsBoth(log: seq<Request>, replies: Replies)
    requires Initialize(Create(), log, replies).1.result.Ok?
    ensures var x := Initialize(Create(), log, replies);
      && !x.0.voltage.outOfSync && !x.0.current.outOfSync
      && Synced(x.0.voltage, x.1.log, replies) && Synced(x.0.current, x.1.log, replies)
  {
    var h := Create();
    CreatedSettingsAreSeparate();
    var v := Settings.Initialize(h.voltage, log, replies);
    InitializeKeepsSync(h.voltage, log, replies);
    var c := Settings.Initialize(h.current, v.log, replies);
    InitializeKeepsSync(h.current, v.log, replies);
    InitializeOnlyReads(h.current, v.log, replies);
    var extra := c.log[|v.log|..];
    assert c.log == v.log + extra;
    forall i | 0 <= i < |extra|
      ensures extra[i].Address() != v.setting.setpointAddr
    {
      assert Uses(h.current, c.log[|v.log| + i].Address());
    }
    ForeignRunKeepsSync(v.setting, v.log, replies, extra);
  }

  /** Operating one setting of a fresh driver never disturbs the other's sync. */
  lemma CurrentOpsKeepVoltageSync(log: seq<Request>, replies: Replies, op: Op, v: FloatSetting, c: FloatSetting)
    requires SameConfig(v, Create().voltage) && SameConfig(c, Create().current)
    requires Synced(v, log, replies)
    ensures Synced(v, Exec(c, log, replies, op).1, replies)
  {
    var log' := Exec(c, log, replies, op).1;
    OnlyWritersWrite(c, log, replies, op);
    var extra := log'[|log|..];
    assert log' == log + extra;
    forall i | 0 <= i < |extra|
      ensures extra[i].Address() != v.setpointAddr
    {
      assert Uses(c, log'[|log| + i].Address());
    }
    ForeignRunKeepsSync(v, log, replies, extra);
  }

  /** Writing 50 V to a supply whose maximum reads as 32 V: the cache keeps the
      requested 50.0 while the register receives 3200, the clamped value in
      centivolts. */
  lemma OverLimitVoltageIsClamped(log: seq<Request>, replies: Replies)
    requires replies(|log|).Ok?
    ensures var s := Create().voltage.(max := 32.0);
      var r := WriteInstrumentSetpoint(s, log, replies, 50.0);
      && r.log == log + [Set(0x30, 3200)]
      && r.setting.cache == 50.0 && !r.setting.outOfSync
  {
    var s := Create().voltage.(max := 32.0);
    assert Scaled(s, 50.0) == 3200.0;
    RoundHalfEvenNearest(3200.0, 3200);
  }
}

=== FILE: server.dfy ===
/** `HM305pServer.handle` of hm305/server.py: one request line is parsed, routed
    to the serial or the fast queue (with the special split of a voltage or
    current set into a setpoint write and an apply), and answered at most once.

    Threads are replaced by sequential draining: `q.put(x); q.join()` runs that
    queue's worker until the queue is empty, and `Background` runs the serial
    worker over what is pending. A worker whose item raised is dead: its item
    was never acknowledged, so every later `join` on that queue blocks
    (`Hung`). */
module Server {
  import opened Base
  import opened Text
  import opened Commands
  import opened Parser
  import opened Workers

  /** The two class-level queues, the shared command state, and whether each
      worker is still running. */
  datatype Server = Server(serialQ: seq<Command>, fastQ: seq<Command>, pool: Pool, serialUp: bool, fastUp: bool)

  /** What the client gets: one write, an exception that ends the handler with
      nothing written, or a handler blocked in `join` forever. */
  datatype Reply = Sent(text: Rendered) | Raised(error: Error) | Hung

  const DONE: string := "DONE\n"
  const NOT_FOUND: string := "error: cmd not found"

  datatype Lane = SerialLane | FastLane

  /** Generic routing: the serial queue iff the class uses the serial port. */
  function LaneOf(k: Kind): Lane {
    if UsesSerialPort(k) then SerialLane else FastLane
  }

  function WorkerFor(l: Lane): Worker {
    if l == SerialLane then SerialWorker else FastWorker
  }

  function QueueOf(s: Server, l: Lane): seq<Command> {
    if l == SerialLane then s.serialQ else s.fastQ
  }

  function UpOf(s: Server, l: Lane): bool {
    if l == SerialLane then s.serialUp else s.fastUp
  }

  function WithLane(s: Server, l: Lane, q: seq<Command>, up: bool): (r: Server)
    ensures QueueOf(r, l) == q && UpOf(r, l) == up && r.pool == s.pool
    ensures forall m :: m != l ==> QueueOf(r, m) == QueueOf(s, m) && UpOf(r, m) == UpOf(s, m)
  {
    if l == SerialLane then s.(serialQ := q, serialUp := up) else s.(fastQ := q, fastUp := up)
  }

  /** `q.put(c)`. */
  function Put(s: Server, l: Lane, c: Command): Server {
    WithLane(s, l, QueueOf(s, l) + [c], UpOf(s, l))
  }

  /** `q.put(c); q.join()`: the command as the worker left it, or None when the
      join never returns. */
  function PutAndJoin(s: Server, l: Lane, c: Command, answers: Answers, env: Env): (r: (Option<Command>, Server))
    ensures forall m :: m != l ==> QueueOf(r.1, m) == QueueOf(s, m) && UpOf(r.1, m) == UpOf(s, m)
    ensures r.0.Some? ==> QueueOf(r.1, l) == [] && UpOf(r.1, l)
    ensures r.0.None? ==> !UpOf(r.1, l)
  {
    var q := QueueOf(s, l) + [c];
    if !UpOf(s, l) then (None, WithLane(s, l, q, false))
    else
      var d := Drain(WorkerFor(l), q, s.pool, answers, env, None, 0);
      DrainFacts(WorkerFor(l), q, s.pool, answers, env, None, 0);
      var s' := WithLane(s, l, d.rest, !d.stop.Crashed?).(pool := d.pool);
      if d.stop.Crashed? then (None, s') else (Some(d.taken[|d.taken| - 1]), s')
  }

  /** Joining a lane that holds nothing else: the worker handles just `c`. */
  lemma JoinSingle(s: Server, l: Lane, c: Command, answers: Answers, env: Env)
    requires UpOf(s, l) && QueueOf(s, l) == []
    ensures var o := Process(WorkerFor(l), c, s.pool, answers, env);
      PutAndJoin(s, l, c, answers, env)
        == if o.result.Err? then (None, WithLane(s, l, [], false).(pool := o.pool))
           else (Some(o.cmd), WithLane(s, l, [], true).(pool := o.pool))
  {
    var w := WorkerFor(l);
    var o := Process(w, c, s.pool, answers, env);
    assert QueueOf(s, l) + [c] == [c];
    assert [c][1..] == [];
    assert Drain(w, [], o.pool, answers, env, None, 1) == WorkerRun([], [], 0, o.pool, Idle);
    var d := Drain(w, [c], s.pool, answers, env, None, 0);
    assert d.pool == o.pool && d.rest == [] && (d.stop.Crashed? <==> o.result.Err?);
    assert d.taken == [o.cmd];
  }

  function ReplyOf(r: Result<Rendered>): Reply {
    match r
    case Ok(text) => Sent(text)
    case Err(e) => Raised(e)
  }

  /** `result_as_string` as evidently intended: a float command whose numeral
      did not parse answers with its error text instead of failing to format it. */
  function RenderFixed(c: Command): (r: Result<Rendered>)
    ensures r.Err? <==> HasFloatArg(c.kind) && !c.stale && !(c.result.Num? || c.result.Flag?)
    ensures !c.stale ==> r == Render(c)
  {
    if c.stale && HasFloatArg(c.kind) then Ok(Plain(c.result)) else Render(c)
  }

  /** The voltage and current special cases, `server.py` lines 42-59, with
      `setKind` the setpoint class and `applyKind` the apply class. As written
      (`corrected` false) the apply is built before the fast queue is joined and
      marked stale when the setpoint is; corrected, it is built only for a live
      setpoint once the setpoint has been written, and a bad numeral is reported. */
  function Special(s: Server, item: Command, setKind: Kind, applyKind: Kind, answers: Answers, env: Env,
                   corrected: bool): (Reply, Server)
    requires IsApply(applyKind) && HasFloatArg(setKind)
  {
    match Construct(setKind, Some(item.arg), s.pool.guards, env)
    case Err(e) => (Raised(e), s)
    case Ok((setpt, _)) =>
      if corrected then
        var (done, s1) := PutAndJoin(s, FastLane, setpt, answers, env);
        if done.None? then (Hung, s1)
        else if setpt.stale then (ReplyOf(RenderFixed(done.value)), s1)
        else
          ConstructWithoutArgument(applyKind, s1.pool.guards, env);
          var (apply, g) := Construct(applyKind, None, s1.pool.guards, env).value;
          (ReplyOf(RenderFixed(done.value)), Put(s1.(pool := s1.pool.(guards := g)), SerialLane, apply))
      else
        ConstructWithoutArgument(applyKind, s.pool.guards, env);
        var (apply, g) := Construct(applyKind, None, s.pool.guards, env).value;
        var marked := apply.(stale := apply.stale || setpt.stale);
        var (done, s1) := PutAndJoin(s.(pool := s.pool.(guards := g)), FastLane, setpt, answers, env);
        if done.None? then (Hung, s1)
        else (ReplyOf(Render(done.value)), Put(s1, SerialLane, marked))
  }

  /** Every other command, `server.py` lines 60-74: queued by its port flag,
      awaited only when the class waits for its result. */
  function Generic(s: Server, item: Command, answers: Answers, env: Env, corrected: bool): (Reply, Server) {
    var l := LaneOf(item.kind);
    if WaitForResult(item.kind) then
      var (done, s1) := PutAndJoin(s, l, item, answers, env);
      if done.None? then (Hung, s1)
      else (ReplyOf(if corrected then RenderFixed(done.value) else Render(done.value)), s1)
    else (Sent(Literal(DONE)), Put(s, l, item))
  }

  /** The `isinstance` chain on the parsed command. */
  function Route(s: Server, item: Command, answers: Answers, env: Env, corrected: bool): (Reply, Server) {
    if item.kind == SetVoltage then Special(s, item, SetVoltageSetpoint, VoltageApply, answers, env, corrected)
    else if item.kind == SetCurrent then Special(s, item, SetCurrent, CurrentApply, answers, env, corrected)
    else Generic(s, item, answers, env, corrected)
  }

  /** One request line: `readline().strip()`, parse, route. */
  function Serve(s: Server, line: string, answers: Answers, env: Env, corrected: bool): (Reply, Server) {
    match Parse(Strip(line, AsciiSpace), s.pool.guards, env)
    case Err(e) => (Raised(e), s)
    case Ok((None, g)) => (Sent(Literal(NOT_FOUND)), s.(pool := s.pool.(guards := g)))
    case Ok((Some(item), g)) => Route(s.(pool := s.pool.(guards := g)), item, answers, env, corrected)
  }

  /** `handle` as written. */
  function Handle(s: Server, line: string, answers: Answers, env: Env): (Reply, Server) {
    Serve(s, line, answers, env, false)
  }

  /** `handle` with the two bad-numeral defects corrected. */
  function HandleFixed(s: Server, line: string, answers: Answers, env: Env): (Reply, Server) {
    Serve(s, line, answers, env, true)
  }

  /** The serial worker running on its own: up to `budget` items (None: until
      the queue is empty). */
  function Background(s: Server, budget: Option<nat>, answers: Answers, env: Env): Server {
    if !s.serialUp then s
    else
      var d := Drain(SerialWorker, s.serialQ, s.pool, answers, env, budget, 0);
      s.(serialQ := d.rest, pool := d.pool, serialUp := !d.stop.Crashed?)
  }

  // ---------------------------------------------------------------------------
  // Routing

  /** A line that parses to nothing enqueues nothing and answers "error: cmd not
      found"; a line the parser raises on changes nothing and gets no answer. */
  lemma UnknownLineAnswersNotFound(s: Server, line: string, answers: Answers, env: Env)
    ensures var p := Parse(Strip(line, AsciiSpace), s.pool.guards, env);
      && (p.Ok? && p.value.0.None? ==> Handle(s, line, answers, env) == (Sent(Literal(NOT_FOUND)), s))
      && (p.Err? ==> Handle(s, line, answers, env) == (Raised(p.error), s))
  {
    var p := Parse(Strip(line, AsciiSpace), s.pool.guards, env);
    if p.Ok? {
      ParseNeverApplies(Strip(line, AsciiSpace), s.pool.guards, env);
    }
  }

  /** `VOLTage x` with a good numeral and a running fast worker: the set command
      itself is never queued; a setpoint write of x runs on the fast queue, then
      one apply goes on the serial queue (born stale when an apply is already
      pending), and the answer is x in `2.3f` format. If the instrument call
      raises, the fast worker dies, the handler blocks and no apply is queued. */
  lemma VoltageLineWritesSetpointThenQueuesApply(s: Server, item: Command, x: real, answers: Answers, env: Env)
    requires item.kind == SetVoltage && FloatOf(env, item.arg) == Ok(Some(x))
    requires s.fastUp && s.fastQ == []
    ensures var (reply, s1) := Route(s, item, answers, env, false);
      var g := s.pool.guards;
      && s1.pool.calls == s.pool.calls + [WriteVoltageSetpoint(Num(x))]
      && s1.fastQ == [] && s1.pool.guards.voltage && s1.pool.guards.current == g.current
      && (answers(|s.pool.calls|).Ok? ==>
            && reply == Sent(Fixed3(x)) && s1.fastUp
            && s1.serialQ == s.serialQ + [Command(VoltageApply, NoValue, g.voltage, g.voltage, NoValue)])
      && (answers(|s.pool.calls|).Err? ==> reply == Hung && !s1.fastUp && s1.serialQ == s.serialQ)
  {
    var g := s.pool.guards;
    var setpt := Command(SetVoltageSetpoint, Num(x), false, false, NoValue);
    assert Construct(SetVoltageSetpoint, Some(item.arg), g, env) == Ok((setpt, g));
    ConstructWithoutArgument(VoltageApply, g, env);
    ClassAttributes(SetVoltageSetpoint);
    var s0 := s.(pool := s.pool.(guards := WithGuard(g, VoltageApply, true)));
    JoinSingle(s0, FastLane, setpt, answers, env);
  }

  /** `CURRent x`: the setpoint object is a `SetCurrentCommand`, which needs the
      serial port, yet it goes on the fast queue. The fast worker refuses it, so
      the current is never written; the "QUEUE ERROR" result then fails the
      `2.3f` format, so the client gets no answer, while a current apply is still
      queued. */
  lemma CurrentLineNeverWritesCurrent(s: Server, item: Command, x: real, answers: Answers, env: Env)
    requires item.kind == SetCurrent && FloatOf(env, item.arg) == Ok(Some(x))
    requires s.fastUp && s.fastQ == []
    ensures var (reply, s1) := Route(s, item, answers, env, false);
      var g := s.pool.guards;
      && reply == Raised(FormatFailure)
      && s1.pool.calls == s.pool.calls && s1.fastQ == [] && s1.fastUp
      && s1.serialQ == s.serialQ + [Command(CurrentApply, NoValue, g.current, g.current, NoValue)]
  {
    var g := s.pool.guards;
    var setpt := Command(SetCurrent, Num(x), false, false, NoValue);
    assert Construct(SetCurrent, Some(item.arg), g, env) == Ok((setpt, g));
    ConstructWithoutArgument(CurrentApply, g, env);
    ClassAttributes(SetCurrent);
    var s0 := s.(pool := s.pool.(guards := WithGuard(g, CurrentApply, true)));
    JoinSingle(s0, FastLane, setpt, answers, env);
  }

  /** Any other command goes to the serial queue iff it uses the serial port.
      Without `wait_for_result` it is only queued and the answer is "DONE\n";
      with it, the queue is drained and the answer is the command's own
      `result_as_string` after its worker handled it. */
  lemma GenericRouting(s: Server, item: Command, answers: Answers, env: Env)
    requires item.kind != SetVoltage && item.kind != SetCurrent
    ensures var (reply, s1) := Route(s, item, answers, env, false);
      var l := LaneOf(item.kind);
      && (l == SerialLane <==> UsesSerialPort(item.kind))
      && (!WaitForResult(item.kind) ==>
            reply == Sent(Literal(DONE)) && s1 == Put(s, l, item))
      && (WaitForResult(item.kind) && UpOf(s, l) && QueueOf(s, l) == [] ==>
            var o := Process(WorkerFor(l), item, s.pool, answers, env);
            && (o.result.Ok? ==> reply == ReplyOf(Render(o.cmd)) && QueueOf(s1, l) == [] && s1.pool == o.pool)
            && (o.result.Err? ==> reply == Hung && !UpOf(s1, l)))
  {
    var l := LaneOf(item.kind);
    if WaitForResult(item.kind) && UpOf(s, l) && QueueOf(s, l) == [] {
      JoinSingle(s, l, item, answers, env);
    }
  }

  // ---------------------------------------------------------------------------
  // The apply guard

  /** The number of live (not stale) applies of kind k in a queue. */
  function LiveApplies(q: seq<Command>, k: Kind): nat {
    if |q| == 0 then 0
    else (if q[0].kind == k && !q[0].stale then 1 else 0) + LiveApplies(q[1..], k)
  }

  predicate NoApplies(q: seq<Command>) {
    forall i :: 0 <= i < |q| ==> !IsApply(q[i].kind)
  }

  /** The guard of apply class k is set exactly when one live apply of that
      class is waiting in the serial queue, and there is never more than one. */
  predicate GuardTracks(g: Guards, q: seq<Command>, k: Kind)
    requires IsApply(k)
  {
    LiveApplies(q, k) <= 1 && (GuardOf(g, k) <==> LiveApplies(q, k) == 1)
  }

  /** The invariant the corrected server keeps: no apply on the fast queue, and
      both guards track the serial queue. */
  predicate GuardInv(s: Server) {
    && NoApplies(s.fastQ)
    && GuardTracks(s.pool.guards, s.serialQ, VoltageApply)
    && GuardTracks(s.pool.guards, s.serialQ, CurrentApply)
  }

  lemma {:induction false} LiveAppliesSnoc(q: seq<Command>, c: Command, k: Kind)
    ensures LiveApplies(q + [c], k) == LiveApplies(q, k) + (if c.kind == k && !c.stale then 1 else 0)
    decreases |q|
  {
    if |q| > 0 {
      LiveAppliesSnoc(q[1..], c, k);
      assert (q + [c])[1..] == q[1..] + [c];
    } else {
      assert (q + [c])[1..] == [];
    }
  }

  /** Draining a queue that holds no apply leaves both guards alone. */
  lemma {:induction false} DrainWithoutAppliesKeepsGuards(w: Worker, q: seq<Command>, pool: Pool, answers: Answers,
                                                        env: Env, dieAt: Option<nat>, checks: nat)
    requires NoApplies(q)
    ensures var d := Drain(w, q, pool, answers, env, dieAt, checks);
      d.pool.guards == pool.guards && NoApplies(d.rest)
    decreases |q|
  {
    if !(dieAt.Some? && checks >= dieAt.value) && |q| > 0 {
      var o := Process(w, q[0], pool, answers, env);
      assert !IsApply(q[0].kind);
      if o.result.Ok? {
        DrainWithoutAppliesKeepsGuards(w, q[1..], o.pool, answers, env, dieAt, checks + 1);
      }
    }
  }

  /** One serial-worker step keeps the guard tracking the queue: invoking the
      live apply clears its guard as it leaves the queue, and nothing else moves
      a guard. */
  lemma ProcessKeepsGuardTracking(q: seq<Command>, pool: Pool, answers: Answers, env: Env, k: Kind)
    requires IsApply(k) && |q| > 0 && GuardTracks(pool.guards, q, k)
    ensures GuardTracks(Process(SerialWorker, q[0], pool, answers, env).pool.guards, q[1..], k)
  {
    var c := q[0];
    var o := Process(SerialWorker, c, pool, answers, env);
    if !c.stale && IsApply(c.kind) && c.kind != k {
      assert GuardOf(o.pool.guards, k) == GuardOf(pool.guards, k);
    }
  }

  /** The serial worker keeps the guard tracking its queue, however far it gets
      and whether or not an item raises. */
  lemma {:induction false} SerialDrainKeepsGuardTracking(q: seq<Command>, pool: Pool, answers: Answers, env: Env,
                                                       dieAt: Option<nat>, checks: nat, k: Kind)
    requires IsApply(k) && GuardTracks(pool.guards, q, k)
    ensures var d := Drain(SerialWorker, q, pool, answers, env, dieAt, checks);
      GuardTracks(d.pool.guards, d.rest, k)
    decreases |q|
  {
    if !(dieAt.Some? && checks >= dieAt.value) && |q| > 0 {
      var o := Process(SerialWorker, q[0], pool, answers, env);
      ProcessKeepsGuardTracking(q, pool, answers, env, k);
      if o.result.Ok? {
        SerialDrainKeepsGuardTracking(q[1..], o.pool, answers, env, dieAt, checks + 1, k);
      }
    }
  }

  /** With no live apply of class k queued, the serial worker never moves that
      guard, however far it gets. */
  lemma {:induction false} SerialDrainKeepsIdleGuard(q: seq<Command>, pool: Pool, answers: Answers, env: Env,
                                                   dieAt: Option<nat>, checks: nat, k: Kind)
    requires IsApply(k) && LiveApplies(q, k) == 0
    ensures var d := Drain(SerialWorker, q, pool, answers, env, dieAt, checks);
      GuardOf(d.pool.guards, k) == GuardOf(pool.guards, k) && LiveApplies(d.rest, k) == 0
    decreases |q|
  {
    if !(dieAt.Some? && checks >= dieAt.value) && |q| > 0 {
      var c := q[0];
      var o := Process(SerialWorker, c, pool, answers, env);
      if !c.stale && IsApply(c.kind) {
        assert GuardOf(o.pool.guards, k) == GuardOf(pool.guards, k);
      }
      if o.result.Ok? {
        SerialDrainKeepsIdleGuard(q[1..], o.pool, answers, env, dieAt, checks + 1, k);
      }
    }
  }

  lemma BackgroundKeepsGuardInv(s: Server, budget: Option<nat>, answers: Answers, env: Env)
    requires GuardInv(s)
    ensures GuardInv(Background(s, budget, answers, env))
  {
    if s.serialUp {
      SerialDrainKeepsGuardTracking(s.serialQ, s.pool, answers, env, budget, 0, VoltageApply);
      SerialDrainKeepsGuardTracking(s.serialQ, s.pool, answers, env, budget, 0, CurrentApply);
    }
  }

  /** Joining a lane with a non-apply command keeps the invariant. */
  lemma PutAndJoinKeepsGuardInv(s: Server, l: Lane, c: Command, answers: Answers, env: Env)
    requires GuardInv(s) && !IsApply(c.kind)
    ensures GuardInv(PutAndJoin(s, l, c, answers, env).1)
  {
    var q := QueueOf(s, l) + [c];
    LiveAppliesSnoc(s.serialQ, c, VoltageApply);
    LiveAppliesSnoc(s.serialQ, c, CurrentApply);
    if UpOf(s, l) {
      if l == SerialLane {
        SerialDrainKeepsGuardTracking(q, s.pool, answers, env, None, 0, VoltageApply);
        SerialDrainKeepsGuardTracking(q, s.pool, answers, env, None, 0, CurrentApply);
      } else {
        DrainWithoutAppliesKeepsGuards(FastWorker, q, s.pool, answers, env, None, 0);
      }
    }
  }

  /** Queuing a non-apply command keeps the invariant. */
  lemma PutKeepsGuardInv(s: Server, l: Lane, c: Command)
    requires GuardInv(s) && !IsApply(c.kind)
    ensures GuardInv(Put(s, l, c))
  {
    LiveAppliesSnoc(s.serialQ, c, VoltageApply);
    LiveAppliesSnoc(s.serialQ, c, CurrentApply);
  }

  /** Building an apply and queuing it on the serial queue keeps the invariant:
      a second apply is born stale, a first one is live and sets the guard. */
  lemma QueueApplyKeepsGuardInv(s: Server, k: Kind, env: Env)
    requires GuardInv(s) && IsApply(k)
    ensures var (apply, g) := Construct(k, None, s.pool.guards, env).value;
      GuardInv(Put(s.(pool := s.pool.(guards := g)), SerialLane, apply))
  {
    ConstructWithoutArgument(k, s.pool.guards, env);
    var (apply, g) := Construct(k, None, s.pool.guards, env).value;
    LiveAppliesSnoc(s.serialQ, apply, VoltageApply);
    LiveAppliesSnoc(s.serialQ, apply, CurrentApply);
  }

  lemma SpecialFixedKeepsGuardInv(s: Server, item: Command, setKind: Kind, applyKind: Kind, answers: Answers, env: Env)
    requires GuardInv(s) && IsApply(applyKind) && HasFloatArg(setKind)
    ensures GuardInv(Special(s, item, setKind, applyKind, answers, env, true).1)
  {
    match Construct(setKind, Some(item.arg), s.pool.guards, env)
    case Err(_) =>
    case Ok((setpt, _)) =>
      PutAndJoinKeepsGuardInv(s, FastLane, setpt, answers, env);
      var (done, s1) := PutAndJoin(s, FastLane, setpt, answers, env);
      if done.Some? && !setpt.stale {
        QueueApplyKeepsGuardInv(s1, applyKind, env);
      }
  }

  /** Routing a command that is not an apply keeps the invariant. */
  lemma RouteFixedKeepsGuardInv(s: Server, item: Command, answers: Answers, env: Env)
    requires GuardInv(s) && !IsApply(item.kind)
    ensures GuardInv(Route(s, item, answers, env, true).1)
  {
    if item.kind == SetVoltage {
      SpecialFixedKeepsGuardInv(s, item, SetVoltageSetpoint, VoltageApply, answers, env);
    } else if item.kind == SetCurrent {
      SpecialFixedKeepsGuardInv(s, item, SetCurrent, CurrentApply, answers, env);
    } else if WaitForResult(item.kind) {
      PutAndJoinKeepsGuardInv(s, LaneOf(item.kind), item, answers, env);
    } else {
      PutKeepsGuardInv(s, LaneOf(item.kind), item);
    }
  }

  /** The corrected `handle` keeps the apply guard honest: after any request,
      each guard is set exactly when one live apply of its class is queued. */
  lemma HandleFixedKeepsGuardInv(s: Server, line: string, answers: Answers, env: Env)
    requires GuardInv(s)
    ensures GuardInv(HandleFixed(s, line, answers, env).1)
  {
    var msg := Strip(line, AsciiSpace);
    var p := Parse(msg, s.pool.guards, env);
    if p.Ok? {
      ParseNeverApplies(msg, s.pool.guards, env);
      assert s.(pool := s.pool.(guards := p.value.1)) == s;
      if p.value.0.Some? {
        RouteFixedKeepsGuardInv(s, p.value.0.value, answers, env);
      }
    }
  }

  /** Under the invariant, once the serial worker has emptied its queue both
      guards are clear, so the next apply of either class is live. */
  lemma DrainedServerAcceptsApplies(s: Server, answers: Answers, env: Env, k: Kind)
    requires GuardInv(s) && IsApply(k)
    ensures var s1 := Background(s, None, answers, env);
      s1.serialQ == [] ==> !GuardOf(s1.pool.guards, k) && !Construct(k, None, s1.pool.guards, env).value.0.stale
  {
    BackgroundKeepsGuardInv(s, None, answers, env);
    ConstructWithoutArgument(k, Background(s, None, answers, env).pool.guards, env);
  }

  // ---------------------------------------------------------------------------
  // The bad-numeral defects

  /** As written, `VOLTage x` with a numeral that does not parse claims the apply
      guard for an apply that is then marked stale and skipped, and gets no
      answer: the stale setpoint's 'error: bad float' fails the `2.3f` format.
      The guard is never cleared again, whatever the serial worker does, so every
      later apply is born stale and no later `VOLTage` line applies its voltage. */
  lemma BadFloatLeavesApplyGuardSet(s: Server, item: Command, answers: Answers, env: Env,
                                    budget: Option<nat>, answers2: Answers)
    requires GuardInv(s) && !s.pool.guards.voltage && s.fastUp && s.fastQ == []
    requires item.kind == SetVoltage && FloatOf(env, item.arg) == Ok(None)
    ensures var (reply, s1) := Route(s, item, answers, env, false);
      && reply == Raised(FormatFailure)
      && s1.pool.calls == s.pool.calls
      && s1.pool.guards.voltage && LiveApplies(s1.serialQ, VoltageApply) == 0
      && !GuardInv(s1)
      && var s2 := Background(s1, budget, answers2, env);
         s2.pool.guards.voltage && Construct(VoltageApply, None, s2.pool.guards, env).value.0.stale
  {
    var g := s.pool.guards;
    var setpt := Command(SetVoltageSetpoint, item.arg, true, false, Str(BAD_FLOAT));
    assert Construct(SetVoltageSetpoint, Some(item.arg), g, env) == Ok((setpt, g));
    ConstructWithoutArgument(VoltageApply, g, env);
    var apply := Command(VoltageApply, NoValue, true, false, NoValue);
    var s0 := s.(pool := s.pool.(guards := g.(voltage := true)));
    JoinSingle(s0, FastLane, setpt, answers, env);
    var s1 := Route(s, item, answers, env, false).1;
    assert s1.serialQ == s.serialQ + [apply];
    LiveAppliesSnoc(s.serialQ, apply, VoltageApply);
    if s1.serialUp {
      SerialDrainKeepsIdleGuard(s1.serialQ, s1.pool, answers2, env, budget, 0, VoltageApply);
    }
    ConstructWithoutArgument(VoltageApply, Background(s1, budget, answers2, env).pool.guards, env);
  }

  /** An instrument library that knows only the name `VOLTage` and a `float()`
      that rejects the numeral `x`. */
  function ExampleEnv(): Env {
    Env(n => if n == "VOLTage" then Some("VOLTage") else None,
        t => if t == "x" then None else Some(5.0),
        v => Ok(true))
  }

  /** A server just started: empty queues, clear guards, both workers running. */
  function Fresh(): (s: Server)
    ensures GuardInv(s)
  {
    Server([], [], Pool(Guards(false, false), []), true, true)
  }

  /** The witness for the two defects: the line `VOLTage x`. As written it gets
      no answer and leaves the voltage guard set with no apply to clear it. */
  lemma BadFloatLineWitness(line: string, answers: Answers, budget: Option<nat>)
    requires line == "VOLTage x"
    ensures var (reply, s1) := Handle(Fresh(), line, answers, ExampleEnv());
      && reply == Raised(FormatFailure)
      && !GuardInv(s1)
      && Background(s1, budget, answers, ExampleEnv()).pool.guards.voltage
  {
    var s := Fresh();
    var item := Command(SetVoltage, Str("x"), true, false, Str(BAD_FLOAT));
    var env := ExampleEnv();
    ExampleArgIsBadFloat();
    ExampleLineRoutes(s, line, answers, false);
    BadFloatLeavesApplyGuardSet(s, item, answers, env, budget, answers);
    var r := Route(s, item, answers, env, false);
    assert Handle(s, line, answers, env) == r;
  }

  /** Corrected, the same line is answered with the error text and changes
      nothing. */
  lemma BadFloatLineFixedWitness(line: string, answers: Answers)
    requires line == "VOLTage x"
    ensures HandleFixed(Fresh(), line, answers, ExampleEnv()) == (Sent(Plain(Str(BAD_FLOAT))), Fresh())
  {
    var s := Fresh();
    var item := Command(SetVoltage, Str("x"), true, false, Str(BAD_FLOAT));
    ExampleLineRoutes(s, line, answers, true);
    BadFloatIsReported(s, item, answers, ExampleEnv());
  }

  lemma ExampleLineRoutes(s: Server, line: string, answers: Answers, corrected: bool)
    requires line == "VOLTage x"
    ensures Serve(s, line, answers, ExampleEnv(), corrected)
         == Route(s, Command(SetVoltage, Str("x"), true, false, Str(BAD_FLOAT)), answers, ExampleEnv(), corrected)
  {
    ExampleLineParses(s.pool.guards);
    assert s.(pool := s.pool.(guards := s.pool.guards)) == s;
  }

  /** `VOLTage x` reaches the router as a stale voltage set. */
  lemma ExampleLineParses(g: Guards)
    ensures Parse(Strip("VOLTage x", AsciiSpace), g, ExampleEnv())
         == Ok((Some(Command(SetVoltage, Str("x"), true, false, Str(BAD_FLOAT))), g))
  {
    var env := ExampleEnv();
    ExampleLineDispatches(g);
    ExampleNameFound();
    ExampleArgConstructs(g);
  }

  /** The parser splits `VOLTage x` into a name and one argument. */
  lemma ExampleLineDispatches(g: Guards)
    ensures Parse(Strip("VOLTage x", AsciiSpace), g, ExampleEnv())
         == Dispatch(REGISTRY, ExampleEnv(), "VOLTage", Some("x"), false, g, false)
  {
    ExampleLineNormalises();
    ExampleLineIsSingleSpaced();
    ExampleLineSplits();
  }

  /** `VOLTage` resolves to the voltage entry. */
  lemma ExampleNameFound()
    ensures Find(REGISTRY, ExampleEnv(), "VOLTage") == Some(Entry(Some(MeasureVoltage), Some(SetVoltage)))
  {
    VoltageEntry();
    assert ExampleEnv().resolve("VOLTage") == Some("VOLTage");
  }

  /** `float("x")` raises ValueError. */
  lemma ExampleArgIsBadFloat()
    ensures FloatOf(ExampleEnv(), Str("x")) == Ok(None)
  {
    assert ExampleEnv().parseFloat("x") == None;
  }

  /** The voltage set constructor keeps the unparsable `x` as a stale command. */
  lemma ExampleArgConstructs(g: Guards)
    ensures Construct(SetVoltage, Some(Str("x")), g, ExampleEnv())
         == Ok((Command(SetVoltage, Str("x"), true, false, Str(BAD_FLOAT)), g))
  {
    assert ExampleEnv().parseFloat("x") == None;
    assert TakesArg(SetVoltage) && HasFloatArg(SetVoltage);
  }

  /** Stripping, normalising and the query test leave `VOLTage x` as it is. */
  lemma ExampleLineNormalises()
    ensures Strip("VOLTage x", AsciiSpace) == "VOLTage x"
    ensures Normalise("VOLTage x") == "VOLTage x" && !IsQueryLine("VOLTage x")
  {
    var line := "VOLTage x";
    ExampleLineStrips(AsciiSpace);
    ExampleLineStrips(PySpace);
    ExampleLineStrips(QueryMark);
    ExampleLineIsSingleSpaced();
    assert Trimmed(line) == line;
  }

  lemma ExampleLineStrips(cls: CharClass)
    ensures Strip("VOLTage x", cls) == "VOLTage x"
  {
    ExampleLineHasNoLead(cls);
    ExampleLineHasNoTrail(cls);
  }

  lemma ExampleLineHasNoLead(cls: CharClass)
    ensures LeadCount("VOLTage x", cls) == 0
  {
    var s := "VOLTage x";
    assert s[0] == 'V' && !InClass(cls, 'V');
  }

  lemma ExampleLineHasNoTrail(cls: CharClass)
    ensures TrailCount("VOLTage x", cls) == 0
  {
    var s := "VOLTage x";
    assert s[|s| - 1] == 'x' && !InClass(cls, 'x');
  }

  lemma ExampleLineIsSingleSpaced()
    ensures !HasDouble("VOLTage x") && CountSpaces("VOLTage x") == 1
  {
  }

  lemma ExampleLineSplits()
    ensures SplitOnce("VOLTage x") == ("VOLTage", "x")
  {
    var s := "VOLTage x";
    assert FirstSpace(s[7..]) == 0;
    assert FirstSpace(s) == 7 by {
      assert s[1..][1..][1..][1..][1..][1..][1..] == s[7..];
    }
    assert s[..7] == "VOLTage";
    assert s[8..] == "x";
  }

  /** Corrected: the same line writes nothing, queues nothing, leaves the guards
      alone and answers with the error text. */
  lemma BadFloatIsReported(s: Server, item: Command, answers: Answers, env: Env)
    requires s.fastUp && s.fastQ == []
    requires (item.kind == SetVoltage || item.kind == SetCurrent) && FloatOf(env, item.arg) == Ok(None)
    ensures var (reply, s1) := Route(s, item, answers, env, true);
      && reply == Sent(Plain(Str(BAD_FLOAT)))
      && s1 == s
  {
    var g := s.pool.guards;
    var k := if item.kind == SetVoltage then SetVoltageSetpoint else SetCurrent;
    var setpt := Command(k, item.arg, true, false, Str(BAD_FLOAT));
    assert Construct(k, Some(item.arg), g, env) == Ok((setpt, g));
    JoinSingle(s, FastLane, setpt, answers, env);
  }

  /** Corrected rendering: a float command built from a numeral that does not
      parse answers with 'error: bad float', where `result_as_string` raises. */
  lemma RenderFixedReportsBadFloat(k: Kind, arg: Value, g: Guards, env: Env)
    requires HasFloatArg(k) && FloatOf(env, arg) == Ok(None)
    ensures var c := Construct(k, Some(arg), g, env).value.0;
      RenderFixed(c) == Ok(Plain(Str(BAD_FLOAT))) && Render(c) == Err(FormatFailure)
  {
    BadFloatCannotRender(k, arg, g, env);
  }

  /** The correction changes nothing for a numeral that parses: with a running
      fast worker and an instrument that answers, both versions give the same
      answer and the same server state. */
  lemma CorrectionAgreesOnGoodFloats(s: Server, item: Command, x: real, answers: Answers, env: Env)
    requires (item.kind == SetVoltage || item.kind == SetCurrent) && FloatOf(env, item.arg) == Ok(Some(x))
    requires s.fastUp && s.fastQ == [] && answers(|s.pool.calls|).Ok?
    ensures Route(s, item, answers, env, true) == Route(s, item, answers, env, false)
  {
    var g := s.pool.guards;
    var k := if item.kind == SetVoltage then SetVoltageSetpoint else SetCurrent;
    var a := if item.kind == SetVoltage then VoltageApply else CurrentApply;
    var setpt := Command(k, Num(x), false, false, NoValue);
    assert Construct(k, Some(item.arg), g, env) == Ok((setpt, g));
    ConstructWithoutArgument(a, g, env);
    ClassAttributes(k);
    JoinSingle(s, FastLane, setpt, answers, env);
    JoinSingle(s.(pool := s.pool.(guards := WithGuard(g, a, true))), FastLane, setpt, answers, env);
  }
}

=== FILE: text.dfy ===
/** The string operations the command parsers use: Python's `str.strip`,
    `endswith`, `count(' ')`, `split(' ')` and the double-space collapse loop
    `while "  " in s: s = s.replace("  ", " ")`. */
module Text {

  /** `str.isspace()` for one character: the characters Python's argument-less
      `strip()` removes. */
  predicate IsPySpace(c: char) {
    var n := c as int;
    || (0x09 <= n <= 0x0D) || (0x1C <= n <= 0x20) || n == 0x85 || n == 0xA0 || n == 0x1680
    || (0x2000 <= n <= 0x200A) || n == 0x2028 || n == 0x2029 || n == 0x202F || n == 0x205F || n == 0x3000
  }

  /** `bytes.strip()`: ASCII whitespace only. */
  predicate IsAsciiSpace(c: char) {
    var n := c as int;
    (0x09 <= n <= 0x0D) || n == 0x20
  }

  /** The characters `strip('? ')` removes. */
  predicate IsQueryMark(c: char) {
    c == '?' || c == ' '
  }

  /** What `drop` selects: Python whitespace, ASCII whitespace, or `'? '`. */
  datatype CharClass = PySpace | AsciiSpace | QueryMark

  predicate InClass(cls: CharClass, c: char) {
    match cls
    case PySpace => IsPySpace(c)
    case AsciiSpace => IsAsciiSpace(c)
    case QueryMark => IsQueryMark(c)
  }

  /** The length of the longest prefix of class characters. */
  function LeadCount(s: string, cls: CharClass): (n: nat)
    ensures n <= |s|
    ensures n < |s| ==> !InClass(cls, s[n])
    decreases |s|
  {
    if |s| > 0 && InClass(cls, s[0]) then 1 + LeadCount(s[1..], cls) else 0
  }

  /** The length of the longest suffix of class characters. */
  function TrailCount(s: string, cls: CharClass): (n: nat)
    ensures n <= |s|
    ensures n < |s| ==> !InClass(cls, s[|s| - 1 - n])
    decreases |s|
  {
    if |s| > 0 && InClass(cls, s[|s| - 1]) then 1 + TrailCount(s[..|s| - 1], cls) else 0
  }

  /** `lstrip`: drop the longest prefix of class characters. */
  function TrimStart(s: string, cls: CharClass): string {
    s[LeadCount(s, cls)..]
  }

  /** `rstrip`: drop the longest suffix of class characters. */
  function TrimEnd(s: string, cls: CharClass): string {
    s[..|s| - TrailCount(s, cls)]
  }

  /** What `lstrip` drops is all class characters. */
  lemma {:induction false} TrimStartDropsClass(s: string, cls: CharClass)
    ensures forall k :: 0 <= k < LeadCount(s, cls) ==> InClass(cls, s[k])
    decreases |s|
  {
    if |s| > 0 && InClass(cls, s[0]) {
      var t := s[1..];
      TrimStartDropsClass(t, cls);
      forall k | 1 <= k < LeadCount(s, cls)
        ensures InClass(cls, s[k])
      {
        assert s[k] == t[k - 1];
      }
    }
  }

  /** What `rstrip` drops is all class characters. */
  lemma {:induction false} TrimEndDropsClass(s: string, cls: CharClass)
    ensures forall k :: |s| - TrailCount(s, cls) <= k < |s| ==> InClass(cls, s[k])
    decreases |s|
  {
    if |s| > 0 && InClass(cls, s[|s| - 1]) {
      var t := s[..|s| - 1];
      TrimEndDropsClass(t, cls);
      forall k | |s| - TrailCount(s, cls) <= k < |s| - 1
        ensures InClass(cls, s[k])
      {
        assert s[k] == t[k];
      }
    }
  }

  /** `strip`: both ends. */
  function Strip(s: string, cls: CharClass): string {
    TrimEnd(TrimStart(s, cls), cls)
  }

  /** What Strip keeps is one contiguous slice of its input. */
  lemma StripIsSlice(s: string, cls: CharClass)
    ensures var i, r := LeadCount(s, cls), Strip(s, cls);
      i + |r| <= |s| && r == s[i..i + |r|]
  {
    var i := LeadCount(s, cls);
    var t := s[i..];
    var n := |t| - TrailCount(t, cls);
    assert Strip(s, cls) == t[..n];
    NestedSlice(s, i, n);
  }

  /** A prefix of a suffix is a slice of the whole. */
  lemma NestedSlice(s: string, i: nat, n: nat)
    requires i + n <= |s|
    ensures s[i..][..n] == s[i..i + n]
  {
  }

  /** What Strip drops after the slice is all class characters. */
  lemma StripDropsTail(s: string, cls: CharClass)
    ensures var i, r := LeadCount(s, cls), Strip(s, cls);
      forall k :: i + |r| <= k < |s| ==> InClass(cls, s[k])
  {
    var i := LeadCount(s, cls);
    var t := s[i..];
    TrimEndDropsClass(t, cls);
    forall k | i + |Strip(s, cls)| <= k < |s|
      ensures InClass(cls, s[k])
    {
      assert s[k] == t[k - i];
    }
  }

  /** The result of Strip neither starts nor ends with a class character. */
  lemma StripEndsOutsideClass(s: string, cls: CharClass)
    ensures var r := Strip(s, cls);
      |r| > 0 ==> !InClass(cls, r[0]) && !InClass(cls, r[|r| - 1])
  {
    var t := TrimStart(s, cls);
    var r := TrimEnd(t, cls);
    if |r| > 0 {
      assert r[0] == t[0];
    }
  }

  /** Strip returns the middle of its input: the characters it removes on either
      side are all in the class, and the result neither starts nor ends with one. */
  lemma StripIsMaximalMiddle(s: string, cls: CharClass)
    ensures var i, r := |s| - |TrimStart(s, cls)|, Strip(s, cls);
      && i + |r| <= |s| && r == s[i..i + |r|]
      && (forall k :: 0 <= k < i ==> InClass(cls, s[k]))
      && (forall k :: i + |r| <= k < |s| ==> InClass(cls, s[k]))
      && (|r| > 0 ==> !InClass(cls, r[0]) && !InClass(cls, r[|r| - 1]))
  {
    StripIsSlice(s, cls);
    TrimStartDropsClass(s, cls);
    StripDropsTail(s, cls);
    StripEndsOutsideClass(s, cls);
  }

  /** `s.endswith(c)`. */
  predicate EndsWith(s: string, c: char) {
    |s| > 0 && s[|s| - 1] == c
  }

  /** `"  " in s`. */
  predicate HasDouble(s: string) {
    exists i :: 0 <= i < |s| - 1 && s[i] == ' ' && s[i + 1] == ' '
  }

  /** `s.replace("  ", " ")`: left to right, non-overlapping. */
  function ReplaceDouble(s: string): (r: string)
    ensures |r| <= |s|
    ensures HasDouble(s) ==> |r| < |s|
    ensures |r| > 0 <==> |s| > 0
    ensures |r| > 0 ==> (r[0] == ' ' <==> s[0] == ' ')
  {
    if |s| < 2 then s
    else if s[0] == ' ' && s[1] == ' ' then " " + ReplaceDouble(s[2..])
    else
      var t := s[1..];
      assert HasDouble(s) ==> HasDouble(t) by {
        if HasDouble(s) {
          var i :| 0 <= i < |s| - 1 && s[i] == ' ' && s[i + 1] == ' ';
          assert t[i - 1] == s[i];
        }
      }
      [s[0]] + ReplaceDouble(t)
  }

  /** The parser's collapse loop as a function: replace until no double space is left. */
  function CollapseSpaces(s: string): (r: string)
    decreases |s|
  {
    if HasDouble(s) then CollapseSpaces(ReplaceDouble(s)) else s
  }

  /** Reference definition: every maximal run of spaces shortened to one space. */
  function Squeeze(s: string): string {
    if |s| < 2 then s
    else if s[0] == ' ' && s[1] == ' ' then Squeeze(s[1..])
    else [s[0]] + Squeeze(s[1..])
  }

  /** Squeeze keeps the first character's kind: it starts with a space exactly
      when its input does. */
  lemma {:induction false} SqueezeHead(s: string)
    ensures |Squeeze(s)| > 0 <==> |s| > 0
    ensures |Squeeze(s)| > 0 ==> (Squeeze(s)[0] == ' ' <==> s[0] == ' ')
    decreases |s|
  {
    if |s| >= 2 && s[0] == ' ' && s[1] == ' ' {
      SqueezeHead(s[1..]);
    }
  }

  /** Squeeze of a character in front of a string, in terms of Squeeze of the string. */
  lemma SqueezeCons(c: char, x: string)
    ensures Squeeze([c] + x) == if c == ' ' && |x| > 0 && x[0] == ' ' then Squeeze(x) else [c] + Squeeze(x)
  {
    assert ([c] + x)[1..] == x;
  }

  /** One pass of `replace("  ", " ")` does not change what Squeeze makes of a string. */
  lemma {:induction false} SqueezeAbsorbsReplace(s: string)
    ensures Squeeze(ReplaceDouble(s)) == Squeeze(s)
    decreases |s|
  {
    if |s| < 2 {
    } else if s[0] == ' ' && s[1] == ' ' {
      var t := s[2..];
      SqueezeAbsorbsReplace(t);
      SqueezeCons(' ', ReplaceDouble(t));
      SqueezeCons(' ', t);
      assert s[1..] == [' '] + t;
    } else {
      var t := s[1..];
      SqueezeAbsorbsReplace(t);
      SqueezeCons(s[0], ReplaceDouble(t));
      SqueezeCons(s[0], t);
      assert s == [s[0]] + t;
    }
  }

  /** A string with no double space is its own Squeeze. */
  lemma {:induction false} SqueezeFixesSingleSpaced(s: string)
    requires !HasDouble(s)
    ensures Squeeze(s) == s
    decreases |s|
  {
    if |s| >= 2 {
      var t := s[1..];
      forall i | 0 <= i < |t| - 1
        ensures !(t[i] == ' ' && t[i + 1] == ' ')
      {
        assert t[i] == s[i + 1] && t[i + 1] == s[i + 2];
      }
      SqueezeFixesSingleSpaced(t);
      assert !(s[0] == ' ' && s[1] == ' ');
      assert s == [s[0]] + t;
    }
  }

  /** Squeeze leaves no two spaces in a row. */
  lemma {:induction false} SqueezeHasNoDouble(s: string)
    ensures !HasDouble(Squeeze(s))
    decreases |s|
  {
    if |s| >= 2 {
      var t := s[1..];
      SqueezeHasNoDouble(t);
      SqueezeHead(t);
      if !(s[0] == ' ' && s[1] == ' ') {
        var q := Squeeze(t);
        var r := [s[0]] + q;
        forall i | 0 <= i < |r| - 1
          ensures !(r[i] == ' ' && r[i + 1] == ' ')
        {
          if i == 0 {
            assert r[1] == q[0] && (q[0] == ' ' <==> t[0] == ' ');
          } else {
            assert r[i] == q[i - 1] && r[i + 1] == q[i];
          }
        }
      }
    }
  }

  /** The collapse loop terminates in Squeeze: it leaves exactly one space where
      the input had a run of them, and nothing else changes. */
  lemma {:induction false} CollapseIsSqueeze(s: string)
    ensures CollapseSpaces(s) == Squeeze(s)
    ensures !HasDouble(CollapseSpaces(s))
    decreases |s|
  {
    if HasDouble(s) {
      CollapseIsSqueeze(ReplaceDouble(s));
      SqueezeAbsorbsReplace(s);
    } else {
      SqueezeFixesSingleSpaced(s);
    }
  }

  /** The loop `while "  " in s: s = s.replace("  ", " ")` as written. */
  method Collapse(s: string) returns (r: string)
    ensures r == Squeeze(s)
    ensures !HasDouble(r)
  {
    r := s;
    while HasDouble(r)
      invariant Squeeze(r) == Squeeze(s)
      decreases |r|
    {
      SqueezeAbsorbsReplace(r);
      r := ReplaceDouble(r);
    }
    SqueezeFixesSingleSpaced(r);
  }

  /** `s.count(' ')`. */
  function CountSpaces(s: string): (n: nat)
    ensures n <= |s|
    ensures n == 0 <==> forall i :: 0 <= i < |s| ==> s[i] != ' '
  {
    if |s| == 0 then 0 else (if s[0] == ' ' then 1 else 0) + CountSpaces(s[1..])
  }

  /** The position of the first space, or |s| when there is none. */
  function FirstSpace(s: string): (k: nat)
    ensures k <= |s| && (forall i :: 0 <= i < k ==> s[i] != ' ')
    ensures k < |s| ==> s[k] == ' '
  {
    if |s| == 0 || s[0] == ' ' then 0 else 1 + FirstSpace(s[1..])
  }

  /** `(name, arg) = s.split(' ')` for a string with one space. */
  function SplitOnce(s: string): (string, string) {
    var k := FirstSpace(s);
    if k < |s| then (s[..k], s[k + 1..]) else (s, "")
  }

  /** With exactly one space, the split yields two space-free parts that rejoin
      to the input around that space. */
  lemma {:induction false} SplitOnceRejoins(s: string)
    requires CountSpaces(s) == 1
    ensures var (name, arg) := SplitOnce(s);
      && s == name + " " + arg
      && CountSpaces(name) == 0 && CountSpaces(arg) == 0
  {
    var k := FirstSpace(s);
    CountSplit(s, k);
    assert s == s[..k] + " " + s[k + 1..];
  }

  /** The spaces of a string are those before a position plus those from it on. */
  lemma {:induction false} CountSplit(s: string, k: nat)
    requires k <= |s|
    ensures CountSpaces(s) == CountSpaces(s[..k]) + CountSpaces(s[k..])
    ensures k < |s| ==> CountSpaces(s[k..]) == (if s[k] == ' ' then 1 else 0) + CountSpaces(s[k + 1..])
    decreases k
  {
    if k > 0 {
      CountSplit(s[1..], k - 1);
      assert s[1..][..k - 1] == s[1..k];
      assert s[..k][1..] == s[1..k];
      assert s[1..][k - 1..] == s[k..];
    } else {
      assert s[..0] == [];
      assert s[0..] == s;
    }
    if k < |s| {
      assert s[k..][1..] == s[k + 1..];
    }
  }
}

=== FILE: transport.dfy ===
/** The bus as the register layer sees it: `Modbus.get_by_addr` and
    `Modbus.set_by_addr` (modbus/__init__.py) reduced to a log of requests and
    the device's decoded reply to each. The reply to the k-th request of the
    log is `replies(k)`: a decoded RxData, or the exception the exchange raised. */
module Transport {
  import opened Base
  import opened Modbus

  datatype Request = Get(addr: int) | Set(addr: int, value: int) {
    function Address(): int {
      match this
      case Get(a) => a
      case Set(a, _) => a
    }
  }

  type Replies = nat -> Result<RxData>

  /** A result together with the request log it leaves behind, also after a raise. */
  datatype Exchange<T> = Exchange(result: Result<T>, log: seq<Request>)

  /** Every word the codec can decode fits sixteen bits. */
  ghost predicate WordsFit(replies: Replies) {
    forall k: nat :: replies(k).Ok? && replies(k).value.Word? ==> IsWord(replies(k).value.w)
  }

  /** `get_by_addr`: one read request; an unpackable address raises before anything is sent. */
  function GetByAddr(log: seq<Request>, replies: Replies, addr: int): (r: Exchange<RxData>)
    ensures IsWord(addr) ==> r.log == log + [Get(addr)] && r.result == replies(|log|)
    ensures !IsWord(addr) ==> r == Exchange(Err(StructError), log)
  {
    if IsWord(addr) then Exchange(replies(|log|), log + [Get(addr)])
    else Exchange(Err(StructError), log)
  }

  /** `set_by_addr`: one write request; True iff the reply is the echo `(address, value)`. */
  function SetByAddr(log: seq<Request>, replies: Replies, addr: int, value: int): (r: Exchange<bool>)
    ensures IsWord(addr) && IsWord(value) ==> r.log == log + [Set(addr, value)]
    ensures !(IsWord(addr) && IsWord(value)) ==> r == Exchange(Err(StructError), log)
    ensures r.result.Ok? <==> IsWord(addr) && IsWord(value) && replies(|log|).Ok?
    ensures r.result.Ok? ==> (r.result.value <==> replies(|log|).value == Echo(addr, value))
  {
    if !(IsWord(addr) && IsWord(value)) then Exchange(Err(StructError), log)
    else
      match replies(|log|)
      case Ok(d) => Exchange(Ok(d == Echo(addr, value)), log + [Set(addr, value)])
      case Err(e) => Exchange(Err(e), log + [Set(addr, value)])
  }

  /** The abstract read computes what the codec computes: given that the
      device's reply to the request is what the port decodes after sending it,
      the abstract result equals `Modbus.GetByAddr`. */
  lemma ReadMatchesCodec(link: Link, log: seq<Request>, replies: Replies, addr: int)
    requires IsWord(addr)
    requires replies(|log|) == ReceivePacket(Modbus.SendPacket(link, DEVICE, addr, None).value).result
    ensures GetByAddr(log, replies, addr).result == Modbus.GetByAddr(link, addr).result
  {
  }

  /** The abstract write computes what the codec computes, under the same
      assumption about the device's reply; the result equals `Modbus.SetByAddr`. */
  lemma WriteMatchesCodec(link: Link, log: seq<Request>, replies: Replies, addr: int, value: int)
    requires IsWord(addr) && IsWord(value)
    requires replies(|log|) == ReceivePacket(Modbus.SendPacket(link, DEVICE, addr, Some(value)).value).result
    ensures SetByAddr(log, replies, addr, value).result == Modbus.SetByAddr(link, addr, value).result
  {
  }

  /** The codec only ever decodes words that fit sixteen bits. */
  lemma DecodedWordsFit(link: Link)
    requires ReceivePacket(link).result.Ok? && ReceivePacket(link).result.value.Word?
    ensures IsWord(ReceivePacket(link).result.value.w)
  {
  }
}

=== FILE: workers.dfy ===
/** The two queue workers of hm305/queue_handler.py. Each takes items off its
    queue in FIFO order and decides per item: skip a stale one, refuse (fast
    worker only) one that needs the serial port, otherwise invoke it. Only the
    queue's `Empty` timeout is caught, so an exception from `invoke` ends the
    worker without acknowledging that item. Threads are not modelled: a worker
    run drains the queue until it is empty, until `time_to_die` is seen, or
    until an item raises. */
module Workers {
  import opened Base
  import opened Commands

  datatype Worker = SerialWorker | FastWorker

  datatype Action = Skip | Refuse | Run

  /** The branch taken for one dequeued item. */
  function Decide(w: Worker, c: Command): (a: Action)
    ensures a == Skip <==> c.stale
    ensures a == Refuse <==> w == FastWorker && !c.stale && UsesSerialPort(c.kind)
  {
    if c.stale then Skip
    else if w == FastWorker && UsesSerialPort(c.kind) then Refuse
    else Run
  }

  /** One item: the command afterwards, the shared state, and whether it raised. */
  function Process(w: Worker, c: Command, pool: Pool, answers: Answers, env: Env): (o: Outcome)
    ensures o.cmd.kind == c.kind && o.cmd.stale == c.stale
  {
    match Decide(w, c)
    case Skip => Outcome(Ok(()), c, pool)
    case Refuse => Outcome(Ok(()), c.(result := Str(QUEUE_ERROR)), pool)
    case Run => Invoke(c, pool, answers, env)
  }

  /** Only an invoked item can raise; a skipped one comes out as it went in and
      a refused one carries the queue error. */
  lemma ProcessFacts(w: Worker, c: Command, pool: Pool, answers: Answers, env: Env)
    ensures var o := Process(w, c, pool, answers, env);
      && (c.stale ==> o.cmd == c && o.result.Ok?)
      && (Decide(w, c) == Refuse ==> o.cmd == c.(result := Str(QUEUE_ERROR)) && o.result.Ok?)
      && (o.result.Err? ==> Decide(w, c) == Run)
  {
  }

  /** Why a run ended: `time_to_die` was set, the queue was empty, or an item raised. */
  datatype Stop = Dying | Idle | Crashed(error: Error)

  /** The items taken off the queue (as they are afterwards), what is left, the
      number of `task_done` calls, and the shared state. */
  datatype WorkerRun = WorkerRun(taken: seq<Command>, rest: seq<Command>, acks: nat, pool: Pool, stop: Stop)

  /** `run()`. `dieAt` is the number of the `time_to_die` check that first sees
      it set (None: never). */
  function Drain(w: Worker, queue: seq<Command>, pool: Pool, answers: Answers, env: Env,
                 dieAt: Option<nat>, checks: nat): (r: WorkerRun)
    decreases |queue|
  {
    if dieAt.Some? && checks >= dieAt.value then WorkerRun([], queue, 0, pool, Dying)
    else if |queue| == 0 then WorkerRun([], [], 0, pool, Idle)
    else
      var o := Process(w, queue[0], pool, answers, env);
      if o.result.Err? then WorkerRun([o.cmd], queue[1..], 0, o.pool, Crashed(o.result.error))
      else
        var r := Drain(w, queue[1..], o.pool, answers, env, dieAt, checks + 1);
        r.(taken := [o.cmd] + r.taken, acks := r.acks + 1)
  }

  /** The order and bookkeeping of a worker run: items leave in FIFO order, every
      item taken is acknowledged except one that raised, which ends the run, and
      an idle worker left nothing behind. */
  lemma {:induction false} DrainShape(w: Worker, queue: seq<Command>, pool: Pool, answers: Answers, env: Env,
                                      dieAt: Option<nat>, checks: nat)
    ensures var r := Drain(w, queue, pool, answers, env, dieAt, checks);
      && |r.taken| + |r.rest| == |queue| && r.rest == queue[|r.taken|..]
      && (r.stop.Crashed? ==> |r.taken| > 0 && r.acks == |r.taken| - 1
                              && Decide(w, queue[|r.taken| - 1]) == Run)
      && (!r.stop.Crashed? ==> r.acks == |r.taken|)
      && (r.stop == Idle ==> r.rest == [])
      && (dieAt.None? ==> r.stop != Dying)
    decreases |queue|
  {
    if dieAt.Some? && checks >= dieAt.value {
    } else if |queue| == 0 {
    } else {
      var o := Process(w, queue[0], pool, answers, env);
      ProcessFacts(w, queue[0], pool, answers, env);
      var r := Drain(w, queue, pool, answers, env, dieAt, checks);
      if o.result.Ok? {
        var tail := queue[1..];
        DrainShape(w, tail, o.pool, answers, env, dieAt, checks + 1);
        var r' := Drain(w, tail, o.pool, answers, env, dieAt, checks + 1);
        assert r.taken == [o.cmd] + r'.taken;
        if r.stop.Crashed? {
          assert queue[|r.taken| - 1] == tail[|r'.taken| - 1];
        }
        assert r.rest == r'.rest == tail[|r'.taken|..] == queue[|r.taken|..];
      }
    }
  }

  /** What happens to each item taken: it keeps its class and staleness, a stale
      item comes out untouched, and the fast worker stamps "QUEUE ERROR" on a live
      serial-port item instead of invoking it. */
  lemma {:induction false} DrainItems(w: Worker, queue: seq<Command>, pool: Pool, answers: Answers, env: Env,
                                      dieAt: Option<nat>, checks: nat)
    ensures var r := Drain(w, queue, pool, answers, env, dieAt, checks);
      && |r.taken| <= |queue|
      && (forall i :: 0 <= i < |r.taken| ==> r.taken[i].kind == queue[i].kind && r.taken[i].stale == queue[i].stale)
      && (forall i :: 0 <= i < |r.taken| && queue[i].stale ==> r.taken[i] == queue[i])
      && (forall i :: 0 <= i < |r.taken| && Decide(w, queue[i]) == Refuse ==>
            r.taken[i] == queue[i].(result := Str(QUEUE_ERROR)))
    decreases |queue|
  {
    if dieAt.Some? && checks >= dieAt.value {
    } else if |queue| == 0 {
    } else {
      var o := Process(w, queue[0], pool, answers, env);
      ProcessFacts(w, queue[0], pool, answers, env);
      var r := Drain(w, queue, pool, answers, env, dieAt, checks);
      if o.result.Ok? {
        var tail := queue[1..];
        DrainItems(w, tail, o.pool, answers, env, dieAt, checks + 1);
        var r' := Drain(w, tail, o.pool, answers, env, dieAt, checks + 1);
        assert r.taken == [o.cmd] + r'.taken;
        forall i | 1 <= i < |r.taken|
          ensures r.taken[i] == r'.taken[i - 1] && queue[i] == tail[i - 1]
        {
        }
      }
    }
  }

  /** What a worker run guarantees: DrainShape and DrainItems together. */
  lemma DrainFacts(w: Worker, queue: seq<Command>, pool: Pool, answers: Answers, env: Env,
                   dieAt: Option<nat>, checks: nat)
    ensures var r := Drain(w, queue, pool, answers, env, dieAt, checks);
      && |r.taken| + |r.rest| == |queue| && r.rest == queue[|r.taken|..]
      && (forall i :: 0 <= i < |r.taken| ==> r.taken[i].kind == queue[i].kind && r.taken[i].stale == queue[i].stale)
      && (forall i :: 0 <= i < |r.taken| && queue[i].stale ==> r.taken[i] == queue[i])
      && (forall i :: 0 <= i < |r.taken| && Decide(w, queue[i]) == Refuse ==>
            r.taken[i] == queue[i].(result := Str(QUEUE_ERROR)))
      && (r.stop.Crashed? ==> |r.taken| > 0 && r.acks == |r.taken| - 1
                              && Decide(w, queue[|r.taken| - 1]) == Run)
      && (!r.stop.Crashed? ==> r.acks == |r.taken|)
      && (r.stop == Idle ==> r.rest == [])
      && (dieAt.None? ==> r.stop != Dying)
  {
    DrainShape(w, queue, pool, answers, env, dieAt, checks);
    DrainItems(w, queue, pool, answers, env, dieAt, checks);
  }

  /** The serial worker never looks at `uses_serial_port`: every live item is
      invoked, whatever its class. */
  lemma SerialWorkerInvokesEveryLiveItem(c: Command, pool: Pool, answers: Answers, env: Env)
    requires !c.stale
    ensures Process(SerialWorker, c, pool, answers, env) == Invoke(c, pool, answers, env)
  {
  }

  /** The fast worker makes no instrument call for an item that needs the serial
      port, and none for a stale item; it invokes exactly the live items that
      stay off the port. */
  lemma FastWorkerGuardsThePort(c: Command, pool: Pool, answers: Answers, env: Env)
    ensures UsesSerialPort(c.kind) || c.stale ==> Process(FastWorker, c, pool, answers, env).pool == pool
    ensures !UsesSerialPort(c.kind) && !c.stale ==> Process(FastWorker, c, pool, answers, env) == Invoke(c, pool, answers, env)
  {
  }

  /** A stale apply taken off the queue is skipped, so its guard stays as it was;
      the guard is cleared only by invoking a live apply. */
  lemma SkippedApplyKeepsGuard(w: Worker, c: Command, pool: Pool, answers: Answers, env: Env)
    requires IsApply(c.kind)
    ensures var o := Process(w, c, pool, answers, env);
      GuardOf(o.pool.guards, c.kind) <==> GuardOf(pool.guards, c.kind) && (c.stale || w == FastWorker)
  {
    ClassAttributes(c.kind);
  }

  /** The loop of `run()` as written: check `time_to_die`, take the head, act,
      acknowledge. */
  method RunWorker(w: Worker, queue: seq<Command>, pool: Pool, answers: Answers, env: Env, dieAt: Option<nat>)
    returns (r: WorkerRun)
    ensures r == Drain(w, queue, pool, answers, env, dieAt, 0)
  {
    var q := queue;
    var p := pool;
    var taken: seq<Command> := [];
    var acks := 0;
    var checks := 0;
    while true
      invariant Drain(w, queue, pool, answers, env, dieAt, 0)
             == Prefixed(taken, acks, Drain(w, q, p, answers, env, dieAt, checks))
      decreases |q|
    {
      if dieAt.Some? && checks >= dieAt.value {
        return Prefixed(taken, acks, WorkerRun([], q, 0, p, Dying));
      }
      if |q| == 0 {
        return Prefixed(taken, acks, WorkerRun([], [], 0, p, Idle));
      }
      var item := q[0];
      var o := Process(w, item, p, answers, env);
      if o.result.Err? {
        return Prefixed(taken, acks, WorkerRun([o.cmd], q[1..], 0, o.pool, Crashed(o.result.error)));
      }
      ghost var next := Drain(w, q[1..], o.pool, answers, env, dieAt, checks + 1);
      PrefixedTwice(taken, acks, o.cmd, next);
      taken := taken + [o.cmd];
      acks := acks + 1;
      q := q[1..];
      p := o.pool;
      checks := checks + 1;
    }
  }

  /** A run preceded by items already taken and acknowledged. */
  function Prefixed(taken: seq<Command>, acks: nat, r: WorkerRun): WorkerRun {
    r.(taken := taken + r.taken, acks := acks + r.acks)
  }

  lemma PrefixedTwice(taken: seq<Command>, acks: nat, c: Command, r: WorkerRun)
    ensures Prefixed(taken, acks, r.(taken := [c] + r.taken, acks := r.acks + 1))
         == Prefixed(taken + [c], acks + 1, r)
  {
    assert taken + ([c] + r.taken) == (taken + [c]) + r.taken;
  }
}
